=== FILE: README.md ===
# Store core: orders, products and the client's cart and catalogue logic

A Dafny model of the order and product logic of a small shop. The shop has
a Laravel back end and a React front end.

Back end:

- Order placement (`OrderController::store`) and order status changes
  (`update`).
- The seller's order list (`sellerOrders`).
- The `Product` model's mass-assignment whitelist and decimal casts.
- The product endpoints `store`, `show`, `update` and `destroy`, with their
  image-path and `about_product` handling.

The database is an immutable record: users, products keyed by id, orders,
order items, the auto-increment counters, and the public disk as a set of
paths. Every endpoint is a pure function from the record and the request to
the new record and a response (status and body).

Front end:

- The order ledger kept in local storage (`OrderContext`).
- The HTTP helpers (`api.js`): absolute image URLs, form encoding of request
  bodies, the request interceptor, the product read transforms, and the
  token guard of the writing calls.
- The checkout and cart totals and the order objects they build.
- The seller's product form (`about_product` split and join, required
  fields, create or update).
- The catalogue's category list, filter and sorts, and the item
  `handleAddToCart` builds.

JS values are a datatype (`JsValues.JsVal`). Numbers are exact reals or NaN.
`parseFloat`, `parseInt` and `Number` on text are defined in full
(`NumberText`). Some things are functions passed in as parameters:

- `JSON.parse` and `JSON.stringify`;
- `String` of a non-integral number;
- the e-mail validator;
- the clock and `Date.now()`;
- the locale collation of `localeCompare`.

Module layout, one module per source file plus shared modules:

- `Wrappers`, `Strings`, `Seqs`, `Sorting`: option and result types, text
  helpers, filter and stable insertion sort.
- `PhpValues`, `Validation`: PHP request values and the subset of Laravel's
  validator the controllers use.
- `Database`, `ProductModel`, `OrderController`, `ProductController`.
- `NumberText`, `JsValues`, `Api`, `OrderContext`, `CartTotals`, `Checkout`,
  `Cart`, `ProductList`, `AllProducts`.

Behaviour of the code the model reproduces:

- `store` validates inside its `try`, so a failed validation is answered
  with 500, not 422.
- `store` validates the request, not the decoded `items`, so a string
  `items` never creates an order.
- `ProductController::store` computes the comma split of `about_product` and
  then stores the raw request value.
- `ProductController::store` writes an uploaded image twice.
- A price that passes validation but not the `decimal:2` cast (a blank
  `price` in `update`, a blank `original_price` in `store`) ends the request
  with 500 after the image step; the files written by then stay on disk.

## Model

| member | source | states |
|---|---|---|
| OrderController.Place | backend/app/Http/Controllers/OrderController.php:40-150 | answers 400 exactly for a string `items` that does not decode, 201 exactly when the request passes the rules (then the result is `Create`), else 500 with the failing attribute names; every non-201 answer leaves the database unchanged |
| OrderController.Create | backend/app/Http/Controllers/OrderController.php:81-122 | the new order is `pending`, dated now, carries the validated user and customer fields, and its total is the sum of price times quantity over its rows; one row per request item in request order with the item's product id, `(int)` quantity and `(float)` price; only orders, items and counters change |
| OrderController.ValidatedOrder | backend/app/Http/Controllers/OrderController.php:67-76 | passing the rule list guarantees an existing user, a text name and an e-mail the validator accepts, both within 255 characters, a text address, and a non-empty `items` list of existing products with integer quantity at least one and numeric price at least zero |
| OrderController.ValidatedCustomer | backend/app/Http/Controllers/OrderController.php:68-71 | the four customer rules leave the user id existing and the name, e-mail and address present as text |
| OrderController.ValidatedItem | backend/app/Http/Controllers/OrderController.php:73-75 | each element of a validated `items` names an existing product, an integer quantity of at least one and a non-negative numeric price |
| OrderController.CreateTotalNonNegative | backend/app/Http/Controllers/OrderController.php:90-94 | the created order's total is at least zero and every row has quantity at least one and price at least zero |
| OrderController.CreateKeepsValid | backend/app/Http/Controllers/OrderController.php:106-122 | creating an order keeps the database invariant: ids increasing and below the counters, every item belonging to an order, every total equal to its items' sum |
| OrderController.PlaceKeepsValid | backend/app/Http/Controllers/OrderController.php:40-150 | every outcome of `store` keeps the database invariant |
| OrderController.StringItemsNeverCreate | backend/app/Http/Controllers/OrderController.php:56-76 | a string `items` is answered with 400 or 500 and writes nothing, whether or not it decodes |
| OrderController.PlaceProductItems | backend/app/Http/Controllers/OrderController.php:84-122 | a placed order changes no product, and a product's `orderItems` grow by exactly the new rows naming it |
| OrderController.StatusAccepted | backend/app/Http/Controllers/OrderController.php:159-161 | the status rule passes exactly for a text status among pending, processing, completed, cancelled |
| OrderController.UpdateStatus | backend/app/Http/Controllers/OrderController.php:157-165 | 404 exactly for an unknown order, 200 exactly for an accepted status, else 422; on 200 only that order's `status` changes and the answer is the order with its items |
| OrderController.UpdateStatusKeepsValid | backend/app/Http/Controllers/OrderController.php:157-165 | a status change keeps the database invariant |
| OrderController.NewestFirst | backend/app/Http/Controllers/OrderController.php:29-31 | the result is a permutation of the orders in non-increasing creation time |
| OrderController.NewestFirstOfSorted | backend/app/Http/Controllers/OrderController.php:29-31 | under the model's tie rule (orders with equal `created_at` keep their insertion order), orders already newest first are listed unchanged |
| OrderController.SellerOrders | backend/app/Http/Controllers/OrderController.php:26-38 | answers 200 with one entry per order, each with exactly that order's items, non-increasing in `created_at`; orders with equal `created_at` are kept in insertion order, the model's choice |
| Database.AccumulateIsLineSum | backend/app/Http/Controllers/OrderController.php:81-94 | the running total of the placing loop equals the start plus the sum of price times quantity over the rows |
| Database.LineSumNonNegative | backend/app/Http/Controllers/OrderController.php:93-94 | rows with non-negative price and quantity sum to a non-negative total |
| ProductModel.Fill | backend/app/Models/Product.php:9-19 | mass assignment writes every fillable input key, keeps every other attribute, and adds no key outside the two |
| ProductModel.FillIgnoresGuarded | backend/app/Models/Product.php:9-19 | a key outside the whitelist, `_method` included, makes no difference to mass assignment |
| ProductModel.FillIdempotent | backend/app/Models/Product.php:9-19 | assigning the same input twice is assigning it once |
| ProductModel.CentsExact | backend/app/Models/Product.php:23-24 | an amount with two fraction digits rounds to its own cents |
| ProductModel.DecimalCastOfText | backend/app/Models/Product.php:23-24 | a numeric text is read as its value rounded to cents, written with two decimals |
| ProductModel.DecimalCastOfMoneyText | backend/app/Models/Product.php:23-24 | a two-decimal text is read back as itself |
| ProductModel.DecimalCastIdempotent | backend/app/Models/Product.php:23-24 | storing a shown price again shows the same price |
| ProductModel.DecimalCastReadByClient | backend/app/Models/Product.php:23-24 | the client's `parseFloat` of a shown price is the stored amount rounded to cents |
| ProductModel.Serialize | backend/app/Models/Product.php:21-25 | a product serialises exactly when its decimal attributes are numeric or null; the id is kept, decimal attributes are cast and the others are copied |
| ProductController.Store | backend/app/Http/Controllers/ProductController.php:17-61 | 422 exactly when the rules fail, 500 exactly for an `image_url` PHP's string functions reject or a price the decimal cast rejects, else 201 with the next id and a product that serialises; no answer but 201 adds a product, and only the disk and the upload counter may change otherwise |
| ProductController.StoreWithUpload | backend/app/Http/Controllers/ProductController.php:34-57 | with an upload the file is written under two different paths and `image_url` is `/storage/` plus the second |
| ProductController.StoreWithoutUpload | backend/app/Http/Controllers/ProductController.php:33-57 | without an upload a truthy `image_url` loses its leading slashes and gains `/storage/`, a falsy one gives null, and the disk is untouched |
| ProductController.StoreUrlPrefixedTwice | backend/app/Http/Controllers/ProductController.php:36-57 | a given `/storage/` + path is stored as `/storage/storage/` + path, so `/storage/a.png` becomes `/storage/storage/a.png` |
| ProductController.PrefixedUrlDoubled | backend/app/Http/Controllers/ProductController.php:37-57 | stripping the leading slash and prefixing `/storage/` doubles an existing prefix |
| ProductController.StoreKeepsAboutProduct | backend/app/Http/Controllers/ProductController.php:40-54 | the stored `about_product` is the request value as it came; the comma split is unused |
| ProductController.StoreKeepsValid | backend/app/Http/Controllers/ProductController.php:17-61 | `store` keeps the database invariant |
| ProductController.StoreBlankOriginalPrice | backend/app/Http/Controllers/ProductController.php:19-60 | a blank `original_price` passes validation and fails the cast: 500, no product added, and the upload still written under both paths |
| ProductController.NewProductCasts | backend/app/Http/Controllers/ProductController.php:48-58 | the new product's prices cast exactly when the request's `price` and `original_price` cast |
| ProductController.BlankNotCast | backend/app/Models/Product.php:23-24 | a blank text is rejected by the decimal cast |
| ProductController.UploadPathsDiffer | backend/app/Http/Controllers/ProductController.php:35-45 | two uploads with different counters get different paths |
| ProductController.Show | backend/app/Http/Controllers/ProductController.php:62-69 | 404 with "Product not found" exactly for an unknown id, 500 exactly for a stored product whose prices do not cast, else 200 with that product |
| ProductController.ShowOfValid | backend/app/Http/Controllers/ProductController.php:62-69 | on a database the endpoints keep valid, every stored product is shown with 200 |
| ProductController.AboutList | backend/app/Http/Controllers/ProductController.php:42-112 | the split has one entry per comma plus one, keyed 0, 1, …, each a trimmed text without commas |
| ProductController.AboutListOfBlank | backend/app/Http/Controllers/ProductController.php:111-112 | a blank string splits into one empty entry |
| ProductController.UpdateAboutIsBlank | backend/app/Http/Controllers/ProductController.php:85-111 | the only text `about_product` that passes the `array` rule is blank |
| ProductController.DropImage | backend/app/Http/Controllers/ProductController.php:96-133 | a truthy `image_url` with every `/storage/` removed is taken off the disk if there; a falsy one leaves the disk alone |
| ProductController.UpdateImage | backend/app/Http/Controllers/ProductController.php:91-108 | an upload replaces the old file and sets `image_url` to `/storage/` plus the new path; otherwise a given `image_url` is kept as it came and the disk is untouched |
| ProductController.NormaliseAbout | backend/app/Http/Controllers/ProductController.php:111-113 | a text `about_product` becomes its comma split and nothing else changes; any other data is unchanged |
| ProductController.Update | backend/app/Http/Controllers/ProductController.php:71-118 | 404 for an unknown id before validation, 422 for failed rules, 500 for an old `image_url` the string functions reject, else 200 with the image and `about_product` steps applied and the data mass-assigned over the product; 500 also exactly when the assigned prices do not cast; no non-200 answer changes a product, and only the 500 of a failed cast keeps the image step's disk changes |
| ProductController.StepsKeepPrices | backend/app/Http/Controllers/ProductController.php:91-115 | the image and `about_product` steps leave the prices alone: the written prices cast exactly when the request's prices over the stored ones do |
| ProductController.UpdateBlankPrice | backend/app/Http/Controllers/ProductController.php:79-117 | a blank `price` passes the `sometimes` and `numeric` rules and fails the cast: 500 and every product unchanged |
| ProductController.UpdateKeepsValid | backend/app/Http/Controllers/ProductController.php:71-118 | `update` keeps the database invariant |
| ProductController.UpdateKeepsProductSet | backend/app/Http/Controllers/ProductController.php:115 | `update` changes neither the set of product ids nor any product's id |
| ProductController.UpdateIgnoresMethod | backend/app/Http/Controllers/ProductController.php:91-115 | an update request with `_method` has the same effect as one without it |
| ProductController.Destroy | backend/app/Http/Controllers/ProductController.php:120-139 | 404 with "Product not found" for an unknown id, 500 when the stored `image_url` is one PHP's string functions reject, else 200 with the product removed and its file dropped from the disk; nothing else changes |
| ProductController.DestroyKeepsValid | backend/app/Http/Controllers/ProductController.php:120-139 | `destroy` keeps the database invariant and leaves the order items alone |
| ProductController.DestroyThenMissing | backend/app/Http/Controllers/ProductController.php:122-136 | after a successful delete, `show` and another delete of the same id both answer 404 |
| PhpValues.BlankNotNumeric | backend/app/Http/Controllers/ProductController.php:82 | a text of nothing but blanks is not numeric to PHP |
| Validation.NoFailuresIffAllPass | backend/app/Http/Controllers/ProductController.php:19-29 | validation names no failing attribute exactly when every attribute passes its rules |
| OrderContext.SafeJsonParse | frontend/src/contexts/OrderContext.jsx:19-26 | empty or missing text and unparseable text give the default; otherwise the parsed value |
| OrderContext.InitialOrders | frontend/src/contexts/OrderContext.jsx:29-38 | unavailable or missing storage gives `[]`; stored text that parses gives its value |
| OrderContext.ForceUpdate | frontend/src/contexts/OrderContext.jsx:74-84 | a reload takes the stored list, `[]` when missing, and keeps the orders when storage throws |
| OrderContext.ReloadIsInitial | frontend/src/contexts/OrderContext.jsx:29-84 | with storage available, a reload gives the same list as the initial load |
| OrderContext.Save | frontend/src/contexts/OrderContext.jsx:54-58 | saving stores the stringified orders |
| OrderContext.ReloadAfterSave | frontend/src/contexts/OrderContext.jsx:29-84 | when stringify and parse round-trip, both a reload and a fresh load after a save give the saved orders |
| OrderContext.SaveCheckPasses | frontend/src/contexts/OrderContext.jsx:60-67 | the write-verify check passes for any non-null list that round-trips |
| OrderContext.SaveCheckRejectsNull | frontend/src/contexts/OrderContext.jsx:60-67 | the write-verify check always fails for `null`, even when it round-trips |
| OrderContext.NewOrder | frontend/src/contexts/OrderContext.jsx:89-94 | the new order has id now, the ISO date and status `pending`, and keeps every other field of the given order |
| OrderContext.AddOrder | frontend/src/contexts/OrderContext.jsx:87-105 | the list becomes the new order followed by the old list; a previous value that is not iterable throws |
| OrderContext.AddOrderPrepends | frontend/src/contexts/OrderContext.jsx:96-97 | the list grows by one, the new order first and the old orders after it in their order |
| OrderContext.AddOrderKeeps | frontend/src/contexts/OrderContext.jsx:89-94 | every field other than id, date and status is the caller's |
| OrderContext.UpdateOrderStatus | frontend/src/contexts/OrderContext.jsx:108-117 | same length and order; orders whose id is strictly equal get the new status, every other order is identical; a null entry throws |
| OrderContext.StatusOfIdempotent | frontend/src/contexts/OrderContext.jsx:111-112 | setting the same status on one order twice is setting it once |
| OrderContext.UpdateAbsentId | frontend/src/contexts/OrderContext.jsx:108-117 | an id no order has leaves the list unchanged, whatever the status |
| OrderContext.UpdateStatusIdempotent | frontend/src/contexts/OrderContext.jsx:108-117 | updating the same status twice is updating it once |
| Api.StripApi | frontend/src/services/api.js:59 | exactly one leading `/api/` or `api/` is removed, else the URL is unchanged |
| Api.EnsureAbsoluteUrl | frontend/src/services/api.js:55-61 | falsy gives null; `http://` and `https://` URLs are unchanged; other text becomes the image base, `/`, and the stripped path; a truthy non-string throws |
| Api.EnsureAbsoluteUrlIdempotent | frontend/src/services/api.js:55-61 | applying it twice is applying it once |
| Api.StoragePathGetsTwoSlashes | frontend/src/services/api.js:59-60 | `/storage/x` becomes `http://localhost:8000//storage/x` |
| Api.PrepareRequestData | frontend/src/services/api.js:85-114 | FormData passes through; other data is flattened entry by entry into form data; `null` or `undefined` data throws |
| Api.PrepareArrayProperty | frontend/src/services/api.js:95-99 | an array property becomes `key[0]`, `key[1]`, … entries in index order, skipping nothing |
| Api.FlattenSkipsNullish | frontend/src/services/api.js:94 | a null or undefined property adds no entry |
| Api.Intercept | frontend/src/services/api.js:22-52 | get, head and options configs are unchanged; otherwise a token sets `X-CSRF-TOKEN`, FormData loses its Content-Type, a plain-object body is stringified and sent as JSON, and headers the interceptor does not manage are kept |
| Api.InterceptIdempotent | frontend/src/services/api.js:22-52 | intercepting twice is intercepting once |
| Api.ImageList | frontend/src/services/api.js:125-127 | a falsy `image` gives null; an array succeeds exactly when every entry can be completed, and then holds each entry completed by `ensureAbsoluteUrl`, in order; any other truthy value throws |
| Api.TransformProduct | frontend/src/services/api.js:121-128 | `image_url` and `img` are completed by `ensureAbsoluteUrl`, an `image` array is replaced by its entries completed in order, and every other property is kept |
| Api.TransformIdempotent | frontend/src/services/api.js:121-128 | transforming a transformed product changes nothing |
| Api.ImageListIdempotent | frontend/src/services/api.js:125-127 | the image list transform is idempotent |
| Api.GetAll | frontend/src/services/api.js:117-134 | succeeds exactly when the body is an array whose every product transforms, and then holds every product transformed, in order; a body that is not an array throws |
| Api.GetById | frontend/src/services/api.js:136-157 | a falsy id is refused with "Product ID is required" and no request; otherwise `/products/<id>` is read and transformed |
| Api.GetByIdAsListed | frontend/src/services/api.js:117-157 | a product read by id is transformed exactly as the list read transforms it |
| Api.CookieToken | frontend/src/services/api.js:168-173 | the token read from the cookie contains no `=` |
| Api.CookieTokenOfRow | frontend/src/services/api.js:168-173 | a cookie `XSRF-TOKEN=t` yields `t` |
| Api.CreateProduct | frontend/src/services/api.js:159-204 | throws the token message exactly when there is no token; otherwise posts the prepared form to `/products` with the token |
| Api.UpdateProduct | frontend/src/services/api.js:206-253 | as `CreateProduct`, to `/products/<id>`, with `_method=PUT` appended |
| Api.CreateOrder | frontend/src/services/api.js:312-366 | throws exactly when there is no token; otherwise posts the given form to `/orders` unchanged |
| Api.UpdateOrder | frontend/src/services/api.js:368-409 | as `UpdateProduct`, to `/orders/<id>` |
| Api.NoTokenNoRequest | frontend/src/services/api.js:177-387 | without a token none of the four writing calls sends its write request (the CSRF-cookie GET that precedes the token check is not modelled) |
| CartTotals.Total | frontend/src/Components/Checkout.jsx:32-36 | a total is a number exactly when every line's amount is read; an error is the first failing line's |
| CartTotals.FoldIsTotal | frontend/src/Components/Cart.jsx:82-84 | the left fold `reduce` performs equals the start plus the total |
| CartTotals.TotalPointwise | frontend/src/Components/Checkout.jsx:32-58 | lists whose lines have equal amounts, position by position, have equal totals |
| Checkout.UnitPrice | frontend/src/Components/Checkout.jsx:34-55 | the price is read exactly when the item is there and its price is text, and is then `parseFloat` of the text with every character but digits, `.` and `-` removed; otherwise a `TypeError` |
| Checkout.UnitPriceOfDollars | frontend/src/Components/Checkout.jsx:34 | `"$" + n` reads as `n` |
| Checkout.GroupedPriceText | frontend/src/Components/Checkout.jsx:55 | a `$` and a thousands separator are dropped wherever they stand: `"$" + x + "," + y` keeps `x + y` for numeric `x`, `y` |
| Strings.KeepNumericChars | frontend/src/Components/Checkout.jsx:55 | the result holds only digits, `.` and `-`; a text of only those is kept whole and a text of none of them becomes empty |
| Strings.KeepNumericCharsAppend | frontend/src/Components/Checkout.jsx:55 | the filter of a concatenation is the concatenation of the filters, so each character is kept or dropped on its own |
| Strings.KeepNumericCharsAround | frontend/src/Components/Checkout.jsx:55 | two characters other than digits, `.` and `-` are dropped from among numeric text, which is kept whole |
| Checkout.LineAmount | frontend/src/Components/Checkout.jsx:34 | a line's amount is its unit price times its quantity |
| Checkout.Subtotal | frontend/src/Components/Checkout.jsx:32-36 | the subtotal is the total of the line amounts |
| Checkout.DisplayedTotal | frontend/src/Components/Checkout.jsx:150-158 | the shown total is read exactly when every unit price is |
| Checkout.OrderLine | frontend/src/Components/Checkout.jsx:52-58 | a line keeps the item's id, name, quantity and image and holds the parsed unit price |
| Checkout.OrderObject | frontend/src/Components/Checkout.jsx:41-62 | the form's full name, the fixed e-mail, the address fields, the lines, subtotal, shipping 5 and total subtotal plus 5 |
| Checkout.PlaceOrder | frontend/src/Components/Checkout.jsx:28-69 | placing succeeds exactly when every unit price is read, else throws a `TypeError`; the order carries the form's customer fields, shipping 5, a subtotal equal to the total of the line amounts, and a total of subtotal plus shipping |
| Checkout.PlaceOrderItems | frontend/src/Components/Checkout.jsx:52-58 | the order's items are the cart's lines in cart order |
| Checkout.SubtotalMatchesLines | frontend/src/Components/Checkout.jsx:32-58 | the recorded subtotal equals the total recomputed from the recorded lines |
| Checkout.DisplayedTotalIsRecorded | frontend/src/Components/Checkout.jsx:38-158 | the total shown is read exactly when an order is placed, and then equals its `total_amount` |
| Checkout.PlacedOrderIsPending | frontend/src/Components/Checkout.jsx:65 | the ledger records the placed order first, as `pending`, with the same items and total |
| Cart.CurrentUser | frontend/src/Components/Cart.jsx:59 | a stored user that does not parse throws a syntax error; the user is always truthy, and a truthy stored user is taken as it is |
| Cart.SubmittedPrice | frontend/src/Components/Cart.jsx:78 | `parseFloat` of the price text, or 0 when that is NaN or zero |
| Cart.SubmittedItem | frontend/src/Components/Cart.jsx:75-81 | an item is built exactly when the entry is there, with the defaults for id, name, quantity and image |
| Cart.SubmittedTotal | frontend/src/Components/Cart.jsx:82-84 | the submitted total is the total of the submitted amounts, read exactly when every entry is there |
| Cart.OrderObject | frontend/src/Components/Cart.jsx:71-85 | name, e-mail and address default to `Guest`, `no-email@example.com` and `No address provided` |
| Cart.PlaceOrder | frontend/src/Components/Cart.jsx:53-99 | an unparseable user throws, a user without id fails with the login message and an empty cart with "Your cart is empty"; otherwise the order is placed exactly when every entry is there, with the defaulted customer fields and a total equal to the total of the submitted amounts |
| Cart.PlaceOrderItems | frontend/src/Components/Cart.jsx:75-81 | the order's items are the submitted items in cart order |
| Cart.TotalMatchesItems | frontend/src/Components/Cart.jsx:75-84 | the submitted total equals the total recomputed from the submitted items |
| Cart.ShownPrice | frontend/src/Components/Cart.jsx:153-155 | a text price is read with non-numeric characters removed; any other price is used as a number |
| Cart.ShownTotal | frontend/src/Components/Cart.jsx:151-158 | the shown total is the total of the shown amounts |
| Cart.DollarPriceSubmitsZero | frontend/src/Components/Cart.jsx:78 | a `"$"`-prefixed price submits as 0 |
| Cart.DollarPriceShown | frontend/src/Components/Cart.jsx:154 | `"$" + n` is shown as `n` |
| Cart.ShownAndSubmittedDiffer | frontend/src/Components/Cart.jsx:82-158 | one `"$" + n` entry is shown as `n` times its quantity and submitted as 0 |
| Cart.OneDollarEntry | frontend/src/Components/Cart.jsx:82-158 | a single `"$" + n` entry of quantity 1 shows `n` and submits 0 |
| Cart.PlainPriceAgrees | frontend/src/Components/Cart.jsx:78-156 | an entry with a plain numeric-text price and a truthy quantity shows what it submits |
| Cart.ShownTotalIsSubmitted | frontend/src/Components/Cart.jsx:82-158 | a cart of such entries shows the total it submits |
| ProductList.EmptyForm | frontend/src/Components/seller/ProductList.jsx:26-36 | every field is empty text and `image` is null |
| ProductList.AboutText | frontend/src/Components/seller/ProductList.jsx:56 | an array becomes text, another truthy value is kept, a falsy one becomes empty text |
| ProductList.OpenForm | frontend/src/Components/seller/ProductList.jsx:51-74 | without a product, no product is edited and the form is empty; with one, it is edited and the form is its fields with `about_product` as text and no image |
| ProductList.AboutPieces | frontend/src/Components/seller/ProductList.jsx:93 | every piece of the split is non-empty, trimmed and comma-free |
| ProductList.AboutRoundTrip | frontend/src/Components/seller/ProductList.jsx:56-93 | splitting the `", "` join of clean entries gives the entries back |
| ProductList.SubmitData | frontend/src/Components/seller/ProductList.jsx:89-95 | `about_product` is split into clean features when text, kept when another truthy value and `[]` otherwise; every other field is the form's |
| ProductList.Submit | frontend/src/Components/seller/ProductList.jsx:81-109 | refused with the required-fields message exactly when name, category or price is falsy; otherwise an update of the edited product's id when editing, else a create |
| ProductList.Send | frontend/src/Components/seller/ProductList.jsx:103-109 | a refusal sends nothing; a create and an update call the matching product service |
| ProductList.EmptyFormRefused | frontend/src/Components/seller/ProductList.jsx:60-100 | submitting a new, untouched form is refused |
| ProductList.ReopenResubmit | frontend/src/Components/seller/ProductList.jsx:51-104 | reopening a product with clean features and resubmitting it unchanged updates it with the same features and fields |
| ProductList.EditIsPut | frontend/src/Components/seller/ProductList.jsx:103-104 | with a token, an edit posts to the product's URL with `_method=PUT` |
| AllProducts.Categories | frontend/src/Components/AllProducts.jsx:83-86 | `All` followed by the distinct categories in first-occurrence order |
| AllProducts.ByCategory | frontend/src/Components/AllProducts.jsx:94-96 | exactly the products whose category is strictly equal to the given one; a missing product throws |
| AllProducts.FilterProducts | frontend/src/Components/AllProducts.jsx:89-99 | `All` gives every product; any other category gives `ByCategory` |
| AllProducts.FilterKeepsCatalogueOrder | frontend/src/Components/AllProducts.jsx:94-96 | the filtered products keep their catalogue order |
| AllProducts.UrlCategory | frontend/src/Components/AllProducts.jsx:68-80 | a non-empty parameter selects and filters by that text; none or empty selects `All` and every product |
| AllProducts.UrlAbsentIsAll | frontend/src/Components/AllProducts.jsx:76-79 | without a parameter the effect agrees with `filterProducts("All")` |
| AllProducts.UrlIsFilter | frontend/src/Components/AllProducts.jsx:70-75 | a parameter other than `All` agrees with `filterProducts` |
| AllProducts.UrlAllIsLiteral | frontend/src/Components/AllProducts.jsx:70-92 | a parameter `All` filters literally, so a product of another category is dropped, where `filterProducts("All")` keeps it |
| AllProducts.SortKindOf | frontend/src/Components/AllProducts.jsx:111-134 | the `switch` picks price-low, price-high and rating by their exact strings and the name sort otherwise |
| AllProducts.PriceKey | frontend/src/Components/AllProducts.jsx:115-116 | the key is `parseFloat` of the price with its first `$` removed; a non-text price throws |
| Strings.RemoveFirst | frontend/src/Components/AllProducts.jsx:115-116 | `replace` with a one-character text removes exactly the first occurrence, and a text without it is unchanged |
| AllProducts.RatingKey | frontend/src/Components/AllProducts.jsx:128-129 | the key is read exactly when the rating is text; a text without `(` gives NaN |
| AllProducts.ComparatorStrict | frontend/src/Components/AllProducts.jsx:112-134 | each comparator is a strict order, the name one when the collation is |
| AllProducts.CodePointCollation | frontend/src/Components/AllProducts.jsx:134 | code-unit order is one strict collation the name sort may be given |
| AllProducts.SortProducts | frontend/src/Components/AllProducts.jsx:108-137 | in the model, throws exactly when two or more entries are compared and one of them has no readable key; otherwise a permutation of the shown list with undefined entries last |
| AllProducts.SortAllCompared | frontend/src/Components/AllProducts.jsx:108-137 | with every key readable the result is the stable sort of the list by the comparator |
| AllProducts.PriceLowAscending | frontend/src/Components/AllProducts.jsx:112-118 | with finite prices, price-low lists prices in non-decreasing order |
| AllProducts.PriceHighDescending | frontend/src/Components/AllProducts.jsx:119-125 | with finite prices, price-high lists prices in non-increasing order |
| AllProducts.NameAscending | frontend/src/Components/AllProducts.jsx:133-134 | with text names and a strict collation, no name is listed before one that collates ahead of it |
| AllProducts.SortTwice | frontend/src/Components/AllProducts.jsx:108-137 | sorting a sorted list again by the same kind changes nothing |
| AllProducts.ItemPrice | frontend/src/Components/AllProducts.jsx:145-146 | a text price is kept; any other becomes `"$"` followed by its text |
| AllProducts.ItemImage | frontend/src/Components/AllProducts.jsx:147 | `image_url`, else `img`, else the first image; a missing `image` throws |
| AllProducts.CartItem | frontend/src/Components/AllProducts.jsx:140-149 | the item has id `_id` or else the name, the name, the price as text, the image and quantity 1 |
| AllProducts.AddedItemPriced | frontend/src/Components/AllProducts.jsx:145-146 | an added item always has a text price, which checkout can read |
| AllProducts.AddedDollarPrice | frontend/src/Components/AllProducts.jsx:145-146 | a whole-number price `n` is added as `"$n"` and checkout reads it back as `n` |
| AllProducts.AddedDollarPriceCart | frontend/src/Components/AllProducts.jsx:145-148 | a cart holding just that item shows `n` and submits 0 |
| Sorting.SortPermutes | frontend/src/Components/AllProducts.jsx:110-136 | the sort is a permutation |
| Sorting.SortSorted | frontend/src/Components/AllProducts.jsx:113-134 | under a strict order no element is listed after one it precedes |
| Sorting.SortIdempotent | frontend/src/Components/AllProducts.jsx:108-137 | sorting a sorted list changes nothing |
| Seqs.Distinct | frontend/src/Components/AllProducts.jsx:85 | the same elements without repeats |
| Seqs.DistinctInOrder | frontend/src/Components/AllProducts.jsx:85 | the elements are in first-occurrence order |
| Seqs.FilterKeepsOrder | frontend/src/Components/AllProducts.jsx:94-96 | the kept elements appear at increasing positions of the input, and every element that passes is kept |

## Left out

- The framework: routing, middleware, JSON encoding of responses, logging
  and the CORS and CSRF middleware are not modelled. Responses are a status
  and a body datatype.
- The route for `orders/seller` is registered after the resource route for
  orders, so in the running app `orders/{order}` matches it first.
  `SellerOrders` models the controller method as if it were reached.
- OrderController.SellerOrders: `orderBy('created_at', 'desc')` leaves the
  order of orders with equal `created_at` to the database. The model keeps
  them in insertion order (a stable sort); that tie order, and
  `NewestFirstOfSorted`, which relies on it, are the model's choice.
- Transactions: the model computes the all-or-nothing result directly.
  `Place` leaves the database unchanged on every non-201 answer. It does not
  model that the early 400 at OrderController.php:62 returns after
  `beginTransaction` (:50) without a rollback, leaving the transaction open
  on the connection.
- OrderController.UpdateStatus: a failed status rule is answered with 422.
  This assumes a request that expects JSON. For any other request Laravel
  redirects back with 302, which is not modelled.
- ProductController.Store: a failed rule is answered with 422, which assumes
  a request that expects JSON; the 302 redirect Laravel gives any other
  request is not modelled.
- ProductController.Update: a failed rule is answered with 422 under the
  same JSON assumption; the 302 redirect is not modelled.
- Validation: `exists:` is decided by `IdOf`, which takes an integer or a
  digit string. MySQL's loose comparison of other texts such as `"1abc"` or
  `" 1"` against an integer key is not modelled.
- Floating point: money and JS numbers are exact reals. IEEE-754 rounding of
  `$total +=` (OrderController.php:94), of the `reduce` sums
  (Checkout.jsx:32-38, Cart.jsx:78-84) and of `parseFloat` is not modelled,
  nor are infinities or `toFixed`. `Cart.ShownAndSubmittedDiffer` and the
  total lemmas hold for exact arithmetic only.
- AllProducts.SortProducts: `localeCompare` is a parameter (`Collation`)
  with a strict order assumed where the name sort is ordered. The locale's
  actual collation table is not modelled. `CodePointCollation` shows the
  code-unit order is one valid instance.
- AllProducts.SortProducts: a comparator that returns NaN leaves the order
  implementation-defined in JS (AllProducts.jsx:113-131). The model treats NaN
  keys as equal to everything and uses a stable insertion sort, which is only
  one of the orders a JS engine may produce.
- AllProducts.SortProducts: `localeCompare` throws only when its receiver
  `a.name` is not text; a non-text argument is converted to a string. Which
  entry is the receiver depends on the engine's sequence of comparisons, so
  the model throws whenever a compared entry has no text name, which is more
  often than an engine may (V8 sorts `[{name: 5}, {name: "b"}]` by calling
  `"b".localeCompare(5)` and does not throw).
- NumberText.ParseInt: reads base 10 only. JS `parseInt` without a radix
  reads a `0x` or `0X` prefix as hexadecimal (`parseInt("0x10")` is 16, the
  model gives 0), so `AllProducts.RatingKey` differs for a rating whose part
  after `(` starts with `0x`.
- Text is a sequence of Unicode scalar values. JS strings are UTF-16 code
  units, so indexing (`product.image[0]` for a string image at
  AllProducts.jsx:147, the index keys `{...s}` gives in `JsValues.Spread`)
  differs for characters outside the Basic Multilingual Plane.
- Api.CookieToken: the token is not passed through `decodeURIComponent`,
  and header names are kept in the case the code writes them; axios's
  header normalisation is not modelled.
- JS objects: property order follows insertion, and integer-like keys are
  not moved to the front. Two object values are never strictly equal
  (object identity is not modelled), and `new Set` deduplicates categories
  by structural value rather than by identity.
- `String(n)` of a non-integral number is a parameter (`NumText`), not a
  definition of the shortest round-trip decimal.
- React: rendering, effects' timing, `setTimeout`, `alert`, `console`
  output, `window.__orders` and the memoisation in Cart.jsx are not
  modelled. Local storage is a value passed in, and its write-verify step
  only decides whether an error is logged.
- `CartContext` (`addToCart`, `removeFromCart`) is not part of this model.
  `AllProducts.CartItem` stops at the item handed to it.
- I/O: `fetch` and axios calls are modelled by the request they send and by
  the body they are given back. Network errors and non-2xx responses of the
  writing calls, the `sanctum/csrf-cookie` preflight, `productService.delete`,
  `orderService.getAll` and `orderService.getById` are not modelled.
- The database foreign key from order items to products: `Destroy` removes
  the product row and keeps its order items, as the controller asks. Whether
  the database rejects that or cascades is not modelled.
- ProductController.Store: a failed `decimal:2` cast is modelled as a
  failed insert under strict SQL mode: 500, no row added, and the next id
  not consumed. A database that accepts the row, or that consumes an
  auto-increment value on the failed insert, is not modelled. Laravel's
  `ConvertEmptyStringsToNull` middleware, which would turn a blank price
  into null before validation, is not modelled either.
- ProductController.Update: an `image_url` array sent without an upload
  passes validation (no rule names it) and is mass-assigned as it came, and
  the model answers 200. The query builder flattens array bindings, so the
  database may reject the update (500) or store a one-element array's
  element; that is not modelled. A failed price cast leaves the row
  unchanged, as a strict-mode database does.
- The uploaded file's fresh name is `UploadPath(counter, extension)` rather
  than a random name. Image validation (`image|mimes|max`) is reduced to
  whether the input carries an upload.
- `SellerAuthController`, the seeders and the presentational components are
  outside the modelled core.

=== FILE: all_products.dfy ===
/** The catalogue page: the category list, filtering by category (from a
    click or from the `category` URL parameter), the four sort orders, and
    the cart entry built from a product. */
module AllProducts {
  import opened Wrappers
  import opened Strings
  import opened Seqs
  import opened Sorting
  import opened NumberText
  import opened JsValues
  import Checkout
  import Cart

  const AllCategory: string := "All"

  // ---------------------------------------------------------------------
  // Categories
  // ---------------------------------------------------------------------

  /** `product.category`, throwing on `null` and `undefined`. */
  function CategoryOf(): JsVal -> Result<JsVal, string> {
    (p: JsVal) => Property(p, "category")
  }

  /** Every product's category, in list order. */
  function CategoryList(products: seq<JsVal>): (r: seq<JsVal>)
    ensures |r| == |products|
    ensures forall i :: 0 <= i < |products| ==> r[i] == Field(products[i], "category")
  {
    seq(|products|, i requires 0 <= i < |products| => Field(products[i], "category"))
  }

  /** `["All", ...new Set(products.map(p => p.category))]`: `All`, then each
      category once, in the order categories first appear. */
  function Categories(products: seq<JsVal>): (r: Result<seq<JsVal>, string>)
    ensures r.Ok? <==> forall i :: 0 <= i < |products| ==> !Nullish(products[i])
    ensures r.Err? ==> r.error == TypeError
    ensures r.Ok? ==> |r.value| >= 1 && r.value[0] == JStr(AllCategory)
    ensures r.Ok? ==> forall c :: c in r.value[1..] <==> c in CategoryList(products)
    ensures r.Ok? ==> forall i, j :: 1 <= i < j < |r.value| ==> r.value[i] != r.value[j]
    ensures r.Ok? ==> forall i, j :: 1 <= i < j < |r.value| ==>
              FirstIndex(CategoryList(products), r.value[i]) < FirstIndex(CategoryList(products), r.value[j])
  {
    var cats := MapAll(products, CategoryOf());
    assert forall i :: 0 <= i < |products| ==> (CategoryOf()(products[i]).Ok? <==> !Nullish(products[i]));
    if cats.Err? then Err(TypeError)
    else
      assert cats.value == CategoryList(products) by {
        assert forall i :: 0 <= i < |products| ==> CategoryOf()(products[i]) == Ok(Field(products[i], "category"));
      }
      var distinct := Distinct(cats.value);
      DistinctInOrder(cats.value);
      var r := [JStr(AllCategory)] + distinct;
      assert r[1..] == distinct;
      assert forall i :: 1 <= i < |r| ==> r[i] == distinct[i - 1];
      Ok(r)
  }

  // ---------------------------------------------------------------------
  // Filtering
  // ---------------------------------------------------------------------

  /** `product.category === category`. */
  function InCategory(category: JsVal): JsVal -> bool {
    (p: JsVal) => StrictEquals(Field(p, "category"), category)
  }

  /** The category filter proper: reading the category of `null` or
      `undefined` throws. */
  function ByCategory(products: seq<JsVal>, category: JsVal): (r: Result<seq<JsVal>, string>)
    ensures r.Ok? <==> forall i :: 0 <= i < |products| ==> !Nullish(products[i])
    ensures r.Err? ==> r.error == TypeError
    ensures r.Ok? ==> forall p :: p in r.value <==> p in products && StrictEquals(Field(p, "category"), category)
  {
    if exists i :: 0 <= i < |products| && Nullish(products[i]) then Err(TypeError)
    else Ok(Filter(products, InCategory(category)))
  }

  /** `filterProducts(category)`: `All` shows every product; any other
      category the products of that category. */
  function FilterProducts(products: seq<JsVal>, category: JsVal): (r: Result<seq<JsVal>, string>)
    ensures StrictEquals(category, JStr(AllCategory)) ==> r == Ok(products)
    ensures !StrictEquals(category, JStr(AllCategory)) ==> r == ByCategory(products, category)
  {
    if StrictEquals(category, JStr(AllCategory)) then Ok(products) else ByCategory(products, category)
  }

  /** The filtered list keeps the products of the category in their order and
      leaves none of them out. */
  lemma FilterKeepsCatalogueOrder(products: seq<JsVal>, category: JsVal) returns (idx: seq<nat>)
    requires forall i :: 0 <= i < |products| ==> !Nullish(products[i])
    requires !StrictEquals(category, JStr(AllCategory))
    ensures var shown := FilterProducts(products, category);
            shown.Ok? && |idx| == |shown.value| &&
            (forall k :: 0 <= k < |idx| ==> idx[k] < |products| && products[idx[k]] == shown.value[k]) &&
            (forall k, l :: 0 <= k < l < |idx| ==> idx[k] < idx[l]) &&
            (forall i :: 0 <= i < |products| && StrictEquals(Field(products[i], "category"), category) ==> i in idx)
  {
    idx := FilterKeepsOrder(products, InCategory(category));
  }

  /** The effect that follows the `category` URL parameter: a non-empty
      parameter selects its category and filters by it, even when it is
      `All`; otherwise `All` is selected with every product shown. The
      initial load does the same. */
  function UrlCategory(products: seq<JsVal>, param: Option<string>): (r: (JsVal, Result<seq<JsVal>, string>))
    ensures param.None? || param.value == "" ==> r == (JStr(AllCategory), Ok(products))
    ensures param.Some? && param.value != "" ==> r.0 == JStr(param.value) && r.1 == ByCategory(products, JStr(param.value))
  {
    if param.Some? && param.value != "" then (JStr(param.value), ByCategory(products, JStr(param.value)))
    else (JStr(AllCategory), Ok(products))
  }

  /** Without a parameter the page shows what a click on `All` shows. */
  lemma UrlAbsentIsAll(products: seq<JsVal>, param: Option<string>)
    requires param.None? || param.value == ""
    ensures UrlCategory(products, param) == (JStr(AllCategory), FilterProducts(products, JStr(AllCategory)))
  {
    assert StrictEquals(JStr(AllCategory), JStr(AllCategory));
  }

  /** A parameter other than `All` selects what a click on that category
      selects. */
  lemma UrlIsFilter(products: seq<JsVal>, name: string)
    requires name != "" && name != AllCategory
    ensures UrlCategory(products, Some(name)) == (JStr(name), FilterProducts(products, JStr(name)))
  {
    assert !StrictEquals(JStr(name), JStr(AllCategory));
  }

  /** A URL asking for `All` is taken literally: only products whose category
      is the text `All` are shown, where a click on `All` shows them all. */
  lemma UrlAllIsLiteral(p: JsVal)
    requires !Nullish(p) && !StrictEquals(Field(p, "category"), JStr(AllCategory))
    ensures UrlCategory([p], Some(AllCategory)).1 == Ok([])
    ensures FilterProducts([p], JStr(AllCategory)) == Ok([p])
  {
    var keep := InCategory(JStr(AllCategory));
    assert !keep([p][0]);
    FilterNone([p], keep);
    assert forall i :: 0 <= i < |[p]| ==> !Nullish([p][i]);
    assert ByCategory([p], JStr(AllCategory)) == Ok(Filter([p], keep)) == Ok([]);
    assert AllCategory != "";
    assert UrlCategory([p], Some(AllCategory)).1 == ByCategory([p], JStr(AllCategory));
    assert StrictEquals(JStr(AllCategory), JStr(AllCategory));
  }

  // ---------------------------------------------------------------------
  // Sorting
  // ---------------------------------------------------------------------

  datatype SortKind = PriceLow | PriceHigh | ByRating | ByName

  /** The `sortType` switch: every value other than the three named ones
      sorts by name. */
  function SortKindOf(sortType: string): (k: SortKind)
    ensures k == PriceLow <==> sortType == "price-low"
    ensures k == PriceHigh <==> sortType == "price-high"
    ensures k == ByRating <==> sortType == "rating"
  {
    if sortType == "price-low" then PriceLow
    else if sortType == "price-high" then PriceHigh
    else if sortType == "rating" then ByRating
    else ByName
  }

  /** A property that must be a string for `replace`, `split` or
      `localeCompare` to exist. */
  function TextOf(p: JsVal, key: string): (r: Result<string, string>)
    ensures r.Ok? <==> !Nullish(p) && Field(p, key).JStr?
    ensures r.Ok? ==> r.value == Field(p, key).s
    ensures r.Err? ==> r.error == TypeError
  {
    if Nullish(p) then Err(TypeError)
    else
      match Field(p, key)
      case JStr(s) => Ok(s)
      case _ => Err(TypeError)
  }

  /** `parseFloat(p.price.replace("$", ""))`: the first `$` removed. */
  function PriceKey(p: JsVal): (r: Result<Num, string>)
    ensures r.Ok? <==> TextOf(p, "price").Ok?
    ensures r.Ok? ==> r.value == ParseFloat(RemoveFirst(TextOf(p, "price").value, '$'))
  {
    var s :- TextOf(p, "price");
    Ok(ParseFloat(RemoveFirst(s, '$')))
  }

  /** `parseInt(p.rating.split("(")[1])`: the number after the first `(`,
      `NaN` when there is none. */
  function RatingKey(p: JsVal): (r: Result<Num, string>)
    ensures r.Ok? <==> TextOf(p, "rating").Ok?
    ensures r.Ok? && '(' !in TextOf(p, "rating").value ==> r.value == NaN
  {
    var s :- TextOf(p, "rating");
    var pieces := Split(s, '(');
    Ok(if |pieces| >= 2 then ParseInt(pieces[1]) else NaN)
  }

  /** Whether the comparator can read the product's sort key. */
  predicate KeyReadable(kind: SortKind, p: JsVal) {
    match kind
    case PriceLow => PriceKey(p).Ok?
    case PriceHigh => PriceKey(p).Ok?
    case ByRating => RatingKey(p).Ok?
    case ByName => TextOf(p, "name").Ok?
  }

  /** `x - y < 0` for numbers: a `NaN` difference counts as a tie. */
  predicate Below(x: Num, y: Num) {
    x.Fin? && y.Fin? && x.v < y.v
  }

  /** `a.localeCompare(b) < 0`: the collation of the browser's locale,
      which the model takes as given. */
  type Collation = (string, string) -> bool

  /** Whether the comparator puts `a` strictly before `b`: a negative result. */
  predicate Precedes(kind: SortKind, collate: Collation, a: JsVal, b: JsVal) {
    match kind
    case PriceLow => PriceKey(a).Ok? && PriceKey(b).Ok? && Below(PriceKey(a).value, PriceKey(b).value)
    case PriceHigh => PriceKey(a).Ok? && PriceKey(b).Ok? && Below(PriceKey(b).value, PriceKey(a).value)
    case ByRating => RatingKey(a).Ok? && RatingKey(b).Ok? && Below(RatingKey(b).value, RatingKey(a).value)
    case ByName => TextOf(a, "name").Ok? && TextOf(b, "name").Ok? && collate(TextOf(a, "name").value, TextOf(b, "name").value)
  }

  function Comparator(kind: SortKind, collate: Collation): (JsVal, JsVal) -> bool {
    (a: JsVal, b: JsVal) => Precedes(kind, collate, a, b)
  }

  /** Every comparator is a strict order: nothing precedes itself and
      precedence chains. The name comparator is one when the collation is. */
  lemma ComparatorStrict(kind: SortKind, collate: Collation)
    requires kind == ByName ==> StrictOrder(collate)
    ensures StrictOrder(Comparator(kind, collate))
  {
    var lt := Comparator(kind, collate);
    if kind == ByName {
      forall a | true
        ensures !lt(a, a)
      {
      }
      forall a, b, c | lt(a, b) && lt(b, c)
        ensures lt(a, c)
      {
        var x, y, z := TextOf(a, "name").value, TextOf(b, "name").value, TextOf(c, "name").value;
        assert collate(x, y) && collate(y, z);
      }
    }
  }

  /** Code-point order is one possible collation. */
  lemma CodePointCollation()
    ensures StrictOrder(LexLess)
  {
    forall a: string
      ensures !LexLess(a, a)
    {
      LexIrreflexive(a);
    }
    forall a: string, b: string, c: string | LexLess(a, b) && LexLess(b, c)
      ensures LexLess(a, c)
    {
      LexTransitive(a, b, c);
    }
  }

  /** Whether `sort` hands the entry to the comparator: every value except
      `undefined`, which it sets aside. */
  predicate Compared(p: JsVal) {
    !p.Undefined?
  }

  predicate SetAside(p: JsVal) {
    p.Undefined?
  }

  /** `sortProducts(sortType)` on a copy of the shown list. The `undefined`
      entries are set aside and put last; the others are sorted stably by
      the comparator, which throws on an entry whose key it cannot read,
      and is called on every entry once there are two to compare. */
  function SortProducts(shown: seq<JsVal>, sortType: string, collate: Collation): (r: Result<seq<JsVal>, string>)
    ensures r.Err? <==> (|Filter(shown, Compared)| >= 2 &&
                         exists i :: 0 <= i < |shown| && Compared(shown[i]) && !KeyReadable(SortKindOf(sortType), shown[i]))
    ensures r.Err? ==> r.error == TypeError
    ensures r.Ok? ==> multiset(r.value) == multiset(shown)
    ensures r.Ok? ==> forall i, j :: 0 <= i < j < |r.value| && SetAside(r.value[i]) ==> SetAside(r.value[j])
  {
    var kind := SortKindOf(sortType);
    var compared := Filter(shown, Compared);
    if |compared| >= 2 && exists i :: 0 <= i < |shown| && Compared(shown[i]) && !KeyReadable(kind, shown[i]) then
      Err(TypeError)
    else
      SortedParts(shown, Comparator(kind, collate));
      Ok(Sort(compared, Comparator(kind, collate)) + Filter(shown, SetAside))
  }

  /** The sorted compared entries followed by the ones set aside: the same
      entries, every compared one before every one set aside. */
  lemma SortedParts(shown: seq<JsVal>, lt: (JsVal, JsVal) -> bool)
    ensures var sorted := Sort(Filter(shown, Compared), lt);
            var aside := Filter(shown, SetAside);
            multiset(sorted + aside) == multiset(shown) &&
            (forall k :: 0 <= k < |sorted| ==> Compared(sorted[k])) &&
            (forall k :: 0 <= k < |aside| ==> SetAside(aside[k])) &&
            forall i, j :: 0 <= i < j < |sorted + aside| && SetAside((sorted + aside)[i]) ==> SetAside((sorted + aside)[j])
  {
    var compared := Filter(shown, Compared);
    var sorted := Sort(compared, lt);
    var aside := Filter(shown, SetAside);
    SortPermutes(compared, lt);
    FilterSplit(shown, Compared, SetAside);
    forall k | 0 <= k < |sorted|
      ensures Compared(sorted[k])
    {
      assert sorted[k] in multiset(compared);
    }
    forall k | 0 <= k < |aside|
      ensures SetAside(aside[k])
    {
      assert aside[k] in aside;
    }
    var all := sorted + aside;
    forall i, j | 0 <= i < j < |all| && SetAside(all[i])
      ensures SetAside(all[j])
    {
      assert i >= |sorted|;
      assert all[j] == aside[j - |sorted|];
    }
  }

  /** Filtering sorted compared entries followed by set-aside ones gives
      back the two parts. */
  lemma Refilter(sorted: seq<JsVal>, aside: seq<JsVal>)
    requires forall k :: 0 <= k < |sorted| ==> Compared(sorted[k])
    requires forall k :: 0 <= k < |aside| ==> SetAside(aside[k])
    ensures Filter(sorted + aside, Compared) == sorted
    ensures Filter(sorted + aside, SetAside) == aside
  {
    FilterAppend(sorted, aside, Compared);
    FilterAll(sorted, Compared);
    FilterNone(aside, Compared);
    FilterAppend(sorted, aside, SetAside);
    FilterNone(sorted, SetAside);
    FilterAll(aside, SetAside);
  }

  /** With nothing set aside, the result is the comparator's sort of the
      whole list. */
  lemma SortAllCompared(shown: seq<JsVal>, sortType: string, collate: Collation)
    requires forall i :: 0 <= i < |shown| ==> KeyReadable(SortKindOf(sortType), shown[i])
    ensures SortProducts(shown, sortType, collate) == Ok(Sort(shown, Comparator(SortKindOf(sortType), collate)))
  {
    var kind := SortKindOf(sortType);
    assert forall i :: 0 <= i < |shown| ==> Compared(shown[i]) by {
      forall i | 0 <= i < |shown|
        ensures Compared(shown[i])
      {
        assert KeyReadable(kind, shown[i]);
      }
    }
    FilterAll(shown, Compared);
    FilterNone(shown, SetAside);
    assert Sort(shown, Comparator(kind, collate)) + [] == Sort(shown, Comparator(kind, collate));
  }

  /** Whether every product has a finite price. */
  predicate PricesFinite(xs: seq<JsVal>) {
    forall i :: 0 <= i < |xs| ==> PriceKey(xs[i]).Ok? && PriceKey(xs[i]).value.Fin?
  }

  /** Both prices read as numbers and the first is no higher. */
  predicate PriceAtMost(a: JsVal, b: JsVal) {
    PriceKey(a).Ok? && PriceKey(b).Ok? && PriceKey(a).value.Fin? && PriceKey(b).value.Fin? &&
    PriceKey(a).value.v <= PriceKey(b).value.v
  }

  /** `price-low` lists cheapest first when every price reads as a number. */
  lemma PriceLowAscending(shown: seq<JsVal>, collate: Collation)
    requires PricesFinite(shown)
    ensures var r := SortProducts(shown, "price-low", collate);
            r.Ok? && forall i, j :: 0 <= i < j < |r.value| ==> PriceAtMost(r.value[i], r.value[j])
  {
    var sorted := SortedPrices(shown, "price-low", PriceLow, collate);
    forall i, j | 0 <= i < j < |sorted|
      ensures PriceAtMost(sorted[i], sorted[j])
    {
      assert !Precedes(PriceLow, collate, sorted[j], sorted[i]);
    }
  }

  /** `price-high` lists dearest first when every price reads as a number. */
  lemma PriceHighDescending(shown: seq<JsVal>, collate: Collation)
    requires PricesFinite(shown)
    ensures var r := SortProducts(shown, "price-high", collate);
            r.Ok? && forall i, j :: 0 <= i < j < |r.value| ==> PriceAtMost(r.value[j], r.value[i])
  {
    var sorted := SortedPrices(shown, "price-high", PriceHigh, collate);
    forall i, j | 0 <= i < j < |sorted|
      ensures PriceAtMost(sorted[j], sorted[i])
    {
      assert !Precedes(PriceHigh, collate, sorted[j], sorted[i]);
    }
  }

  /** The list a price sort produces, with every price finite and no
      product strictly before an earlier one. */
  lemma SortedPrices(shown: seq<JsVal>, sortType: string, kind: SortKind, collate: Collation) returns (sorted: seq<JsVal>)
    requires SortKindOf(sortType) == kind && (kind == PriceLow || kind == PriceHigh)
    requires PricesFinite(shown)
    ensures SortProducts(shown, sortType, collate) == Ok(sorted)
    ensures PricesFinite(sorted)
    ensures forall i, j :: 0 <= i < j < |sorted| ==> !Precedes(kind, collate, sorted[j], sorted[i])
  {
    var lt := Comparator(kind, collate);
    sorted := Sort(shown, lt);
    assert forall i :: 0 <= i < |shown| ==> KeyReadable(kind, shown[i]);
    SortAllCompared(shown, sortType, collate);
    ComparatorStrict(kind, collate);
    SortSorted(shown, lt);
    SortPermutes(shown, lt);
    forall i | 0 <= i < |sorted|
      ensures PriceKey(sorted[i]).Ok? && PriceKey(sorted[i]).value.Fin?
    {
      assert sorted[i] in multiset(shown);
    }
  }

  /** The name sort leaves no name after a name that the collation puts
      after it. */
  lemma NameAscending(shown: seq<JsVal>, sortType: string, collate: Collation)
    requires SortKindOf(sortType) == ByName && StrictOrder(collate)
    requires forall i :: 0 <= i < |shown| ==> TextOf(shown[i], "name").Ok?
    ensures var r := SortProducts(shown, sortType, collate);
            r.Ok? && forall i, j :: 0 <= i < j < |r.value| ==>
              TextOf(r.value[i], "name").Ok? && TextOf(r.value[j], "name").Ok? &&
              !collate(TextOf(r.value[j], "name").value, TextOf(r.value[i], "name").value)
  {
    var lt := Comparator(ByName, collate);
    var sorted := Sort(shown, lt);
    assert forall i :: 0 <= i < |shown| ==> KeyReadable(ByName, shown[i]);
    SortAllCompared(shown, sortType, collate);
    ComparatorStrict(ByName, collate);
    SortSorted(shown, lt);
    SortPermutes(shown, lt);
    forall i | 0 <= i < |sorted|
      ensures TextOf(sorted[i], "name").Ok?
    {
      assert sorted[i] in multiset(shown);
    }
  }

  /** Choosing the same sort twice gives the same list as choosing it once. */
  lemma SortTwice(shown: seq<JsVal>, sortType: string, collate: Collation)
    requires SortKindOf(sortType) == ByName ==> StrictOrder(collate)
    requires SortProducts(shown, sortType, collate).Ok?
    ensures SortProducts(SortProducts(shown, sortType, collate).value, sortType, collate) ==
            SortProducts(shown, sortType, collate)
  {
    var kind := SortKindOf(sortType);
    var lt := Comparator(kind, collate);
    var compared := Filter(shown, Compared);
    var aside := Filter(shown, SetAside);
    var sorted := Sort(compared, lt);
    var once := SortProducts(shown, sortType, collate).value;
    SortedParts(shown, lt);
    assert once == sorted + aside;
    Refilter(sorted, aside);
    ComparatorStrict(kind, collate);
    SortIdempotent(compared, lt);
    if |sorted| >= 2 {
      forall i | 0 <= i < |once| && Compared(once[i])
        ensures KeyReadable(kind, once[i])
      {
        assert once[i] in multiset(shown);
      }
    }
  }

  // ---------------------------------------------------------------------
  // The cart entry
  // ---------------------------------------------------------------------

  const ItemNames: seq<string> := ["id", "name", "price", "image_url", "quantity"]

  lemma ItemNamesDistinct()
    ensures DistinctNames(ItemNames)
  {
  }

  /** The price the cart entry carries: a string is kept, anything else is
      written after a `$`. */
  function ItemPrice(price: JsVal, numText: NumText): (r: JsVal)
    ensures r.JStr?
    ensures price.JStr? ==> r == price
    ensures !price.JStr? ==> r.s == "$" + Text(price, numText)
  {
    if price.JStr? then price else JStr("$" + Text(price, numText))
  }

  /** `product.image_url || product.img || product.image[0]`: the last read
      throws when `image` is `null` or `undefined`. */
  function ItemImage(p: JsVal): (r: Result<JsVal, string>)
    ensures Truthy(Field(p, "image_url")) ==> r == Ok(Field(p, "image_url"))
    ensures !Truthy(Field(p, "image_url")) && Truthy(Field(p, "img")) ==> r == Ok(Field(p, "img"))
    ensures r.Err? <==> !Truthy(Field(p, "image_url")) && !Truthy(Field(p, "img")) && Nullish(Field(p, "image"))
  {
    var first := Or(Field(p, "image_url"), Field(p, "img"));
    if Truthy(first) then Ok(first) else Property(Field(p, "image"), "0")
  }

  /** `handleAddToCart(product)`: the entry handed to the cart, identified by
      `_id` or else the name, with quantity 1. */
  function CartItem(p: JsVal, numText: NumText): (r: Result<JsVal, string>)
    ensures r.Err? <==> Nullish(p) || ItemImage(p).Err?
    ensures r.Err? ==> r.error == TypeError
    ensures r.Ok? ==> r.value.JObj? && Get(r.value.fields, "quantity") == JNum(Fin(1.0))
    ensures r.Ok? ==> Get(r.value.fields, "id") == Or(Field(p, "_id"), Field(p, "name"))
    ensures r.Ok? ==> Get(r.value.fields, "name") == Field(p, "name")
    ensures r.Ok? ==> Get(r.value.fields, "price") == ItemPrice(Field(p, "price"), numText)
    ensures r.Ok? ==> Get(r.value.fields, "image_url") == ItemImage(p).value
  {
    if Nullish(p) then Err(TypeError)
    else
      match ItemImage(p)
      case Err(e) => Err(e)
      case Ok(image) =>
        var values := [Or(Field(p, "_id"), Field(p, "name")), Field(p, "name"),
                       ItemPrice(Field(p, "price"), numText), image, JNum(Fin(1.0))];
        ItemNamesDistinct();
        var item := ObjectLiteral(ItemNames, values);
        assert Get(item.fields, ItemNames[0]) == values[0];
        assert Get(item.fields, ItemNames[1]) == values[1];
        assert Get(item.fields, ItemNames[2]) == values[2];
        assert Get(item.fields, ItemNames[3]) == values[3];
        assert Get(item.fields, ItemNames[4]) == values[4];
        Ok(item)
  }

  /** The checkout can always price an entry added from the catalogue, and
      reads a whole-dollar number price back as that number. */
  lemma AddedItemPriced(p: JsVal, numText: NumText)
    requires CartItem(p, numText).Ok?
    ensures Checkout.UnitPrice(CartItem(p, numText).value).Ok?
  {
    var item := CartItem(p, numText).value;
    assert Field(item, "price") == ItemPrice(Field(p, "price"), numText);
  }

  /** A product whose price is the whole number `n` enters the cart as
      `"$n"`. */
  lemma DollarItem(p: JsVal, n: nat, numText: NumText)
    requires CartItem(p, numText).Ok? && Field(p, "price") == JNum(Fin(n as real))
    requires numText(n as real) == NatToString(n)
    ensures var item := CartItem(p, numText).value;
            !Nullish(item) && Field(item, "price") == JStr("$" + NatToString(n)) &&
            Field(item, "quantity") == JNum(Fin(1.0))
  {
    assert Text(JNum(Fin(n as real)), numText) == NatToString(n);
  }

  /** Checkout reads such an entry's price back as `n`. */
  lemma AddedDollarPrice(p: JsVal, n: nat, numText: NumText)
    requires CartItem(p, numText).Ok? && Field(p, "price") == JNum(Fin(n as real))
    requires numText(n as real) == NatToString(n)
    ensures Checkout.UnitPrice(CartItem(p, numText).value) == Ok(Fin(n as real))
  {
    DollarItem(p, n, numText);
    Checkout.UnitPriceOfDollars(CartItem(p, numText).value, n);
  }

  /** The same entry alone in the cart is shown at `n` but submitted from
      the cart page at `0`, since `parseFloat` stops at the `$`. */
  lemma AddedDollarPriceCart(p: JsVal, n: nat, numText: NumText)
    requires CartItem(p, numText).Ok? && Field(p, "price") == JNum(Fin(n as real))
    requires numText(n as real) == NatToString(n)
    ensures Cart.ShownTotal([CartItem(p, numText).value], numText) == Ok(Fin(n as real))
    ensures Cart.SubmittedTotal([CartItem(p, numText).value], numText) == Ok(Fin(0.0))
  {
    DollarItem(p, n, numText);
    Cart.OneDollarEntry(CartItem(p, numText).value, n, numText);
  }
}

=== FILE: api.dfy ===
/** The client's HTTP helpers: completing image URLs, the form encoding of
    request bodies, the request interceptor of the shared client, the
    transforms of the product reads, and the token guard of the writing
    calls. */
module Api {
  import opened Wrappers
  import opened Strings
  import opened NumberText
  import opened Seqs
  import opened JsValues

  const ApiUrl: string := "http://localhost:8000/api"
  const ImageBaseUrl: string := "http://localhost:8000"

  // ---------------------------------------------------------------------
  // ensureAbsoluteUrl
  // ---------------------------------------------------------------------

  predicate IsAbsolute(url: string) {
    StartsWith(url, "http://") || StartsWith(url, "https://")
  }

  /** The path behind the base URL: one leading `/api/` or `api/` removed
      (the pattern `^\/?api\/`). */
  function StripApi(url: string): (rest: string)
    ensures StartsWith(url, "/api/") ==> url == "/api/" + rest
    ensures !StartsWith(url, "/api/") && StartsWith(url, "api/") ==> url == "api/" + rest
    ensures !StartsWith(url, "/api/") && !StartsWith(url, "api/") ==> rest == url
  {
    if StartsWith(url, "/api/") then url[5..]
    else if StartsWith(url, "api/") then url[4..]
    else url
  }

  /** `ensureAbsoluteUrl` on non-empty text: an absolute URL is kept, any
      other text goes behind the image base URL and a `/`. */
  function AbsoluteUrl(url: string): (r: string)
    ensures IsAbsolute(r)
    ensures IsAbsolute(url) ==> r == url
    ensures !IsAbsolute(url) ==> r == ImageBaseUrl + "/" + StripApi(url)
  {
    if IsAbsolute(url) then url
    else
      var r := ImageBaseUrl + "/" + StripApi(url);
      assert r[..7] == "http://";
      r
  }

  /** `ensureAbsoluteUrl(url)`: a falsy value gives `null`, text is
      completed, and any other value has no `startsWith` to call. */
  function EnsureAbsoluteUrl(url: JsVal): (r: Result<JsVal, string>)
    ensures r.Err? <==> Truthy(url) && !url.JStr?
    ensures r.Ok? ==> r.value == Null || (r.value.JStr? && IsAbsolute(r.value.s))
    ensures r.Ok? && r.value == Null <==> !Truthy(url)
    ensures url.JStr? && IsAbsolute(url.s) ==> r == Ok(url)
    ensures url.JStr? && Truthy(url) && !IsAbsolute(url.s) ==> r == Ok(JStr(ImageBaseUrl + "/" + StripApi(url.s)))
  {
    if !Truthy(url) then Ok(Null)
    else if url.JStr? then Ok(JStr(AbsoluteUrl(url.s)))
    else Err(TypeError)
  }

  /** Completing a completed URL changes nothing. */
  lemma EnsureAbsoluteUrlIdempotent(url: JsVal)
    requires EnsureAbsoluteUrl(url).Ok?
    ensures EnsureAbsoluteUrl(EnsureAbsoluteUrl(url).value) == EnsureAbsoluteUrl(url)
  {
  }

  /** A path the backend hands out keeps its leading slash behind the base
      URL's own: `/storage/x` becomes `http://localhost:8000//storage/x`. */
  lemma StoragePathGetsTwoSlashes(path: string)
    ensures AbsoluteUrl("/storage/" + path) == ImageBaseUrl + "//storage/" + path
  {
    var url := "/storage/" + path;
    assert url[0] == '/' && url[1] == 's';
    assert !StartsWith(url, "/api/") && !StartsWith(url, "api/") && !IsAbsolute(url) by {
      assert "/api/"[1] == 'a' && "api/"[0] == 'a' && "http://"[0] == 'h' && "https://"[0] == 'h';
    }
    assert ImageBaseUrl + "/" + url == ImageBaseUrl + "//storage/" + path;
  }

  // ---------------------------------------------------------------------
  // prepareRequestData
  // ---------------------------------------------------------------------

  /** What `FormData.append` stores: a file as it is, anything else as its
      text. */
  function FormValueOf(v: JsVal, numText: NumText): (f: FormValue)
    ensures f.FBlob? <==> v.JFile?
    ensures v.JStr? ==> f == FText(v.s)
  {
    if v.JFile? then FBlob(v.name) else FText(Text(v, numText))
  }

  /** The form key of the `i`-th element of the array under `key`. */
  function IndexedKey(key: string, i: nat): string {
    key + "[" + NatToString(i) + "]"
  }

  /** The entries one property contributes: none for `null` and
      `undefined`, one per element for an array, the JSON text of any other
      object that is not a file, else the value itself. */
  function EntryParts(key: string, v: JsVal, numText: NumText, stringify: JsVal -> string)
    : (parts: seq<(string, FormValue)>)
    ensures Nullish(v) <==> parts == [] && !(v.JArr? && |v.items| == 0)
    ensures v.JArr? ==> (|parts| == |v.items| &&
              forall i :: 0 <= i < |v.items| ==> parts[i] == (IndexedKey(key, i), FormValueOf(v.items[i], numText)))
    ensures !Nullish(v) && !v.JArr? ==> |parts| == 1 && parts[0].0 == key
    ensures v.JFile? ==> parts == [(key, FBlob(v.name))]
  {
    match v
    case Undefined => []
    case Null => []
    case JArr(items) =>
      seq(|items|, i requires 0 <= i < |items| => (IndexedKey(key, i), FormValueOf(items[i], numText)))
    case JFile(name) => [(key, FBlob(name))]
    case JObj(_) => [(key, FText(stringify(v)))]
    case JFormData(_) => [(key, FText(stringify(v)))]
    case _ => [(key, FText(Text(v, numText)))]
  }

  /** `EntryParts` on a property. */
  function PropertyParts(numText: NumText, stringify: JsVal -> string)
    : ((string, JsVal)) -> seq<(string, FormValue)>
  {
    (field: (string, JsVal)) => EntryParts(field.0, field.1, numText, stringify)
  }

  /** The entries of all properties, in property order. */
  function Flatten(fields: seq<(string, JsVal)>, numText: NumText, stringify: JsVal -> string)
    : (entries: seq<(string, FormValue)>)
  {
    FlatMap(fields, PropertyParts(numText, stringify))
  }

  /** A `null` or `undefined` property adds nothing, wherever it stands. */
  lemma FlattenSkipsNullish(a: seq<(string, JsVal)>, key: string, v: JsVal, b: seq<(string, JsVal)>,
                            numText: NumText, stringify: JsVal -> string)
    requires Nullish(v)
    ensures Flatten(a + [(key, v)] + b, numText, stringify) == Flatten(a + b, numText, stringify)
  {
    FlatMapSkips(a, (key, v), b, PropertyParts(numText, stringify));
  }

  /** The keys an array property spreads into are pairwise distinct, so
      no element overwrites another on the server. */
  lemma IndexedKeysDistinct(key: string, i: nat, j: nat)
    ensures IndexedKey(key, i) == IndexedKey(key, j) ==> i == j
  {
    var a, b := NatToString(i), NatToString(j);
    if IndexedKey(key, i) == IndexedKey(key, j) {
      var x, y := IndexedKey(key, i), IndexedKey(key, j);
      assert |a| == |b|;
      assert forall k :: 0 <= k < |a| ==> a[k] == x[|key| + 1 + k] && b[k] == y[|key| + 1 + k];
      assert a == b;
      NatToStringInjective(i, j);
    }
  }

  /** `prepareRequestData(data)`: a `FormData` is passed through; `null` and
      `undefined` have no entries to read; any other value becomes a new
      `FormData` of its flattened properties. */
  function PrepareRequestData(data: JsVal, numText: NumText, stringify: JsVal -> string)
    : (r: Result<JsVal, string>)
    ensures r.Err? <==> Nullish(data)
    ensures r.Ok? ==> r.value.JFormData?
    ensures data.JFormData? ==> r == Ok(data)
    ensures r.Ok? && !data.JFormData? ==> r.value.entries == Flatten(Spread(data), numText, stringify)
  {
    if data.JFormData? then Ok(data)
    else if Nullish(data) then Err(TypeError)
    else Ok(JFormData(Flatten(Spread(data), numText, stringify)))
  }

  /** For an object of one array property the entries are `key[0]`,
      `key[1]`, ... in element order. */
  lemma PrepareArrayProperty(key: string, items: seq<JsVal>, numText: NumText, stringify: JsVal -> string)
    ensures var r := PrepareRequestData(JObj([(key, JArr(items))]), numText, stringify);
            r.Ok? && |r.value.entries| == |items| &&
            forall i :: 0 <= i < |items| ==>
              r.value.entries[i] == (IndexedKey(key, i), FormValueOf(items[i], numText))
  {
    var fields := [(key, JArr(items))];
    assert Flatten(fields, numText, stringify) == EntryParts(key, JArr(items), numText, stringify) + [] by {
      assert fields[1..] == [];
    }
  }

  // ---------------------------------------------------------------------
  // The request interceptor
  // ---------------------------------------------------------------------

  /** A request as the interceptor sees it; the method is already lower case. */
  datatype Config = Config(verb: string, headers: map<string, string>, data: JsVal)

  const SafeMethods: set<string> := {"get", "head", "options"}

  /** The headers the interceptor may write or delete. */
  const ManagedHeaders: set<string> := {"X-CSRF-TOKEN", "X-Requested-With", "Content-Type"}

  /** A body `typeof` calls an object, that is truthy and not a `FormData`. */
  predicate IsObjectBody(v: JsVal) {
    v.JArr? || v.JObj? || v.JFile?
  }

  /** The interceptor: reading methods pass untouched. Otherwise a non-empty
      token is sent in the token header, a `FormData` body loses the JSON
      content type so the browser can set its own, and any other object
      body is sent as JSON text. */
  function Intercept(c: Config, token: string, stringify: JsVal -> string): (r: Config)
    ensures c.verb in SafeMethods ==> r == c
    ensures r.verb == c.verb
    ensures forall h :: h !in ManagedHeaders ==>
              (h in r.headers <==> h in c.headers) && (h in r.headers ==> r.headers[h] == c.headers[h])
    ensures !IsObjectBody(c.data) ==> r.data == c.data
    ensures c.verb !in SafeMethods && IsObjectBody(c.data) ==>
              r.data == JStr(stringify(c.data)) &&
              "Content-Type" in r.headers && r.headers["Content-Type"] == "application/json"
    ensures c.verb !in SafeMethods && c.data.JFormData? ==> "Content-Type" !in r.headers
    ensures c.verb !in SafeMethods && token != "" ==>
              "X-CSRF-TOKEN" in r.headers && r.headers["X-CSRF-TOKEN"] == token
    ensures token == "" && !IsObjectBody(c.data) && !c.data.JFormData? ==> r == c
  {
    if c.verb in SafeMethods then c
    else
      var h1 := if token != "" then c.headers["X-CSRF-TOKEN" := token]["X-Requested-With" := "XMLHttpRequest"]
                else c.headers;
      var h2 := if c.data.JFormData? then h1 - {"Content-Type"} else h1;
      if IsObjectBody(c.data) then
        Config(c.verb, h2["Content-Type" := "application/json"], JStr(stringify(c.data)))
      else Config(c.verb, h2, c.data)
  }

  /** Intercepting an intercepted request changes nothing more: the JSON
      text it produced is no longer an object body. */
  lemma InterceptIdempotent(c: Config, token: string, stringify: JsVal -> string)
    ensures Intercept(Intercept(c, token, stringify), token, stringify) == Intercept(c, token, stringify)
  {
    var once := Intercept(c, token, stringify);
    var twice := Intercept(once, token, stringify);
    if c.verb !in SafeMethods {
      assert twice.headers.Keys == once.headers.Keys;
      assert forall h :: h in once.headers ==> twice.headers[h] == once.headers[h];
    }
  }

  // ---------------------------------------------------------------------
  // Product reads
  // ---------------------------------------------------------------------

  /** `product.image ? product.image.map(ensureAbsoluteUrl) : null`: only an
      array has `map`. */
  function ImageList(image: JsVal): (r: Result<JsVal, string>)
    ensures !Truthy(image) ==> r == Ok(Null)
    ensures Truthy(image) && !image.JArr? ==> r.Err?
    ensures r.Ok? && image.JArr? ==> r.value.JArr? && |r.value.items| == |image.items|
    ensures image.JArr? ==> (r.Ok? <==> forall i :: 0 <= i < |image.items| ==> EnsureAbsoluteUrl(image.items[i]).Ok?)
    ensures r.Ok? && image.JArr? ==> forall i :: 0 <= i < |image.items| ==> Ok(r.value.items[i]) == EnsureAbsoluteUrl(image.items[i])
  {
    if !Truthy(image) then Ok(Null)
    else if image.JArr? then
      var urls :- MapAll(image.items, EnsureAbsoluteUrl);
      Ok(JArr(urls))
    else Err(TypeError)
  }

  /** The properties the read transform rewrites. */
  const ImageKeys: set<string> := {"image_url", "img", "image"}

  /** The transform of one product read: `image_url` and `img` completed,
      every entry of `image` completed; every other property as sent. */
  function TransformProduct(p: JsVal): (r: Result<JsVal, string>)
    ensures r.Ok? <==> !Nullish(p) && EnsureAbsoluteUrl(Get(Spread(p), "image_url")).Ok? &&
                       EnsureAbsoluteUrl(Get(Spread(p), "img")).Ok? && ImageList(Get(Spread(p), "image")).Ok?
    ensures r.Ok? ==> r.value.JObj?
    ensures r.Ok? ==> Get(r.value.fields, "image_url") == EnsureAbsoluteUrl(Get(Spread(p), "image_url")).value
    ensures r.Ok? ==> Get(r.value.fields, "img") == EnsureAbsoluteUrl(Get(Spread(p), "img")).value
    ensures r.Ok? ==> Get(r.value.fields, "image") == ImageList(Get(Spread(p), "image")).value
    ensures r.Ok? && Get(Spread(p), "image").JArr? ==>
              var image := Get(Spread(p), "image").items;
              Get(r.value.fields, "image").JArr? && |Get(r.value.fields, "image").items| == |image| &&
              forall i :: 0 <= i < |image| ==> Ok(Get(r.value.fields, "image").items[i]) == EnsureAbsoluteUrl(image[i])
    ensures r.Ok? ==> forall k :: k !in ImageKeys ==> Get(r.value.fields, k) == Get(Spread(p), k)
  {
    if Nullish(p) then Err(TypeError)
    else
      var fields := Spread(p);
      var imageUrl :- EnsureAbsoluteUrl(Get(fields, "image_url"));
      var img :- EnsureAbsoluteUrl(Get(fields, "img"));
      var image :- ImageList(Get(fields, "image"));
      Ok(JObj(Put(Put(Put(fields, "image_url", imageUrl), "img", img), "image", image)))
  }

  /** Completing an already completed list changes nothing. */
  lemma ImageListIdempotent(image: JsVal)
    requires ImageList(image).Ok?
    ensures ImageList(ImageList(image).value) == ImageList(image)
  {
    if Truthy(image) {
      var urls := MapAll(image.items, EnsureAbsoluteUrl).value;
      assert forall i :: 0 <= i < |urls| ==> EnsureAbsoluteUrl(urls[i]) == Ok(urls[i]) by {
        forall i | 0 <= i < |urls|
          ensures EnsureAbsoluteUrl(urls[i]) == Ok(urls[i])
        {
          EnsureAbsoluteUrlIdempotent(image.items[i]);
        }
      }
      var again := MapAll(urls, EnsureAbsoluteUrl).value;
      assert again == urls;
    }
  }

  /** Transforming a transformed product changes nothing. */
  lemma TransformIdempotent(p: JsVal)
    requires TransformProduct(p).Ok?
    ensures TransformProduct(TransformProduct(p).value) == TransformProduct(p)
  {
    var q := TransformProduct(p).value;
    var fields := Spread(p);
    EnsureAbsoluteUrlIdempotent(Get(fields, "image_url"));
    EnsureAbsoluteUrlIdempotent(Get(fields, "img"));
    ImageListIdempotent(Get(fields, "image"));
    var f := q.fields;
    assert HasKey(f, "image_url") && HasKey(f, "img") && HasKey(f, "image");
    PutUnchanged(f, "image_url");
    PutUnchanged(f, "img");
    PutUnchanged(f, "image");
  }

  /** `productService.getAll`: every product of the list transformed, in
      order; a body that is not an array has no `map`. */
  function GetAll(body: JsVal): (r: Result<seq<JsVal>, string>)
    ensures r.Ok? <==> body.JArr? && forall i :: 0 <= i < |body.items| ==> TransformProduct(body.items[i]).Ok?
    ensures r.Ok? ==> (|r.value| == |body.items| &&
              forall i :: 0 <= i < |body.items| ==> Ok(r.value[i]) == TransformProduct(body.items[i]))
  {
    if body.JArr? then MapAll(body.items, TransformProduct) else Err(TypeError)
  }

  /** A read the client either refuses before sending or sends to a path,
      with what it makes of the answer. */
  datatype Fetch = NoRequest(message: string) | Request(path: string, result: Result<JsVal, string>)

  /** `productService.getById(id)` for the body `served` the server sends
      back: a falsy id is refused without a request. */
  function GetById(id: JsVal, served: JsVal, numText: NumText): (r: Fetch)
    ensures r.NoRequest? <==> !Truthy(id)
    ensures r.NoRequest? ==> r.message == "Product ID is required"
    ensures r.Request? ==> r.path == "/products/" + Text(id, numText) && r.result == TransformProduct(served)
  {
    if !Truthy(id) then NoRequest("Product ID is required")
    else Request("/products/" + Text(id, numText), TransformProduct(served))
  }

  /** A product read by id comes back exactly as the list read gives the
      same product. */
  lemma GetByIdAsListed(id: JsVal, served: JsVal, numText: NumText)
    requires Truthy(id)
    ensures GetById(id, served, numText).result.Ok? <==> GetAll(JArr([served])).Ok?
    ensures GetAll(JArr([served])).Ok? ==> GetAll(JArr([served])).value == [GetById(id, served, numText).result.value]
  {
    var listed := GetAll(JArr([served]));
    assert [served][0] == served;
    if listed.Ok? {
      assert Ok(listed.value[0]) == TransformProduct(served);
    }
  }

  // ---------------------------------------------------------------------
  // The token guard of the writing calls
  // ---------------------------------------------------------------------

  const TokenPrefix: string := "XSRF-TOKEN="

  const TokenMessage: string := "Failed to retrieve CSRF token. Please refresh the page and try again."

  /** The first cookie row that names the token. */
  function FindTokenRow(rows: seq<string>): (r: Option<string>)
    ensures r.Some? ==> r.value in rows && StartsWith(r.value, TokenPrefix)
    ensures r.None? <==> forall i :: 0 <= i < |rows| ==> !StartsWith(rows[i], TokenPrefix)
    decreases |rows|
  {
    if |rows| == 0 then None
    else if StartsWith(rows[0], TokenPrefix) then Some(rows[0])
    else
      assert forall i :: 1 <= i < |rows| ==> rows[i] == rows[1..][i - 1];
      FindTokenRow(rows[1..])
  }

  /** `document.cookie.split('; ').find(...)?.split('=')[1]`: the text
      between the first and second `=` of the token's row. */
  function CookieToken(cookie: string): (t: Option<string>)
    ensures t.Some? ==> '=' !in t.value
  {
    match FindTokenRow(SplitText(cookie, "; "))
    case None => None
    case Some(row) =>
      assert row[10] == '=' && row[10] in multiset(row);
      Some(Split(row, '=')[1])
  }

  /** The guard passes: a row was found and its token is not empty. */
  predicate HasToken(cookie: string) {
    var t := CookieToken(cookie);
    t.Some? && t.value != ""
  }

  /** A cookie of the token alone yields the token. */
  lemma CookieTokenOfRow(token: string)
    requires ';' !in token && '=' !in token
    ensures CookieToken(TokenPrefix + token) == Some(token)
  {
    TokenRowFound(token);
    TokenRowSplit(token);
  }

  /** The cookie of the token alone is one row, and it names the token. */
  lemma TokenRowFound(token: string)
    requires ';' !in token
    ensures FindTokenRow(SplitText(TokenPrefix + token, "; ")) == Some(TokenPrefix + token)
  {
    var row := TokenPrefix + token;
    assert forall k :: 0 <= k < |row| ==> row[k] != ';' by {
      assert forall k :: 0 <= k < |TokenPrefix| ==> TokenPrefix[k] != ';';
      assert forall k :: |TokenPrefix| <= k < |row| ==> row[k] == token[k - |TokenPrefix|];
    }
    NoSeparator(row);
    SplitTextAbsent(row, "; ");
    assert row[..|TokenPrefix|] == TokenPrefix;
  }

  /** The token is the second `=`-piece of its row. */
  lemma TokenRowSplit(token: string)
    requires '=' !in token
    ensures Split(TokenPrefix + token, '=') == ["XSRF-TOKEN", token]
  {
    var name := "XSRF-TOKEN";
    assert forall k :: 0 <= k < |name| ==> name[k] != '=';
    assert TokenPrefix + token == name + ['='] + token;
    SplitTwo(name, token, '=');
  }

  /** Text without `;` does not contain `"; "`. */
  lemma {:induction false} NoSeparator(s: string)
    requires forall k :: 0 <= k < |s| ==> s[k] != ';'
    ensures !Contains(s, "; ")
    decreases |s|
  {
    if |s| > 0 {
      assert !StartsWith(s, "; ") by {
        if |s| >= 2 {
          assert s[..2][0] == s[0] != ';';
        }
      }
      assert forall k :: 0 <= k < |s[1..]| ==> s[1..][k] == s[k + 1];
      NoSeparator(s[1..]);
    }
  }

  /** What a writing call does: throws before sending, or posts a form. */
  datatype Sent = Thrown(message: string) | Posted(url: string, token: string, body: seq<(string, FormValue)>)

  /** `productService.create(data)`. */
  function CreateProduct(cookie: string, data: JsVal, numText: NumText, stringify: JsVal -> string): (r: Sent)
    ensures r == Thrown(TokenMessage) <==> !HasToken(cookie)
    ensures r.Thrown? && HasToken(cookie) ==> Nullish(data)
    ensures r.Posted? ==> (PrepareRequestData(data, numText, stringify).Ok? && r.url == ApiUrl + "/products" && r.token == CookieToken(cookie).value &&
              r.body == PrepareRequestData(data, numText, stringify).value.entries)
  {
    if !HasToken(cookie) then Thrown(TokenMessage)
    else match PrepareRequestData(data, numText, stringify)
      case Err(e) => Thrown(e)
      case Ok(form) => Posted(ApiUrl + "/products", CookieToken(cookie).value, form.entries)
  }

  /** `productService.update(id, data)`: the form gains `_method=PUT`, which
      the framework reads as the real method. */
  function UpdateProduct(cookie: string, id: JsVal, data: JsVal, numText: NumText, stringify: JsVal -> string)
    : (r: Sent)
    ensures r == Thrown(TokenMessage) <==> !HasToken(cookie)
    ensures r.Thrown? && HasToken(cookie) ==> Nullish(data)
    ensures r.Posted? ==> (PrepareRequestData(data, numText, stringify).Ok? && r.url == ApiUrl + "/products/" + Text(id, numText) &&
              r.token == CookieToken(cookie).value &&
              r.body == PrepareRequestData(data, numText, stringify).value.entries + [("_method", FText("PUT"))])
  {
    if !HasToken(cookie) then Thrown(TokenMessage)
    else match PrepareRequestData(data, numText, stringify)
      case Err(e) => Thrown(e)
      case Ok(form) =>
        Posted(ApiUrl + "/products/" + Text(id, numText), CookieToken(cookie).value,
               form.entries + [("_method", FText("PUT"))])
  }

  /** `orderService.create(form)`: the form is sent as it is. */
  function CreateOrder(cookie: string, form: seq<(string, FormValue)>): (r: Sent)
    ensures r.Thrown? <==> !HasToken(cookie)
    ensures r.Thrown? ==> r.message == TokenMessage
    ensures r.Posted? ==> r.url == ApiUrl + "/orders" && r.token == CookieToken(cookie).value && r.body == form
  {
    if !HasToken(cookie) then Thrown(TokenMessage)
    else Posted(ApiUrl + "/orders", CookieToken(cookie).value, form)
  }

  /** `orderService.update(id, data)`, encoded like a product update. */
  function UpdateOrder(cookie: string, id: JsVal, data: JsVal, numText: NumText, stringify: JsVal -> string)
    : (r: Sent)
    ensures r == Thrown(TokenMessage) <==> !HasToken(cookie)
    ensures r.Thrown? && HasToken(cookie) ==> Nullish(data)
    ensures r.Posted? ==> (PrepareRequestData(data, numText, stringify).Ok? && r.url == ApiUrl + "/orders/" + Text(id, numText) &&
              r.token == CookieToken(cookie).value &&
              r.body == PrepareRequestData(data, numText, stringify).value.entries + [("_method", FText("PUT"))])
  {
    if !HasToken(cookie) then Thrown(TokenMessage)
    else match PrepareRequestData(data, numText, stringify)
      case Err(e) => Thrown(e)
      case Ok(form) =>
        Posted(ApiUrl + "/orders/" + Text(id, numText), CookieToken(cookie).value,
               form.entries + [("_method", FText("PUT"))])
  }

  /** Without a usable token none of the four writing calls sends anything. */
  lemma NoTokenNoRequest(cookie: string, id: JsVal, data: JsVal, form: seq<(string, FormValue)>,
                         numText: NumText, stringify: JsVal -> string)
    requires !HasToken(cookie)
    ensures !CreateProduct(cookie, data, numText, stringify).Posted?
    ensures !UpdateProduct(cookie, id, data, numText, stringify).Posted?
    ensures !CreateOrder(cookie, form).Posted?
    ensures !UpdateOrder(cookie, id, data, numText, stringify).Posted?
  {
  }
}

=== FILE: cart.dfy ===
/** The cart dialog: placing an order from the cart, and the total the
    cart shows. Placing reads `parseFloat(price) || 0`, while the shown
    total first drops every character other than a digit, `.` and `-`;
    the two disagree on prices written with a currency sign. */
module Cart {
  import opened Wrappers
  import opened Strings
  import opened NumberText
  import opened JsValues
  import opened CartTotals
  import OrderContext

  const LoginMessage: string := "Please log in to place an order."
  const EmptyCartMessage: string := "Your cart is empty"
  const SyntaxError: string := "SyntaxError"

  const GuestName: string := "Guest"
  const NoEmail: string := "no-email@example.com"
  const NoAddress: string := "No address provided"
  const UnnamedProduct: string := "Unnamed Product"

  /** The dialog's fields. */
  datatype Form = Form(name: string, email: string, address: string)

  const ItemNames: seq<string> := ["id", "name", "price", "quantity", "image"]
  const OrderNames: seq<string> := ["customer_name", "customer_email", "shipping_address", "items", "total_amount"]

  lemma ItemNamesDistinct()
    ensures DistinctNames(ItemNames)
  {
  }

  lemma OrderNamesDistinct()
    ensures DistinctNames(OrderNames)
  {
  }

  /** `text || fallback` on form text. */
  function OrText(text: string, fallback: string): (r: string)
    ensures r == (if text == "" then fallback else text)
  {
    if text == "" then fallback else text
  }

  /** `JSON.parse(localStorage.getItem('user')) || {}`: a missing entry reads
      as the text `null`; text that does not parse throws. */
  function CurrentUser(stored: Option<string>, parse: OrderContext.Parse): (r: Result<JsVal, string>)
    ensures r.Err? <==> parse(stored.GetOr("null")).None?
    ensures r.Err? ==> r.error == SyntaxError
    ensures r.Ok? ==> Truthy(r.value)
    ensures r.Ok? && Truthy(parse(stored.GetOr("null")).value) ==> r.value == parse(stored.GetOr("null")).value
  {
    match parse(stored.GetOr("null"))
    case None => Err(SyntaxError)
    case Some(v) => Ok(Or(v, JObj([])))
  }

  /** The stored user parses and has an id. */
  predicate LoggedIn(stored: Option<string>, parse: OrderContext.Parse) {
    var user := CurrentUser(stored, parse);
    user.Ok? && Truthy(Field(user.value, "id"))
  }

  /** The stored user parses but has no id. */
  predicate LoggedOut(stored: Option<string>, parse: OrderContext.Parse) {
    var user := CurrentUser(stored, parse);
    user.Ok? && !Truthy(Field(user.value, "id"))
  }

  /** `parseFloat(item.price) || 0`: the price's text read as a number, zero
      when that is NaN or zero. */
  function SubmittedPrice(price: JsVal, numText: NumText): (n: Num)
    ensures n.Fin?
    ensures NumTruthy(ParseFloat(Text(price, numText))) ==> n == ParseFloat(Text(price, numText))
    ensures !NumTruthy(ParseFloat(Text(price, numText))) ==> n == Fin(0.0)
  {
    var parsed := ParseFloat(Text(price, numText));
    if NumTruthy(parsed) then parsed else Fin(0.0)
  }

  /** One submitted item: missing id, name, quantity and image replaced by
      the clock, `Unnamed Product`, `1` and empty text. */
  function SubmittedItem(item: JsVal, now: nat, numText: NumText): (r: Result<JsVal, string>)
    ensures r.Ok? <==> !Nullish(item)
    ensures r.Err? ==> r.error == TypeError
    ensures r.Ok? ==> (r.value.JObj? &&
              Get(r.value.fields, "id") == Or(Field(item, "id"), JNum(Fin(now as real))) &&
              Get(r.value.fields, "name") == Or(Field(item, "name"), JStr(UnnamedProduct)) &&
              Get(r.value.fields, "price") == JNum(SubmittedPrice(Field(item, "price"), numText)) &&
              Get(r.value.fields, "quantity") == Or(Field(item, "quantity"), JNum(Fin(1.0))) &&
              Get(r.value.fields, "image") == Or(Field(item, "image"), JStr("")))
  {
    if Nullish(item) then Err(TypeError)
    else
      var values := [
        Or(Field(item, "id"), JNum(Fin(now as real))),
        Or(Field(item, "name"), JStr(UnnamedProduct)),
        JNum(SubmittedPrice(Field(item, "price"), numText)),
        Or(Field(item, "quantity"), JNum(Fin(1.0))),
        Or(Field(item, "image"), JStr(""))];
      ItemNamesDistinct();
      var r := ObjectLiteral(ItemNames, values);
      assert Get(r.fields, ItemNames[0]) == values[0];
      assert Get(r.fields, ItemNames[1]) == values[1];
      assert Get(r.fields, ItemNames[2]) == values[2];
      assert Get(r.fields, ItemNames[3]) == values[3];
      assert Get(r.fields, ItemNames[4]) == values[4];
      Ok(r)
  }

  function SubmittedItems(now: nat, numText: NumText): JsVal -> Result<JsVal, string> {
    (item: JsVal) => SubmittedItem(item, now, numText)
  }

  /** What an entry adds to the submitted total. */
  function SubmittedAmount(item: JsVal, numText: NumText): (r: Result<Num, string>)
    ensures r.Ok? <==> !Nullish(item)
  {
    if Nullish(item) then Err(TypeError)
    else Ok(Mul(SubmittedPrice(Field(item, "price"), numText), ToNumber(Or(Field(item, "quantity"), JNum(Fin(1.0))), numText)))
  }

  function SubmittedAmounts(numText: NumText): Line {
    (item: JsVal) => SubmittedAmount(item, numText)
  }

  /** `memoizedCart.map(...)` building the submitted items. */
  function SubmittedItemsOf(cart: seq<JsVal>, now: nat, numText: NumText): (r: Result<seq<JsVal>, string>)
    ensures r.Ok? <==> forall i :: 0 <= i < |cart| ==> !Nullish(cart[i])
    ensures r.Err? ==> r.error == TypeError
    ensures r.Ok? ==> (|r.value| == |cart| &&
              forall i :: 0 <= i < |cart| ==> Ok(r.value[i]) == SubmittedItem(cart[i], now, numText))
  {
    var items := MapAll(cart, SubmittedItems(now, numText));
    assert forall i :: 0 <= i < |cart| ==> SubmittedItems(now, numText)(cart[i]) == SubmittedItem(cart[i], now, numText);
    items
  }

  /** The submitted total: `reduce` over the cart. */
  function SubmittedTotal(cart: seq<JsVal>, numText: NumText): (r: Result<Num, string>)
    ensures r == Total(cart, SubmittedAmounts(numText))
    ensures r.Ok? <==> forall i :: 0 <= i < |cart| ==> !Nullish(cart[i])
  {
    var line := SubmittedAmounts(numText);
    FoldIsTotal(Fin(0.0), cart, line);
    var t := Total(cart, line);
    assert Plus(Fin(0.0), t) == t by {
      assert t.Ok? ==> Add(Fin(0.0), t.value) == t.value;
    }
    SubmittedTotalRead(cart, numText);
    Fold(Fin(0.0), cart, line)
  }

  /** The submitted total is a number exactly when every entry is there. */
  lemma SubmittedTotalRead(cart: seq<JsVal>, numText: NumText)
    ensures Total(cart, SubmittedAmounts(numText)).Ok? <==> forall i :: 0 <= i < |cart| ==> !Nullish(cart[i])
  {
    var line := SubmittedAmounts(numText);
    var t := Total(cart, line);
    assert t.Ok? <==> forall i :: 0 <= i < |cart| ==> line(cart[i]).Ok?;
    SubmittedLinesRead(cart, numText);
  }

  /** An entry's submitted amount is read exactly when the entry is there. */
  lemma SubmittedLinesRead(cart: seq<JsVal>, numText: NumText)
    ensures forall i :: 0 <= i < |cart| ==> (SubmittedAmounts(numText)(cart[i]).Ok? <==> !Nullish(cart[i]))
  {
    forall i | 0 <= i < |cart|
      ensures SubmittedAmounts(numText)(cart[i]).Ok? <==> !Nullish(cart[i])
    {
      assert SubmittedAmounts(numText)(cart[i]) == SubmittedAmount(cart[i], numText);
    }
  }

  /** The order object, from its computed parts. */
  function OrderObject(form: Form, items: seq<JsVal>, total: Num): (r: JsVal)
    ensures r.JObj?
    ensures Get(r.fields, "customer_name") == JStr(OrText(form.name, GuestName))
    ensures Get(r.fields, "customer_email") == JStr(OrText(form.email, NoEmail))
    ensures Get(r.fields, "shipping_address") == JStr(OrText(form.address, NoAddress))
    ensures Get(r.fields, "items") == JArr(items)
    ensures Get(r.fields, "total_amount") == JNum(total)
  {
    var values := [JStr(OrText(form.name, GuestName)), JStr(OrText(form.email, NoEmail)),
                   JStr(OrText(form.address, NoAddress)), JArr(items), JNum(total)];
    OrderNamesDistinct();
    var r := ObjectLiteral(OrderNames, values);
    assert Get(r.fields, OrderNames[0]) == values[0];
    assert Get(r.fields, OrderNames[1]) == values[1];
    assert Get(r.fields, OrderNames[2]) == values[2];
    assert Get(r.fields, OrderNames[3]) == values[3];
    assert Get(r.fields, OrderNames[4]) == values[4];
    r
  }

  /** `handleSubmit` up to the order it hands to `addOrder`: the stored user
      must parse and have an id, the cart must not be empty, and every entry
      must be readable. */
  function PlaceOrder(stored: Option<string>, parse: OrderContext.Parse, cart: seq<JsVal>, form: Form,
                      now: nat, numText: NumText): (r: Result<JsVal, string>)
    ensures CurrentUser(stored, parse).Err? ==> r == Err(SyntaxError)
    ensures LoggedOut(stored, parse) ==> r == Err(LoginMessage)
    ensures LoggedIn(stored, parse) && |cart| == 0 ==> r == Err(EmptyCartMessage)
    ensures LoggedIn(stored, parse) && |cart| > 0 ==>
              (r.Ok? <==> forall i :: 0 <= i < |cart| ==> !Nullish(cart[i]))
    ensures LoggedIn(stored, parse) && |cart| > 0 && r.Err? ==> r.error == TypeError
    ensures r.Ok? ==> (r.value.JObj? &&
              Get(r.value.fields, "customer_name") == JStr(OrText(form.name, GuestName)) &&
              Get(r.value.fields, "customer_email") == JStr(OrText(form.email, NoEmail)) &&
              Get(r.value.fields, "shipping_address") == JStr(OrText(form.address, NoAddress)))
    ensures r.Ok? ==> (Get(r.value.fields, "total_amount").JNum? &&
              Ok(Get(r.value.fields, "total_amount").n) == Total(cart, SubmittedAmounts(numText)))
  {
    var user :- CurrentUser(stored, parse);
    if !Truthy(Field(user, "id")) then Err(LoginMessage)
    else if |cart| == 0 then Err(EmptyCartMessage)
    else
      var items :- SubmittedItemsOf(cart, now, numText);
      Ok(OrderObject(form, items, SubmittedTotal(cart, numText).value))
  }

  /** The submitted items follow the cart one for one, in order. */
  lemma PlaceOrderItems(stored: Option<string>, parse: OrderContext.Parse, cart: seq<JsVal>, form: Form,
                        now: nat, numText: NumText)
    requires PlaceOrder(stored, parse, cart, form, now, numText).Ok?
    ensures Get(PlaceOrder(stored, parse, cart, form, now, numText).value.fields, "items")
            == JArr(SubmittedItemsOf(cart, now, numText).value)
  {
  }

  /** A submitted item stands for the amount its entry added to the total. */
  lemma ItemRecordsAmount(item: JsVal, line: JsVal, now: nat, numText: NumText)
    requires Ok(line) == SubmittedItem(item, now, numText)
    ensures SubmittedAmount(item, numText) == RecordedAmount(line, numText)
  {
    assert Field(line, "price") == JNum(SubmittedPrice(Field(item, "price"), numText));
    assert Field(line, "quantity") == Or(Field(item, "quantity"), JNum(Fin(1.0)));
  }

  /** The submitted total is the sum of the submitted items' price times
      quantity. */
  lemma TotalMatchesItems(stored: Option<string>, parse: OrderContext.Parse, cart: seq<JsVal>, form: Form,
                          now: nat, numText: NumText)
    requires PlaceOrder(stored, parse, cart, form, now, numText).Ok?
    ensures var order := PlaceOrder(stored, parse, cart, form, now, numText).value;
            Ok(Get(order.fields, "total_amount").n) == Total(Get(order.fields, "items").items, RecordedAmounts(numText))
  {
    PlaceOrderItems(stored, parse, cart, form, now, numText);
    var items := SubmittedItemsOf(cart, now, numText).value;
    forall i | 0 <= i < |cart|
      ensures SubmittedAmounts(numText)(cart[i]) == RecordedAmounts(numText)(items[i])
    {
      ItemRecordsAmount(cart[i], items[i], now, numText);
      assert SubmittedAmounts(numText)(cart[i]) == SubmittedAmount(cart[i], numText);
      assert RecordedAmounts(numText)(items[i]) == RecordedAmount(items[i], numText);
    }
    TotalPointwise(cart, SubmittedAmounts(numText), items, RecordedAmounts(numText));
  }

  /** The price the shown total uses: text has its non-numeric characters
      dropped before `parseFloat`; any other value is multiplied as it is. */
  function ShownPrice(price: JsVal, numText: NumText): (n: Num)
    ensures price.JStr? ==> n == ParseFloat(KeepNumericChars(price.s))
    ensures !price.JStr? ==> n == ToNumber(price, numText)
  {
    if price.JStr? then ParseFloat(KeepNumericChars(price.s)) else ToNumber(price, numText)
  }

  function ShownAmount(item: JsVal, numText: NumText): (r: Result<Num, string>)
    ensures r.Ok? <==> !Nullish(item)
  {
    if Nullish(item) then Err(TypeError)
    else Ok(Mul(ShownPrice(Field(item, "price"), numText), ToNumber(Or(Field(item, "quantity"), JNum(Fin(1.0))), numText)))
  }

  function ShownAmounts(numText: NumText): Line {
    (item: JsVal) => ShownAmount(item, numText)
  }

  /** The total the cart shows. */
  function ShownTotal(cart: seq<JsVal>, numText: NumText): (r: Result<Num, string>)
    ensures r == Total(cart, ShownAmounts(numText))
  {
    var line := ShownAmounts(numText);
    FoldIsTotal(Fin(0.0), cart, line);
    var t := Total(cart, line);
    assert Plus(Fin(0.0), t) == t by {
      assert t.Ok? ==> Add(Fin(0.0), t.value) == t.value;
    }
    Fold(Fin(0.0), cart, line)
  }

  /** A price written with a leading `$` submits as zero. */
  lemma DollarPriceSubmitsZero(rest: string, numText: NumText)
    ensures SubmittedPrice(JStr("$" + rest), numText) == Fin(0.0)
  {
    var s := "$" + rest;
    assert TrimStart(s, JsBlanks) == s;
    assert s[0] == '$';
  }

  /** A whole-dollar price with a `$` is shown at its amount. */
  lemma DollarPriceShown(n: nat, numText: NumText)
    ensures ShownPrice(JStr("$" + NatToString(n)), numText) == Fin(n as real)
  {
    var digits := NatToString(n);
    assert KeepNumericChars("$" + digits) == KeepNumericChars(digits) by {
      assert ("$" + digits)[1..] == digits;
    }
    assert forall k :: 0 <= k < |digits| ==> IsNumericChar(digits[k]);
    ParseFloatNatText(n);
  }

  /** An entry with a positive quantity adds its price times that quantity
      to the shown total. */
  lemma ShownAmountOf(item: JsVal, price: real, quantity: real, numText: NumText)
    requires !Nullish(item) && ShownPrice(Field(item, "price"), numText) == Fin(price)
    requires Field(item, "quantity") == JNum(Fin(quantity)) && quantity != 0.0
    ensures ShownAmounts(numText)(item) == Ok(Fin(price * quantity))
  {
    assert Or(Field(item, "quantity"), JNum(Fin(1.0))) == JNum(Fin(quantity));
    MulFin(price, quantity);
    assert ShownAmounts(numText)(item) == ShownAmount(item, numText);
  }

  /** An entry with a positive quantity adds its submitted price times that
      quantity to the submitted total. */
  lemma SubmittedAmountOf(item: JsVal, price: real, quantity: real, numText: NumText)
    requires !Nullish(item) && SubmittedPrice(Field(item, "price"), numText) == Fin(price)
    requires Field(item, "quantity") == JNum(Fin(quantity)) && quantity != 0.0
    ensures SubmittedAmounts(numText)(item) == Ok(Fin(price * quantity))
  {
    assert Or(Field(item, "quantity"), JNum(Fin(1.0))) == JNum(Fin(quantity));
    MulFin(price, quantity);
    assert SubmittedAmounts(numText)(item) == SubmittedAmount(item, numText);
  }

  /** The cart shows `n` times the quantity for an entry priced `$n`, and
      submits nothing for it: with `n` positive the two totals differ. */
  lemma ShownAndSubmittedDiffer(item: JsVal, n: nat, quantity: real, numText: NumText)
    requires !Nullish(item) && Field(item, "price") == JStr("$" + NatToString(n))
    requires Field(item, "quantity") == JNum(Fin(quantity)) && quantity > 0.0
    ensures ShownTotal([item], numText) == Ok(Fin(n as real * quantity))
    ensures SubmittedTotal([item], numText) == Ok(Fin(0.0))
  {
    DollarPriceShown(n, numText);
    DollarPriceSubmitsZero(NatToString(n), numText);
    ShownAmountOf(item, n as real, quantity, numText);
    SubmittedAmountOf(item, 0.0, quantity, numText);
    TotalOfOne(item, ShownAmounts(numText));
    TotalOfOne(item, SubmittedAmounts(numText));
  }

  /** An entry of quantity 1 priced `$n`: shown at `n`, submitted at `0`. */
  lemma OneDollarEntry(item: JsVal, n: nat, numText: NumText)
    requires !Nullish(item) && Field(item, "price") == JStr("$" + NatToString(n))
    requires Field(item, "quantity") == JNum(Fin(1.0))
    ensures ShownTotal([item], numText) == Ok(Fin(n as real))
    ensures SubmittedTotal([item], numText) == Ok(Fin(0.0))
  {
    DollarPriceShown(n, numText);
    DollarPriceSubmitsZero(NatToString(n), numText);
    assert Or(Field(item, "quantity"), JNum(Fin(1.0))) == JNum(Fin(1.0));
    MulOne(n as real);
    MulOne(0.0);
    assert ShownAmounts(numText)(item) == Ok(Fin(n as real)) by {
      assert ShownAmounts(numText)(item) == ShownAmount(item, numText);
    }
    assert SubmittedAmounts(numText)(item) == Ok(Fin(0.0)) by {
      assert SubmittedAmounts(numText)(item) == SubmittedAmount(item, numText);
    }
    TotalOfOne(item, ShownAmounts(numText));
    TotalOfOne(item, SubmittedAmounts(numText));
  }

  /** A price that is plain numeric text reads the same both ways. */
  predicate PlainPrice(item: JsVal) {
    var price := Field(item, "price");
    price.JStr? && ParseFloat(price.s).Fin? &&
    forall k :: 0 <= k < |price.s| ==> IsNumericChar(price.s[k])
  }

  lemma PlainPriceAgrees(item: JsVal, numText: NumText)
    requires !Nullish(item) && PlainPrice(item)
    ensures ShownAmount(item, numText) == SubmittedAmount(item, numText)
  {
    var price := Field(item, "price");
    assert KeepNumericChars(price.s) == price.s;
    assert Text(price, numText) == price.s;
  }

  /** When every price is plain numeric text, the cart shows the total it
      submits. */
  lemma ShownTotalIsSubmitted(cart: seq<JsVal>, numText: NumText)
    requires forall i :: 0 <= i < |cart| ==> !Nullish(cart[i]) && PlainPrice(cart[i])
    ensures ShownTotal(cart, numText) == SubmittedTotal(cart, numText)
  {
    forall i | 0 <= i < |cart|
      ensures ShownAmounts(numText)(cart[i]) == SubmittedAmounts(numText)(cart[i])
    {
      PlainPriceAgrees(cart[i], numText);
      assert ShownAmounts(numText)(cart[i]) == ShownAmount(cart[i], numText);
      assert SubmittedAmounts(numText)(cart[i]) == SubmittedAmount(cart[i], numText);
    }
    TotalPointwise(cart, ShownAmounts(numText), cart, SubmittedAmounts(numText));
  }
}

=== FILE: cart_totals.dfy ===
/** Cart sums as the client computes them with `reduce`: a running sum,
    started at `0`, to which each item's amount is added in turn, an item
    whose amount throws ending the sum. */
module CartTotals {
  import opened Wrappers
  import opened NumberText
  import opened JsValues

  /** The amount one cart entry contributes, or the error reading it throws. */
  type Line = JsVal -> Result<Num, string>

  /** The amount a recorded order line stands for: its price times its
      quantity. */
  function RecordedAmount(line: JsVal, numText: NumText): Result<Num, string> {
    Ok(Mul(ToNumber(Field(line, "price"), numText), ToNumber(Field(line, "quantity"), numText)))
  }

  function RecordedAmounts(numText: NumText): Line {
    (line: JsVal) => RecordedAmount(line, numText)
  }

  /** `items.reduce((sum, item) => sum + line(item), start)`. */
  function Fold(sum: Num, items: seq<JsVal>, line: Line): Result<Num, string>
    decreases |items|
  {
    if |items| == 0 then Ok(sum)
    else
      match line(items[0])
      case Err(e) => Err(e)
      case Ok(a) => Fold(Add(sum, a), items[1..], line)
  }

  /** The sum of the amounts, added right to left: the reference a fold is
      measured against. */
  function Total(items: seq<JsVal>, line: Line): (r: Result<Num, string>)
    ensures r.Ok? <==> forall i :: 0 <= i < |items| ==> line(items[i]).Ok?
    ensures r.Err? ==> exists i :: 0 <= i < |items| && line(items[i]) == Err(r.error) &&
                                   forall j :: 0 <= j < i ==> line(items[j]).Ok?
    decreases |items|
  {
    if |items| == 0 then Ok(Fin(0.0))
    else
      assert forall i :: 1 <= i < |items| ==> items[i] == items[1..][i - 1];
      match line(items[0])
      case Err(e) => Err(e)
      case Ok(a) =>
        match Total(items[1..], line)
        case Err(e) => Err(e)
        case Ok(t) => Ok(Add(a, t))
  }

  /** A one-entry list totals to that entry's amount. */
  lemma TotalOfOne(x: JsVal, line: Line)
    requires line(x).Ok?
    ensures Total([x], line) == Ok(Add(line(x).value, Fin(0.0)))
  {
    assert [x][1..] == [];
  }

  /** `start + total`, an error passing through. */
  function Plus(start: Num, total: Result<Num, string>): Result<Num, string> {
    match total
    case Ok(t) => Ok(Add(start, t))
    case Err(e) => Err(e)
  }

  /** The running sum ends at the start plus the sum of the amounts, and
      throws exactly when an amount does, with that amount's error. */
  lemma {:induction false} FoldIsTotal(sum: Num, items: seq<JsVal>, line: Line)
    ensures Fold(sum, items, line) == Plus(sum, Total(items, line))
    decreases |items|
  {
    if |items| > 0 {
      var head := line(items[0]);
      if head.Ok? {
        FoldIsTotal(Add(sum, head.value), items[1..], line);
      }
    }
  }

  /** Two lists whose entries contribute the same amounts, one for one, have
      the same total. */
  lemma {:induction false} TotalPointwise(xs: seq<JsVal>, f: Line, ys: seq<JsVal>, g: Line)
    requires |xs| == |ys|
    requires forall i :: 0 <= i < |xs| ==> f(xs[i]) == g(ys[i])
    ensures Total(xs, f) == Total(ys, g)
    decreases |xs|
  {
    if |xs| > 0 {
      assert f(xs[0]) == g(ys[0]);
      assert forall i :: 1 <= i < |xs| ==> xs[1..][i - 1] == xs[i] && ys[1..][i - 1] == ys[i];
      TotalPointwise(xs[1..], f, ys[1..], g);
    }
  }
}

=== FILE: checkout.dfy ===
/** The checkout page: the order summary it shows and the order it hands
    to `addOrder`. Prices are cart text such as `$12.99`; every character
    other than a digit, `.` and `-` is dropped before `parseFloat`. */
module Checkout {
  import opened Wrappers
  import opened Strings
  import opened NumberText
  import opened JsValues
  import opened CartTotals
  import OrderContext

  const ShippingCost: Num := Fin(5.0)
  const CustomerEmail: string := "customer@example.com"

  /** The shipping form's fields. */
  datatype Address = Address(
    fullName: string,
    street: string,
    city: string,
    state: string,
    zipCode: string,
    country: string,
    phone: string)

  /** The properties of an order line, of the shipping address and of the
      order, in the order the literals write them. */
  const LineNames: seq<string> := ["id", "name", "price", "quantity", "image_url"]
  const AddressNames: seq<string> := ["street", "city", "state", "zipCode", "country", "phone"]
  const OrderNames: seq<string> :=
    ["customer_name", "customer_email", "shipping_address", "items", "total_amount", "subtotal", "shipping"]

  lemma LineNamesDistinct()
    ensures DistinctNames(LineNames)
  {
  }

  lemma AddressNamesDistinct()
    ensures DistinctNames(AddressNames)
  {
  }

  lemma OrderNamesDistinct()
    ensures DistinctNames(OrderNames)
  {
  }

  /** `parseFloat(item.price.replace(/[^0-9.-]+/g, ""))`: `replace` exists on
      text only, so any other price throws. */
  function UnitPrice(item: JsVal): (r: Result<Num, string>)
    ensures r.Ok? <==> !Nullish(item) && Field(item, "price").JStr?
    ensures r.Err? ==> r.error == TypeError
    ensures r.Ok? ==> r.value == ParseFloat(KeepNumericChars(Field(item, "price").s))
  {
    if Nullish(item) then Err(TypeError)
    else
      match Field(item, "price")
      case JStr(s) => Ok(ParseFloat(KeepNumericChars(s)))
      case _ => Err(TypeError)
  }

  /** A currency sign and a thousands separator are dropped wherever they
      stand: `"$1,299.99"` is read through the text `"1299.99"`. */
  lemma GroupedPriceText(x: string, y: string)
    requires forall k :: 0 <= k < |x| ==> IsNumericChar(x[k])
    requires forall k :: 0 <= k < |y| ==> IsNumericChar(y[k])
    ensures KeepNumericChars("$" + x + "," + y) == x + y
  {
    assert "$" + x + "," + y == ['$'] + (x + ([','] + y));
    KeepNumericCharsAround('$', x, ',', y);
  }

  /** A whole-dollar price reads as its amount, the `$` dropped. */
  lemma UnitPriceOfDollars(item: JsVal, n: nat)
    requires !Nullish(item) && Field(item, "price") == JStr("$" + NatToString(n))
    ensures UnitPrice(item) == Ok(Fin(n as real))
  {
    var digits := NatToString(n);
    assert KeepNumericChars("$" + digits) == KeepNumericChars(digits) by {
      assert ("$" + digits)[1..] == digits;
    }
    assert forall k :: 0 <= k < |digits| ==> IsNumericChar(digits[k]);
    ParseFloatNatText(n);
  }

  /** What a cart entry adds to the subtotal: its price times its quantity. */
  function LineAmount(item: JsVal, numText: NumText): (r: Result<Num, string>)
    ensures r.Ok? <==> UnitPrice(item).Ok?
    ensures r.Ok? ==> r.value == Mul(UnitPrice(item).value, ToNumber(Field(item, "quantity"), numText))
  {
    var price :- UnitPrice(item);
    Ok(Mul(price, ToNumber(Field(item, "quantity"), numText)))
  }

  function Amounts(numText: NumText): Line {
    (item: JsVal) => LineAmount(item, numText)
  }

  /** The subtotal the summary shows and the order records. */
  function Subtotal(cart: seq<JsVal>, numText: NumText): (r: Result<Num, string>)
    ensures r == Total(cart, Amounts(numText))
  {
    FoldIsTotal(Fin(0.0), cart, Amounts(numText));
    Fold(Fin(0.0), cart, Amounts(numText))
  }

  /** The total the summary shows: the subtotal plus `5`. */
  function DisplayedTotal(cart: seq<JsVal>, numText: NumText): (r: Result<Num, string>)
    ensures r.Ok? <==> forall i :: 0 <= i < |cart| ==> UnitPrice(cart[i]).Ok?
  {
    var subtotal :- Subtotal(cart, numText);
    Ok(Add(subtotal, ShippingCost))
  }

  /** One entry of `order.items`. */
  function OrderLine(item: JsVal): (r: Result<JsVal, string>)
    ensures r.Ok? <==> UnitPrice(item).Ok?
    ensures r.Ok? ==> (r.value.JObj? &&
              Get(r.value.fields, "id") == Field(item, "id") &&
              Get(r.value.fields, "name") == Field(item, "name") &&
              Get(r.value.fields, "price") == JNum(UnitPrice(item).value) &&
              Get(r.value.fields, "quantity") == Field(item, "quantity") &&
              Get(r.value.fields, "image_url") == Field(item, "image_url"))
  {
    var price :- UnitPrice(item);
    var values := [Field(item, "id"), Field(item, "name"), JNum(price), Field(item, "quantity"), Field(item, "image_url")];
    LineNamesDistinct();
    var r := ObjectLiteral(LineNames, values);
    assert Get(r.fields, LineNames[0]) == values[0];
    assert Get(r.fields, LineNames[1]) == values[1];
    assert Get(r.fields, LineNames[2]) == values[2];
    assert Get(r.fields, LineNames[3]) == values[3];
    assert Get(r.fields, LineNames[4]) == values[4];
    Ok(r)
  }

  function OrderLines(): JsVal -> Result<JsVal, string> {
    (item: JsVal) => OrderLine(item)
  }

  /** The shipping address object of the order. */
  function ShippingAddress(a: Address): (r: JsVal)
    ensures r.JObj? && Get(r.fields, "street") == JStr(a.street) && Get(r.fields, "city") == JStr(a.city) &&
            Get(r.fields, "state") == JStr(a.state) && Get(r.fields, "zipCode") == JStr(a.zipCode) &&
            Get(r.fields, "country") == JStr(a.country) && Get(r.fields, "phone") == JStr(a.phone)
  {
    var values := [JStr(a.street), JStr(a.city), JStr(a.state), JStr(a.zipCode), JStr(a.country), JStr(a.phone)];
    AddressNamesDistinct();
    var r := ObjectLiteral(AddressNames, values);
    assert Get(r.fields, AddressNames[0]) == values[0];
    assert Get(r.fields, AddressNames[1]) == values[1];
    assert Get(r.fields, AddressNames[2]) == values[2];
    assert Get(r.fields, AddressNames[3]) == values[3];
    assert Get(r.fields, AddressNames[4]) == values[4];
    assert Get(r.fields, AddressNames[5]) == values[5];
    r
  }

  /** The order object, from its computed parts. */
  function OrderObject(address: Address, lines: seq<JsVal>, subtotal: Num): (r: JsVal)
    ensures r.JObj?
    ensures Get(r.fields, "customer_name") == JStr(address.fullName)
    ensures Get(r.fields, "customer_email") == JStr(CustomerEmail)
    ensures Get(r.fields, "shipping_address") == ShippingAddress(address)
    ensures Get(r.fields, "items") == JArr(lines)
    ensures Get(r.fields, "total_amount") == JNum(Add(subtotal, ShippingCost))
    ensures Get(r.fields, "subtotal") == JNum(subtotal)
    ensures Get(r.fields, "shipping") == JNum(ShippingCost)
  {
    var values := [JStr(address.fullName), JStr(CustomerEmail), ShippingAddress(address), JArr(lines),
                   JNum(Add(subtotal, ShippingCost)), JNum(subtotal), JNum(ShippingCost)];
    OrderNamesDistinct();
    var r := ObjectLiteral(OrderNames, values);
    assert Get(r.fields, OrderNames[0]) == values[0];
    assert Get(r.fields, OrderNames[1]) == values[1];
    assert Get(r.fields, OrderNames[2]) == values[2];
    assert Get(r.fields, OrderNames[3]) == values[3];
    assert Get(r.fields, OrderNames[4]) == values[4];
    assert Get(r.fields, OrderNames[5]) == values[5];
    assert Get(r.fields, OrderNames[6]) == values[6];
    r
  }

  /** The order `handleSubmit` builds, or the error computing it throws:
      the customer's name from the form, the fixed e-mail and shipping cost,
      and the total as the subtotal plus shipping. */
  function PlaceOrder(cart: seq<JsVal>, address: Address, numText: NumText): (r: Result<JsVal, string>)
    ensures r.Ok? <==> forall i :: 0 <= i < |cart| ==> UnitPrice(cart[i]).Ok?
    ensures r.Err? ==> r.error == TypeError
    ensures r.Ok? ==> (r.value.JObj? &&
              Get(r.value.fields, "customer_name") == JStr(address.fullName) &&
              Get(r.value.fields, "customer_email") == JStr(CustomerEmail) &&
              Get(r.value.fields, "shipping_address") == ShippingAddress(address) &&
              Get(r.value.fields, "shipping") == JNum(ShippingCost))
    ensures r.Ok? ==> (Get(r.value.fields, "subtotal").JNum? &&
              Ok(Get(r.value.fields, "subtotal").n) == Total(cart, Amounts(numText)) &&
              Get(r.value.fields, "total_amount") == JNum(Add(Get(r.value.fields, "subtotal").n, ShippingCost)))
  {
    var subtotal :- Subtotal(cart, numText);
    Ok(OrderObject(address, OrderLinesOf(cart).value, subtotal))
  }

  /** `cart.map(...)` building the order's lines. */
  function OrderLinesOf(cart: seq<JsVal>): (r: Result<seq<JsVal>, string>)
    ensures r.Ok? <==> forall i :: 0 <= i < |cart| ==> UnitPrice(cart[i]).Ok?
    ensures r.Ok? ==> (|r.value| == |cart| && forall i :: 0 <= i < |cart| ==> Ok(r.value[i]) == OrderLine(cart[i]))
  {
    var items := MapAll(cart, OrderLines());
    assert forall i :: 0 <= i < |cart| ==> OrderLines()(cart[i]) == OrderLine(cart[i]);
    items
  }

  /** The order's lines follow the cart one for one, in order, each keeping
      the entry's id, name, quantity and image. */
  lemma PlaceOrderItems(cart: seq<JsVal>, address: Address, numText: NumText)
    requires PlaceOrder(cart, address, numText).Ok?
    ensures Get(PlaceOrder(cart, address, numText).value.fields, "items") == JArr(OrderLinesOf(cart).value)
  {
  }

  /** A recorded line stands for the amount its cart entry added. */
  lemma LineRecordsAmount(item: JsVal, line: JsVal, numText: NumText)
    requires Ok(line) == OrderLine(item)
    ensures LineAmount(item, numText) == RecordedAmount(line, numText)
  {
    assert Field(line, "price") == JNum(UnitPrice(item).value);
  }

  /** The recorded subtotal is the sum of the recorded lines' price times
      quantity. */
  lemma SubtotalMatchesLines(cart: seq<JsVal>, address: Address, numText: NumText)
    requires PlaceOrder(cart, address, numText).Ok?
    ensures var order := PlaceOrder(cart, address, numText).value;
            Ok(Get(order.fields, "subtotal").n) == Total(Get(order.fields, "items").items, RecordedAmounts(numText))
  {
    PlaceOrderItems(cart, address, numText);
    var lines := OrderLinesOf(cart).value;
    forall i | 0 <= i < |cart|
      ensures Amounts(numText)(cart[i]) == RecordedAmounts(numText)(lines[i])
    {
      LineRecordsAmount(cart[i], lines[i], numText);
      assert Amounts(numText)(cart[i]) == LineAmount(cart[i], numText);
      assert RecordedAmounts(numText)(lines[i]) == RecordedAmount(lines[i], numText);
    }
    TotalPointwise(cart, Amounts(numText), lines, RecordedAmounts(numText));
  }

  /** The total the summary shows is the total the order records, and the
      summary fails exactly when placing the order does. */
  lemma DisplayedTotalIsRecorded(cart: seq<JsVal>, address: Address, numText: NumText)
    ensures DisplayedTotal(cart, numText).Ok? <==> PlaceOrder(cart, address, numText).Ok?
    ensures PlaceOrder(cart, address, numText).Ok? ==>
              Get(PlaceOrder(cart, address, numText).value.fields, "total_amount") == JNum(DisplayedTotal(cart, numText).value)
  {
  }

  /** Handing the order to `addOrder` puts it in front of the seller's
      list as a pending order that keeps the total it was placed with. */
  lemma PlacedOrderIsPending(cart: seq<JsVal>, address: Address, numText: NumText,
                             orders: seq<JsVal>, now: nat, isoDate: string)
    requires PlaceOrder(cart, address, numText).Ok?
    ensures var order := PlaceOrder(cart, address, numText).value;
            var (created, next) := OrderContext.AddOrder(JArr(orders), order, now, isoDate);
            next == Ok(JArr([created] + orders)) &&
            Get(created.fields, "status") == JStr("pending") &&
            Get(created.fields, "total_amount") == Get(order.fields, "total_amount") &&
            Get(created.fields, "items") == Get(order.fields, "items")
  {
    var order := PlaceOrder(cart, address, numText).value;
    OrderContext.AddOrderKeeps(orders, order, now, isoDate, "total_amount");
    OrderContext.AddOrderKeeps(orders, order, now, isoDate, "items");
  }
}

=== FILE: database.dfy ===
/** The persisted state the controllers work on: the `users`, `products`,
    `orders` and `order_items` tables, the public upload disk, and the
    responses the controllers send back. */
module Database {
  import opened Wrappers
  import opened PhpValues
  import opened Validation
  import opened ProductModel
  import opened Seqs

  /** An `orders` row. The request values are kept as validated: the user id
      as the key it names, the other three as text. */
  datatype Order = Order(
    id: int,
    userId: int,
    customerName: string,
    customerEmail: string,
    shippingAddress: string,
    status: string,
    totalAmount: real,
    orderDate: int,
    createdAt: int)

  /** An `order_items` row. */
  datatype OrderItem = OrderItem(
    id: int,
    orderId: int,
    productId: int,
    quantity: int,
    price: real,
    createdAt: int)

  /** The tables, the auto-increment counters, and the public disk as the set
      of stored paths with a counter that names the next upload. */
  datatype Db = Db(
    users: set<int>,
    products: map<int, Product>,
    orders: seq<Order>,
    items: seq<OrderItem>,
    nextOrderId: int,
    nextItemId: int,
    nextProductId: int,
    disk: set<string>,
    uploads: nat)

  /** The order statuses the status update accepts. */
  const Statuses: set<string> := {"pending", "processing", "completed", "cancelled"}

  /** The `items` relation of an order. */
  function ItemsOf(items: seq<OrderItem>, orderId: int): (r: seq<OrderItem>)
    ensures forall x :: x in r <==> x in items && x.orderId == orderId
  {
    Filter(items, (x: OrderItem) => x.orderId == orderId)
  }

  /** The `orderItems` relation of a product (`hasMany`): every item row that
      names it, in table order. */
  function ProductItems(items: seq<OrderItem>, productId: int): (r: seq<OrderItem>)
    ensures forall x :: x in r <==> x in items && x.productId == productId
  {
    Filter(items, (x: OrderItem) => x.productId == productId)
  }

  lemma ItemsOfAppend(a: seq<OrderItem>, b: seq<OrderItem>, orderId: int)
    ensures ItemsOf(a + b, orderId) == ItemsOf(a, orderId) + ItemsOf(b, orderId)
  {
    FilterAppend(a, b, (x: OrderItem) => x.orderId == orderId);
  }

  lemma ProductItemsAppend(a: seq<OrderItem>, b: seq<OrderItem>, productId: int)
    ensures ProductItems(a + b, productId) == ProductItems(a, productId) + ProductItems(b, productId)
  {
    FilterAppend(a, b, (x: OrderItem) => x.productId == productId);
  }

  lemma ItemsOfNone(items: seq<OrderItem>, orderId: int)
    requires forall k :: 0 <= k < |items| ==> items[k].orderId != orderId
    ensures ItemsOf(items, orderId) == []
  {
    FilterNone(items, (x: OrderItem) => x.orderId == orderId);
  }

  lemma ItemsOfAll(items: seq<OrderItem>, orderId: int)
    requires forall k :: 0 <= k < |items| ==> items[k].orderId == orderId
    ensures ItemsOf(items, orderId) == items
  {
    FilterAll(items, (x: OrderItem) => x.orderId == orderId);
  }

  /** What an item row contributes to its order's total. */
  function LineTotal(x: OrderItem): real {
    x.price * x.quantity as real
  }

  /** The sum of price times quantity over item rows. */
  function LineSum(items: seq<OrderItem>): real
    decreases |items|
  {
    if |items| == 0 then 0.0 else LineTotal(items[0]) + LineSum(items[1..])
  }

  lemma {:induction false} LineSumAppend(a: seq<OrderItem>, b: seq<OrderItem>)
    ensures LineSum(a + b) == LineSum(a) + LineSum(b)
    decreases |a|
  {
    if |a| > 0 {
      assert (a + b)[1..] == a[1..] + b;
      LineSumAppend(a[1..], b);
    } else {
      assert a + b == b;
    }
  }

  /** The running total of the order-placing loop, which adds each item's
      price times its quantity in turn. */
  function Accumulate(total: real, items: seq<OrderItem>): real
    decreases |items|
  {
    if |items| == 0 then total
    else Accumulate(total + items[0].price * items[0].quantity as real, items[1..])
  }

  /** The loop's total is the sum of price times quantity over the rows. */
  lemma {:induction false} AccumulateIsLineSum(total: real, items: seq<OrderItem>)
    ensures Accumulate(total, items) == total + LineSum(items)
    decreases |items|
  {
    if |items| > 0 {
      AccumulateIsLineSum(total + LineTotal(items[0]), items[1..]);
    }
  }

  function OrderIds(orders: seq<Order>): set<int> {
    set o | o in orders :: o.id
  }

  /** Each product is stored under its own id, below the next product id. */
  ghost predicate ProductsKeyed(db: Db) {
    forall id :: id in db.products ==> db.products[id].id == id && id < db.nextProductId
  }

  /** Every stored product can be answered with: its decimal attributes
      survive the `decimal:2` cast. */
  ghost predicate ProductsCast(db: Db) {
    forall id :: id in db.products ==> DecimalsCast(db.products[id].attrs)
  }

  /** Order ids increase in table order and stay below the next order id. */
  ghost predicate OrderIdsOk(db: Db) {
    (forall i :: 0 <= i < |db.orders| ==> db.orders[i].id < db.nextOrderId) &&
    (forall i, j :: 0 <= i < j < |db.orders| ==> db.orders[i].id < db.orders[j].id)
  }

  /** Item ids increase in table order and stay below the next item id. */
  ghost predicate ItemIdsOk(db: Db) {
    (forall k :: 0 <= k < |db.items| ==> db.items[k].id < db.nextItemId) &&
    (forall k, l :: 0 <= k < l < |db.items| ==> db.items[k].id < db.items[l].id)
  }

  /** Every item row belongs to an existing order. */
  ghost predicate ItemsBelong(db: Db) {
    forall k :: 0 <= k < |db.items| ==> db.items[k].orderId in OrderIds(db.orders)
  }

  /** An order's total is the sum of price times quantity over its items. */
  ghost predicate TotalsMatch(db: Db) {
    forall i :: 0 <= i < |db.orders| ==>
      db.orders[i].totalAmount == LineSum(ItemsOf(db.items, db.orders[i].id))
  }

  /** The invariant every controller action keeps. */
  ghost predicate Valid(db: Db) {
    ProductsKeyed(db) && ProductsCast(db) && OrderIdsOk(db) && ItemIdsOk(db) && ItemsBelong(db) && TotalsMatch(db)
  }

  /** Price times quantity summed over rows is never negative when no row
      has a negative price or quantity. */
  lemma {:induction false} LineSumNonNegative(items: seq<OrderItem>)
    requires forall k :: 0 <= k < |items| ==> items[k].price >= 0.0 && items[k].quantity >= 0
    ensures LineSum(items) >= 0.0
    decreases |items|
  {
    if |items| > 0 {
      var x := items[0];
      assert LineTotal(x) >= 0.0 by {
        assert x.price >= 0.0 && x.quantity as real >= 0.0;
      }
      assert forall k :: 1 <= k < |items| ==> items[1..][k - 1] == items[k];
      LineSumNonNegative(items[1..]);
    }
  }

  /** The key `Model::find($id)` looks up for a route segment: the same
      reading as the `exists` rule's. */
  function RouteKey(segment: string): Option<int> {
    IdOf(VStr(segment))
  }

  /** The position of an order with the key, if any. */
  function FindOrder(orders: seq<Order>, id: int): (r: Option<nat>)
    ensures r.Some? ==> r.value < |orders| && orders[r.value].id == id
    ensures r.None? ==> forall i :: 0 <= i < |orders| ==> orders[i].id != id
    decreases |orders|
  {
    if |orders| == 0 then None
    else if orders[|orders| - 1].id == id then Some(|orders| - 1)
    else FindOrder(orders[..|orders| - 1], id)
  }

  datatype Body =
    | Message(text: string)
    /** The framework's answer when route-model binding finds no row. */
    | NoSuchModel
    /** A failed validation: the failing attribute names. */
    | Invalid(fields: seq<string>)
    /** "Failed to create order", with the failing attribute names when the
        cause was a failed validation. */
    | CreateFailed(fields: seq<string>)
    | OrderCreated(order: Order, items: seq<OrderItem>)
    | OrderBody(order: Order, items: seq<OrderItem>)
    | OrderList(entries: seq<(Order, seq<OrderItem>)>)
    | ProductBody(product: Product)
    /** An uncaught PHP error, answered by the framework. */
    | ServerError

  datatype Response = Response(status: int, body: Body)
}

=== FILE: js_values.dfy ===
/** JavaScript values as the client code handles them, with the language
    conversions it relies on: truthiness, `String(v)`, `Number(v)`, strict
    equality, property reads and object spread. */
module JsValues {
  import opened Wrappers
  import opened Strings
  import opened NumberText

  /** A `FormData` entry value: text, or a file kept as it is. */
  datatype FormValue = FText(s: string) | FBlob(name: string)

  /** A JS value. Objects are their own enumerable properties in order;
      a `File` is known by its name. */
  datatype JsVal =
    | Undefined
    | Null
    | JBool(b: bool)
    | JNum(n: Num)
    | JStr(s: string)
    | JArr(items: seq<JsVal>)
    | JObj(fields: seq<(string, JsVal)>)
    | JFile(name: string)
    | JFormData(entries: seq<(string, FormValue)>)

  /** `Number.prototype.toString` on a finite number, which the model does
      not spell out. */
  type NumText = real -> string

  /** The error a `TypeError` carries in the model. */
  const TypeError: string := "TypeError"

  /** JS ToBoolean. */
  predicate Truthy(v: JsVal) {
    match v
    case Undefined => false
    case Null => false
    case JBool(b) => b
    case JNum(n) => NumTruthy(n)
    case JStr(s) => s != ""
    case _ => true
  }

  predicate Nullish(v: JsVal) {
    v.Undefined? || v.Null?
  }

  /** `String(v)`. An array joins its elements with `,`, writing `null` and
      `undefined` elements as empty text. */
  function Text(v: JsVal, numText: NumText): (s: string)
    ensures v.JStr? ==> s == v.s
    ensures v.JObj? ==> s == "[object Object]"
    decreases v
  {
    match v
    case Undefined => "undefined"
    case Null => "null"
    case JBool(b) => if b then "true" else "false"
    case JNum(n) => if n.NaN? then "NaN" else numText(n.v)
    case JStr(s) => s
    case JArr(items) =>
      Join(seq(|items|, i requires 0 <= i < |items| =>
             if Nullish(items[i]) then "" else Text(items[i], numText)), ",")
    case JObj(_) => "[object Object]"
    case JFile(_) => "[object File]"
    case JFormData(_) => "[object FormData]"
  }

  /** `items.join(sep)`: every element through `String`, except that `null`
      and `undefined` are written as empty text. */
  function JoinItems(items: seq<JsVal>, sep: string, numText: NumText): string {
    Join(seq(|items|, i requires 0 <= i < |items| =>
           if Nullish(items[i]) then "" else Text(items[i], numText)), sep)
  }

  /** The array of the given strings. */
  function Strs(xs: seq<string>): (r: seq<JsVal>)
    ensures |r| == |xs|
    ensures forall i :: 0 <= i < |xs| ==> r[i] == JStr(xs[i])
  {
    seq(|xs|, i requires 0 <= i < |xs| => JStr(xs[i]))
  }

  /** Joining an array of strings joins the strings themselves. */
  lemma JoinStrs(xs: seq<string>, sep: string, numText: NumText)
    ensures JoinItems(Strs(xs), sep, numText) == Join(xs, sep)
  {
    var items := Strs(xs);
    var texts := seq(|items|, i requires 0 <= i < |items| =>
                   if Nullish(items[i]) then "" else Text(items[i], numText));
    assert texts == xs;
  }

  /** JS ToNumber, as `*` applies it to its operands: an object goes through
      its text. */
  function ToNumber(v: JsVal, numText: NumText): (n: Num)
    ensures v.JNum? ==> n == v.n
    ensures v.Null? ==> n == Fin(0.0)
    ensures v.Undefined? ==> n == NaN
  {
    match v
    case Undefined => NaN
    case Null => Fin(0.0)
    case JBool(b) => Fin(if b then 1.0 else 0.0)
    case JNum(n) => n
    case JStr(s) => StringToNumber(s)
    case _ => StringToNumber(Text(v, numText))
  }

  /** `a === b`. NaN equals nothing; two object values are taken to be
      different objects. */
  predicate StrictEquals(a: JsVal, b: JsVal) {
    match (a, b)
    case (Undefined, Undefined) => true
    case (Null, Null) => true
    case (JBool(x), JBool(y)) => x == y
    case (JNum(x), JNum(y)) => x.Fin? && y.Fin? && x.v == y.v
    case (JStr(x), JStr(y)) => x == y
    case _ => false
  }

  /** The value of the first property named `key`, else `undefined`. */
  function Get(fields: seq<(string, JsVal)>, key: string): (v: JsVal)
    ensures v != Undefined ==> exists k :: 0 <= k < |fields| && fields[k] == (key, v)
    decreases |fields|
  {
    if |fields| == 0 then Undefined
    else if fields[0].0 == key then fields[0].1
    else
      var v := Get(fields[1..], key);
      assert forall k :: 1 <= k < |fields| ==> fields[k] == fields[1..][k - 1];
      v
  }

  /** In an object literal, a property's value is the one written for it
      when no earlier property has its name. */
  lemma {:induction false} GetAt(fields: seq<(string, JsVal)>, k: nat)
    requires k < |fields|
    requires forall j :: 0 <= j < k ==> fields[j].0 != fields[k].0
    ensures Get(fields, fields[k].0) == fields[k].1
    decreases k
  {
    if k > 0 {
      assert fields[1..][k - 1] == fields[k];
      assert forall j :: 0 <= j < k - 1 ==> fields[1..][j] == fields[j + 1];
      GetAt(fields[1..], k - 1);
    }
  }

  /** Property names with no repeats. */
  predicate DistinctNames(names: seq<string>) {
    forall i, j :: 0 <= i < j < |names| ==> names[i] != names[j]
  }

  /** The object literal `{names[0]: values[0], names[1]: values[1], ...}`. */
  function ObjectLiteral(names: seq<string>, values: seq<JsVal>): (r: JsVal)
    requires |names| == |values|
    ensures r.JObj? && |r.fields| == |names|
    ensures DistinctNames(names) ==> forall k :: 0 <= k < |names| ==> Get(r.fields, names[k]) == values[k]
  {
    var fields := seq(|names|, i requires 0 <= i < |names| => (names[i], values[i]));
    if DistinctNames(names) then
      assert forall k :: 0 <= k < |names| ==> Get(fields, names[k]) == values[k] by {
        forall k | 0 <= k < |names|
          ensures Get(fields, names[k]) == values[k]
        {
          assert fields[k] == (names[k], values[k]);
          assert forall j :: 0 <= j < k ==> fields[j].0 == names[j];
          GetAt(fields, k);
        }
      }
      JObj(fields)
    else JObj(fields)
  }

  predicate HasKey(fields: seq<(string, JsVal)>, key: string) {
    exists k :: 0 <= k < |fields| && fields[k].0 == key
  }

  /** `{...o, key: v}` on the properties of `o`: an existing property keeps
      its place and takes the new value, a new one goes last. */
  function Put(fields: seq<(string, JsVal)>, key: string, v: JsVal): (r: seq<(string, JsVal)>)
    ensures Get(r, key) == v && HasKey(r, key)
    ensures forall other :: other != key ==> Get(r, other) == Get(fields, other)
    ensures forall other :: HasKey(r, other) <==> other == key || HasKey(fields, other)
    ensures |r| == if HasKey(fields, key) then |fields| else |fields| + 1
    decreases |fields|
  {
    if |fields| == 0 then [(key, v)]
    else
      assert forall other :: HasKey(fields, other) <==> fields[0].0 == other || HasKey(fields[1..], other) by {
        assert forall k :: 1 <= k < |fields| ==> fields[k] == fields[1..][k - 1];
      }
      if fields[0].0 == key then
        var r := [(key, v)] + fields[1..];
        assert forall k :: 0 <= k < |r| ==> r[k].0 == fields[k].0;
        assert forall other :: HasKey(r, other) <==> HasKey(fields, other);
        r
      else
        [fields[0]] + Put(fields[1..], key, v)
  }

  /** Writing the value a property already holds changes nothing. */
  lemma {:induction false} PutUnchanged(fields: seq<(string, JsVal)>, key: string)
    requires HasKey(fields, key)
    ensures Put(fields, key, Get(fields, key)) == fields
    decreases |fields|
  {
    if fields[0].0 != key {
      assert HasKey(fields[1..], key) by {
        var k :| 0 <= k < |fields| && fields[k].0 == key;
        assert fields[1..][k - 1].0 == key;
      }
      PutUnchanged(fields[1..], key);
    }
  }

  /** Writing the same value twice is writing it once. */
  lemma PutTwice(fields: seq<(string, JsVal)>, key: string, v: JsVal)
    ensures Put(Put(fields, key, v), key, v) == Put(fields, key, v)
  {
    PutUnchanged(Put(fields, key, v), key);
  }

  /** The own enumerable properties `{...v}` copies: an array's and a
      string's are their indices; other primitives and files have none. */
  function Spread(v: JsVal): (fields: seq<(string, JsVal)>)
    ensures v.JObj? ==> fields == v.fields
  {
    match v
    case JObj(fs) => fs
    case JArr(items) => seq(|items|, i requires 0 <= i < |items| => (NatToString(i), items[i]))
    case JStr(s) => seq(|s|, i requires 0 <= i < |s| => (NatToString(i), JStr([s[i]])))
    case _ => []
  }

  /** `v.key` on a value that is not `null` or `undefined`. */
  function Field(v: JsVal, key: string): (r: JsVal)
    ensures v.JObj? ==> r == Get(v.fields, key)
  {
    Get(Spread(v), key)
  }

  /** `v || fallback`. */
  function Or(v: JsVal, fallback: JsVal): (r: JsVal)
    ensures Truthy(v) ==> r == v
    ensures !Truthy(v) ==> r == fallback
  {
    if Truthy(v) then v else fallback
  }

  /** `v.key`: a `TypeError` on `null` and `undefined`. */
  function Property(v: JsVal, key: string): (r: Result<JsVal, string>)
    ensures r.Err? <==> Nullish(v)
    ensures v.JObj? ==> r == Ok(Get(v.fields, key))
  {
    if Nullish(v) then Err(TypeError) else Ok(Get(Spread(v), key))
  }

  /** `items.map(f)` for an `f` that may throw: the first error ends it. */
  function MapAll(items: seq<JsVal>, f: JsVal -> Result<JsVal, string>): (r: Result<seq<JsVal>, string>)
    ensures r.Ok? <==> forall i :: 0 <= i < |items| ==> f(items[i]).Ok?
    ensures r.Ok? ==> (|r.value| == |items| &&
              forall i :: 0 <= i < |items| ==> Ok(r.value[i]) == f(items[i]))
    ensures r.Err? ==> exists i :: 0 <= i < |items| && f(items[i]) == Err(r.error)
    decreases |items|
  {
    if |items| == 0 then Ok([])
    else
      var head := f(items[0]);
      var rest := MapAll(items[1..], f);
      assert forall i :: 1 <= i < |items| ==> items[i] == items[1..][i - 1];
      if head.Err? then Err(head.error)
      else if rest.Err? then Err(rest.error)
      else Ok([head.value] + rest.value)
  }

  /** Values `f` maps to themselves pass through the map unchanged. */
  lemma MapAllFixed(items: seq<JsVal>, f: JsVal -> Result<JsVal, string>)
    requires forall i :: 0 <= i < |items| ==> f(items[i]) == Ok(items[i])
    ensures MapAll(items, f) == Ok(items)
  {
    var r := MapAll(items, f);
    assert r.value == items;
  }

  /** What `[...v]` iterates over: an array's elements, a string's
      characters; other values are not iterable. */
  function Iterate(v: JsVal): (r: Option<seq<JsVal>>)
    ensures v.JArr? ==> r == Some(v.items)
    ensures r.None? <==> !v.JArr? && !v.JStr?
  {
    match v
    case JArr(items) => Some(items)
    case JStr(s) => Some(seq(|s|, i requires 0 <= i < |s| => JStr([s[i]])))
    case _ => None
  }
}

=== FILE: number_text.dfy ===
/** JS numbers and the text-to-number conversions the client relies on:
    `parseFloat` (longest numeric prefix, else NaN), `Number(string)` (the
    whole trimmed text, else NaN) and `parseInt`; plus the fixed two-digit
    decimal text the backend produces for money columns. */
module NumberText {
  import opened Wrappers
  import opened Strings

  /** A JS number. Values are exact reals: IEEE-754 rounding, infinities and
      negative zero are not modelled. */
  datatype Num = NaN | Fin(v: real)

  /** JS `+` on numbers: NaN is absorbing. */
  function Add(a: Num, b: Num): (r: Num)
    ensures r.Fin? <==> a.Fin? && b.Fin?
    ensures r.Fin? ==> r.v == a.v + b.v
  {
    if a.Fin? && b.Fin? then Fin(a.v + b.v) else NaN
  }

  /** JS `*` on numbers: NaN is absorbing. */
  function Mul(a: Num, b: Num): (r: Num)
    ensures r.Fin? <==> a.Fin? && b.Fin?
    ensures r.Fin? ==> r.v == a.v * b.v
  {
    if a.Fin? && b.Fin? then Fin(a.v * b.v) else NaN
  }

  /** The product of two finite numbers is their real product. */
  lemma MulFin(a: real, b: real)
    ensures Mul(Fin(a), Fin(b)) == Fin(a * b)
  {
  }

  /** Multiplying by one leaves a number as it is. */
  lemma MulOne(a: real)
    ensures Mul(Fin(a), Fin(1.0)) == Fin(a)
  {
  }

  /** JS ToBoolean on a number: NaN and zero are falsy. */
  predicate NumTruthy(n: Num) {
    n.Fin? && n.v != 0.0
  }

  /** `m * 10^e`, one power of ten at a time. */
  function Scale10(m: real, e: int): real
    decreases if e < 0 then -e else e
  {
    if e == 0 then m
    else if e > 0 then Scale10(m * 10.0, e - 1)
    else Scale10(m / 10.0, e + 1)
  }

  /** Length of the run of decimal digits at the start of `s`. */
  function DigitRun(s: string): (n: nat)
    ensures n <= |s| && AllDigits(s[..n])
    ensures n < |s| ==> !IsDigit(s[n])
    decreases |s|
  {
    if |s| > 0 && IsDigit(s[0]) then
      var n := DigitRun(s[1..]);
      assert s[..n + 1] == [s[0]] + s[1..][..n];
      n + 1
    else 0
  }

  /** An optional leading `+` or `-`: whether it was `-`, and what follows. */
  function SplitSign(t: string): (r: (bool, string))
    ensures r.1 == t || (|t| > 0 && (t[0] == '+' || t[0] == '-') && r.1 == t[1..])
    ensures r.0 <==> |t| > 0 && t[0] == '-'
  {
    if |t| > 0 && t[0] == '-' then (true, t[1..])
    else if |t| > 0 && t[0] == '+' then (false, t[1..])
    else (false, t)
  }

  /** A numeric literal read from the start of a text: the digits before
      and after its point, the exponent that follows them, and how many
      characters it took. */
  datatype Literal = Literal(whole: string, frac: string, exp: int, length: nat)
  {
    predicate WellFormed() {
      AllDigits(whole) && AllDigits(frac)
    }

    /** `whole.frac * 10^exp`. */
    function Value(): real
      requires WellFormed()
    {
      assert AllDigits(whole + frac);
      Scale10(DigitsValue(whole + frac) as real, exp - |frac|)
    }
  }

  /** An exponent part `e`/`E`, optional sign, at least one digit: the signed
      exponent and its length. */
  function ScanExponent(t: string): (r: Option<(int, nat)>)
    ensures r.Some? ==> 2 <= r.value.1 <= |t|
    ensures |t| == 0 ==> r.None?
  {
    if |t| >= 2 && (t[0] == 'e' || t[0] == 'E') then
      var (neg, w) := SplitSign(t[1..]);
      var n := DigitRun(w);
      if n == 0 then None
      else
        var mag: int := DigitsValue(w[..n]);
        Some((if neg then 0 - mag else mag, |t| - |w| + n))
    else None
  }

  /** The literal `whole.frac` that ends at `end`, extended by an exponent
      part when one follows. */
  function WithExponent(whole: string, frac: string, u: string, end: nat): (r: Literal)
    requires end <= |u|
    ensures end <= r.length <= |u| && r.whole == whole && r.frac == frac
  {
    match ScanExponent(u[end..])
    case None => Literal(whole, frac, 0, end)
    case Some(e) => Literal(whole, frac, e.0, end + e.1)
  }

  /** The longest prefix of `u` that is an unsigned decimal literal
      (`digits [. digits] [exponent]` or `. digits [exponent]`). */
  function ScanUnsigned(u: string): (r: Option<Literal>)
    ensures r.Some? ==> 0 < r.value.length <= |u| && r.value.WellFormed()
    ensures r.Some? ==> IsDigit(u[0]) || u[0] == '.'
    ensures (|u| > 0 && IsDigit(u[0])) ==> r.Some?
  {
    var i := DigitRun(u);
    var point := i < |u| && u[i] == '.';
    var f := if point then DigitRun(u[i + 1..]) else 0;
    if i == 0 && f == 0 then None
    else
      assert point ==> u[i + 1..i + 1 + f] == u[i + 1..][..f];
      var frac := if point then u[i + 1..i + 1 + f] else "";
      Some(WithExponent(u[..i], frac, u, if point then i + 1 + f else i))
  }

  /** JS `parseFloat(s)`: skips leading white space, then reads the longest
      signed decimal literal; NaN when there is none. The `Infinity` literal
      is not modelled. */
  function ParseFloat(s: string): (r: Num)
    ensures var t := TrimStart(s, JsBlanks);
            r.Fin? ==> |t| > 0 && (IsDigit(t[0]) || t[0] == '.' || t[0] == '+' || t[0] == '-')
  {
    ReadSigned(TrimStart(s, JsBlanks))
  }

  /** The signed literal at the very start of `t`, or NaN. */
  function ReadSigned(t: string): (r: Num)
    ensures r.Fin? ==> |t| > 0 && (IsDigit(t[0]) || t[0] == '.' || t[0] == '+' || t[0] == '-')
  {
    var (neg, u) := SplitSign(t);
    match ScanUnsigned(u)
    case None => NaN
    case Some(lit) => Fin(if neg then -lit.Value() else lit.Value())
  }

  /** JS `Number(s)` on a string: blank text is 0, otherwise the whole trimmed
      text must be one signed decimal literal. Hex, binary, octal and
      `Infinity` forms are not modelled. */
  function StringToNumber(s: string): (r: Num)
    ensures |Trim(s, JsBlanks)| == 0 ==> r == Fin(0.0)
  {
    var t := Trim(s, JsBlanks);
    if |t| == 0 then Fin(0.0)
    else
      var (neg, u) := SplitSign(t);
      match ScanUnsigned(u)
      case Some(lit) =>
        if lit.length == |u| then Fin(if neg then -lit.Value() else lit.Value()) else NaN
      case None => NaN
  }

  /** JS `parseInt(s)` in base 10: leading white space, optional sign, then at
      least one digit. The `0x` prefix is not modelled. */
  function ParseInt(s: string): (r: Num)
    ensures r.Fin? ==> |TrimStart(s, JsBlanks)| > 0
  {
    var t := TrimStart(s, JsBlanks);
    var (neg, u) := SplitSign(t);
    var n := DigitRun(u);
    if n == 0 then NaN
    else
      var mag := DigitsValue(u[..n]);
      Fin(if neg then -(mag as real) else mag as real)
  }

  // ---------------------------------------------------------------------
  // Money text
  // ---------------------------------------------------------------------

  /** The text of an amount of cents with exactly two fraction digits, as a
      `decimal:2` column is rendered: `-12.05`, `0.50`, `1299.00`. */
  function MoneyText(cents: int): (s: string)
    ensures |s| >= 4
    ensures s[|s| - 3] == '.'
  {
    Signed(cents < 0, UnsignedMoneyText(Abs(cents)))
  }

  function Abs(n: int): (a: nat)
    ensures a == n || a == -n
  {
    if n < 0 then -n else n
  }

  /** A text preceded by `-` when `neg` holds. */
  function Signed(neg: bool, u: string): (s: string)
    ensures |s| == |u| + (if neg then 1 else 0)
  {
    (if neg then "-" else "") + u
  }

  /** `MoneyText` of a non-negative amount: whole units, a point, two digits. */
  function UnsignedMoneyText(a: nat): (s: string)
    ensures |s| >= 4 && IsDigit(s[0])
    ensures s[|s| - 3] == '.'
  {
    NatToString(a / 100) + "." + [DigitChar(a % 100 / 10), DigitChar(a % 10)]
  }

  // ---------------------------------------------------------------------
  // Round trips
  // ---------------------------------------------------------------------

  /** A run of digits stops where a non-digit starts. */
  lemma DigitRunOfDigits(d: string, rest: string)
    requires AllDigits(d)
    requires |rest| == 0 || !IsDigit(rest[0])
    ensures DigitRun(d + rest) == |d|
    decreases |d|
  {
    if |d| > 0 {
      assert (d + rest)[1..] == d[1..] + rest;
      DigitRunOfDigits(d[1..], rest);
    } else {
      assert d + rest == rest;
    }
  }

  /** Text that starts with a digit is not changed by skipping white space. */
  lemma TrimStartAtDigit(s: string)
    requires |s| > 0 && IsDigit(s[0])
    ensures TrimStart(s, JsBlanks) == s
  {
  }

  /** A run of digits alone scans as the number it spells. */
  lemma ScanDigits(d: string)
    requires |d| > 0 && AllDigits(d)
    ensures ScanUnsigned(d) == Some(Literal(d, "", 0, |d|))
    ensures ScanUnsigned(d).value.Value() == DigitsValue(d) as real
  {
    assert d + "" == d;
    assert DigitRun(d) == |d| by {
      DigitRunOfDigits(d, "");
      assert d + "" == d;
    }
    assert d[..|d|] + "" == d && d[|d|..] == "";
    assert ScanExponent("").None?;
  }

  /** `parseFloat(String(n)) === n` for a natural number `n`. */
  lemma ParseFloatNatText(n: nat)
    ensures ParseFloat(NatToString(n)) == Fin(n as real)
  {
    var s := NatToString(n);
    TrimStartAtDigit(s);
    assert ParseFloat(s) == ReadSigned(s);
    assert SplitSign(s) == (false, s);
    ScanDigits(s);
    NatToStringRoundTrip(n);
  }

  /** `parseInt` reads the digits of `n` and stops at the first non-digit:
      `parseInt("123)") === 123`. */
  lemma ParseIntNatText(n: nat, rest: string)
    requires |rest| == 0 || !IsDigit(rest[0])
    ensures ParseInt(NatToString(n) + rest) == Fin(n as real)
  {
    var d := NatToString(n);
    var s := d + rest;
    assert s[0] == d[0];
    TrimStartAtDigit(s);
    DigitRunOfDigits(d, rest);
    assert s[..|d|] == d;
    NatToStringRoundTrip(n);
  }

  /** A run of digits ends at the first non-digit. */
  lemma {:induction false} DigitRunStops(s: string, n: nat)
    requires n <= |s| && AllDigits(s[..n])
    requires n == |s| || !IsDigit(s[n])
    ensures DigitRun(s) == n
    decreases n
  {
    if n > 0 {
      assert IsDigit(s[..n][0]);
      assert s[1..][..n - 1] == s[..n][1..];
      DigitRunStops(s[1..], n - 1);
    }
  }

  /** A literal `whole.frac` with nothing after it is read in full. */
  lemma ScanPoint(u: string, i: nat)
    requires 0 < i < |u| && u[i] == '.'
    requires AllDigits(u[..i]) && AllDigits(u[i + 1..])
    ensures ScanUnsigned(u) == Some(Literal(u[..i], u[i + 1..], 0, |u|))
  {
    DigitRunStops(u, i);
    var rest := u[i + 1..];
    DigitRunStops(rest, |rest|);
    assert u[i + 1..i + 1 + |rest|] == rest;
    assert u[|u|..] == "";
  }

  /** Appending two digit characters appends them to the number spelled. */
  lemma DigitsAppendTwo(w: string, x: nat, y: nat)
    requires AllDigits(w) && x < 10 && y < 10
    ensures AllDigits(w + [DigitChar(x), DigitChar(y)])
    ensures DigitsValue(w + [DigitChar(x), DigitChar(y)]) == DigitsValue(w) * 100 + 10 * x + y
  {
    var one := w + [DigitChar(x)];
    var two := one + [DigitChar(y)];
    assert two == w + [DigitChar(x), DigitChar(y)];
    DigitCharValue(x);
    DigitCharValue(y);
    assert one[..|one| - 1] == w && one[|one| - 1] == DigitChar(x);
    assert two[..|two| - 1] == one && two[|two| - 1] == DigitChar(y);
    assert DigitsValue(one) == DigitsValue(w) * 10 + x;
    assert DigitsValue(two) == DigitsValue(one) * 10 + y;
  }

  /** The unsigned money text scans in full as `a` hundredths. */
  lemma ScanUnsignedMoney(a: nat)
    ensures var lit := ScanUnsigned(UnsignedMoneyText(a));
            lit.Some? && lit.value.length == |UnsignedMoneyText(a)| &&
            lit.value.Value() == a as real / 100.0
  {
    var m, r := a / 100, a % 100;
    var whole := NatToString(m);
    var x, y := r / 10, a % 10;
    assert r == 10 * x + y by {
      CentsDigits(a);
    }
    assert a == m * 100 + r;
    var frac := [DigitChar(x), DigitChar(y)];
    assert UnsignedMoneyText(a) == whole + "." + frac;
    assert AllDigits(whole + frac) && DigitsValue(whole + frac) == a by {
      NatToStringRoundTrip(m);
      DigitsAppendTwo(whole, x, y);
    }
    var u := UnsignedMoneyText(a);
    var i := |whole|;
    assert u[..i] == whole && u[i] == '.' && u[i + 1..] == frac;
    ScanPoint(u, i);
    HundredthsValue(Literal(whole, frac, 0, |u|), a);
  }

  /** Two digits after the point and no exponent: `a` hundredths. */
  lemma HundredthsValue(lit: Literal, a: nat)
    requires lit.WellFormed() && |lit.frac| == 2 && lit.exp == 0
    requires AllDigits(lit.whole + lit.frac) && DigitsValue(lit.whole + lit.frac) == a
    ensures lit.Value() == a as real / 100.0
  {
    var x := a as real;
    assert lit.Value() == Scale10(x, -2);
    assert Scale10(x, -2) == Scale10(x / 10.0, -1);
    assert Scale10(x / 10.0, -1) == Scale10(x / 10.0 / 10.0, 0);
  }

  /** A sign in front of a digit survives the white-space skip. */
  lemma TrimStartSigned(neg: bool, u: string)
    requires |u| > 0 && IsDigit(u[0])
    ensures TrimStart(Signed(neg, u), JsBlanks) == Signed(neg, u)
  {
    var s := Signed(neg, u);
    assert s[0] == '-' || s[0] == u[0];
  }

  /** A signed run that starts and ends with a digit has nothing to trim. */
  lemma TrimSignedDigits(neg: bool, u: string, b: Blanks)
    requires |u| > 0 && IsDigit(u[0]) && IsDigit(u[|u| - 1])
    ensures Trim(Signed(neg, u), b) == Signed(neg, u)
  {
    var s := Signed(neg, u);
    assert s[0] == '-' || s[0] == u[0];
    assert s[|s| - 1] == u[|u| - 1];
    TrimOfTrimmed(s, b);
  }

  /** The sign `Signed` puts in front is the sign `SplitSign` takes off. */
  lemma SplitSigned(neg: bool, u: string)
    requires |u| == 0 || (u[0] != '-' && u[0] != '+')
    ensures SplitSign(Signed(neg, u)) == (neg, u)
  {
    if neg {
      assert Signed(neg, u)[1..] == u;
    } else {
      assert Signed(neg, u) == u;
    }
  }

  /** `parseFloat` of a sign followed by text that starts with a digit reads
      the unsigned literal there and applies the sign. */
  lemma ParseFloatSigned(neg: bool, u: string)
    requires |u| > 0 && IsDigit(u[0])
    ensures ParseFloat(Signed(neg, u))
            == Fin(if neg then -ScanUnsigned(u).value.Value() else ScanUnsigned(u).value.Value())
  {
    var s := Signed(neg, u);
    TrimStartSigned(neg, u);
    SplitSigned(neg, u);
    assert ParseFloat(s) == ReadSigned(s);
  }

  /** The same, for a literal whose value is known. */
  lemma ParseFloatSignedValue(neg: bool, u: string, v: real)
    requires |u| > 0 && IsDigit(u[0])
    requires ScanUnsigned(u).Some? && ScanUnsigned(u).value.Value() == v
    ensures ParseFloat(Signed(neg, u)) == Fin(if neg then -v else v)
  {
    ParseFloatSigned(neg, u);
  }

  /** `parseFloat` reads a signed money text of `a` hundredths. */
  lemma ParseFloatUnsignedMoney(neg: bool, a: nat)
    ensures ParseFloat(Signed(neg, UnsignedMoneyText(a)))
            == Fin(if neg then -(a as real / 100.0) else a as real / 100.0)
  {
    ScanUnsignedMoney(a);
    ParseFloatSignedValue(neg, UnsignedMoneyText(a), a as real / 100.0);
  }

  /** The frontend reads back a two-decimal money text as the amount it
      denotes: `parseFloat("12.05") === 12.05`. */
  lemma ParseFloatMoneyText(cents: int)
    ensures ParseFloat(MoneyText(cents)) == Fin(cents as real / 100.0)
  {
    var a := Abs(cents);
    ParseFloatUnsignedMoney(cents < 0, a);
    SignedCents(cents, a);
  }

  /** Applying the sign to `|cents| / 100` gives `cents / 100`. */
  lemma SignedCents(cents: int, a: nat)
    requires a == Abs(cents)
    ensures (if cents < 0 then -(a as real / 100.0) else a as real / 100.0) == cents as real / 100.0
  {
  }

  /** The two cent digits spell `a % 100`. */
  lemma CentsDigits(a: nat)
    ensures 10 * (a % 100 / 10) + a % 10 == a % 100
  {
    var q, r := a / 100, a % 100;
    var t, u := r / 10, r % 10;
    assert r == 10 * t + u;
    assert a == 10 * (10 * q + t) + u;
    ModTen(a, 10 * q + t, u);
  }

  /** The remainder by ten is the last digit of any decomposition. */
  lemma ModTen(a: int, k: int, u: int)
    requires a == 10 * k + u && 0 <= u < 10
    ensures a % 10 == u
  {
  }

  /** `DigitValue` undoes `DigitChar`. */
  lemma DigitCharValue(d: nat)
    requires d < 10
    ensures DigitValue(DigitChar(d)) == d
  {
  }
}

=== FILE: order_context.dfy ===
/** The seller's order list the client keeps in browser storage under
    `seller_orders`: loaded once, saved after every change, reloaded on
    demand, prepended to by `addOrder` and rewritten by `updateOrderStatus`.
    Storage, `JSON.parse` and `JSON.stringify` are parameters. */
module OrderContext {
  import opened Wrappers
  import opened NumberText
  import opened JsValues

  const StorageKey: string := "seller_orders"

  /** What reading the storage key gives: storage may be unavailable (the
      read throws), the key may be absent, or it holds text. */
  datatype Stored = Unavailable | Missing | Saved(text: string)

  /** `JSON.parse`: `None` when it throws. */
  type Parse = string -> Option<JsVal>

  /** `JSON.stringify` on the values the list holds. */
  type Stringify = JsVal -> string

  /** The text a storage read returns, `null` being `None`. */
  function StoredText(stored: Stored): (t: Option<string>)
    requires !stored.Unavailable?
    ensures t.Some? <==> stored.Saved?
  {
    if stored.Saved? then Some(stored.text) else None
  }

  /** Parses text, falling back to `default` when there is no text, it is
      empty, or it does not parse. */
  function SafeJsonParse(text: Option<string>, default: JsVal, parse: Parse): (r: JsVal)
    ensures (text.None? || text.value == "") ==> r == default
    ensures text.Some? && text.value != "" && parse(text.value).Some? ==> r == parse(text.value).value
    ensures text.Some? && text.value != "" && parse(text.value).None? ==> r == default
  {
    if text.None? || text.value == "" then default
    else
      match parse(text.value)
      case Some(v) => v
      case None => default
  }

  /** The list the provider starts with: the stored list, or `[]` when
      storage is unavailable, the key is absent, or its text does not parse. */
  function InitialOrders(stored: Stored, parse: Parse): (r: JsVal)
    ensures stored.Unavailable? || stored.Missing? ==> r == JArr([])
    ensures stored.Saved? && stored.text != "" && parse(stored.text).Some? ==> r == parse(stored.text).value
  {
    if stored.Unavailable? then JArr([]) else SafeJsonParse(StoredText(stored), JArr([]), parse)
  }

  /** `forceUpdate`: rereads storage; when the read throws, the list is kept. */
  function ForceUpdate(orders: JsVal, stored: Stored, parse: Parse): (r: JsVal)
    ensures stored.Unavailable? ==> r == orders
    ensures stored.Missing? ==> r == JArr([])
    ensures stored.Saved? && stored.text != "" && parse(stored.text).Some? ==> r == parse(stored.text).value
  {
    if stored.Unavailable? then orders else SafeJsonParse(StoredText(stored), JArr([]), parse)
  }

  /** Whenever storage can be read, reloading gives what a fresh provider
      would start with, whatever the list held before. */
  lemma ReloadIsInitial(orders: JsVal, stored: Stored, parse: Parse)
    requires !stored.Unavailable?
    ensures ForceUpdate(orders, stored, parse) == InitialOrders(stored, parse)
  {
  }

  /** The effect that runs after every change of the list: what storage
      holds afterwards. */
  function Save(orders: JsVal, stringify: Stringify): (stored: Stored)
    ensures stored.Saved? && stored.text == stringify(orders)
  {
    Saved(stringify(orders))
  }

  /** The effect's check of what it wrote: reading it back must give a
      non-null value whose JSON text is the list's. */
  predicate SaveVerifies(orders: JsVal, stringify: Stringify, parse: Parse) {
    var parsed := SafeJsonParse(StoredText(Save(orders, stringify)), Null, parse);
    !StrictEquals(parsed, Null) && stringify(parsed) == stringify(orders)
  }

  /** A stringify that `JSON.parse` inverts on the list. */
  predicate RoundTrips(orders: JsVal, stringify: Stringify, parse: Parse) {
    stringify(orders) != "" && parse(stringify(orders)) == Some(orders)
  }

  /** When the list's JSON text reads back as the list, a reload after the
      save and a fresh provider both see the saved list. */
  lemma ReloadAfterSave(orders: JsVal, before: JsVal, stringify: Stringify, parse: Parse)
    requires RoundTrips(orders, stringify, parse)
    ensures ForceUpdate(before, Save(orders, stringify), parse) == orders
    ensures InitialOrders(Save(orders, stringify), parse) == orders
  {
  }

  /** The save check passes for every non-null list whose JSON text reads
      back as itself. */
  lemma SaveCheckPasses(orders: JsVal, stringify: Stringify, parse: Parse)
    requires RoundTrips(orders, stringify, parse) && orders != Null
    ensures SaveVerifies(orders, stringify, parse)
  {
  }

  /** The save check fails for a `null` list even when it round-trips:
      the read-back `null` is taken for a missing value. */
  lemma SaveCheckRejectsNull(stringify: Stringify, parse: Parse)
    requires RoundTrips(Null, stringify, parse)
    ensures !SaveVerifies(Null, stringify, parse)
  {
  }

  /** The order `addOrder` builds: the given order's own properties, with
      the id set to the clock, the date to its ISO text and the status to
      `pending`. */
  function NewOrder(order: JsVal, now: nat, isoDate: string): (r: JsVal)
    ensures r.JObj?
    ensures Get(r.fields, "id") == JNum(Fin(now as real))
    ensures Get(r.fields, "order_date") == JStr(isoDate)
    ensures Get(r.fields, "status") == JStr("pending")
    ensures forall key :: key != "id" && key != "order_date" && key != "status" ==>
              Get(r.fields, key) == Get(Spread(order), key)
  {
    JObj(Put(Put(Put(Spread(order), "id", JNum(Fin(now as real))), "order_date", JStr(isoDate)), "status", JStr("pending")))
  }

  /** `addOrder`: the new order, and the list with it in front. Spreading a
      list that is not iterable throws. */
  function AddOrder(orders: JsVal, order: JsVal, now: nat, isoDate: string): (r: (JsVal, Result<JsVal, string>))
    ensures r.0 == NewOrder(order, now, isoDate)
    ensures r.1.Err? <==> Iterate(orders).None?
    ensures r.1.Err? ==> r.1.error == TypeError
    ensures r.1.Ok? ==> r.1.value == JArr([r.0] + Iterate(orders).value)
  {
    var created := NewOrder(order, now, isoDate);
    match Iterate(orders)
    case None => (created, Err(TypeError))
    case Some(items) => (created, Ok(JArr([created] + items)))
  }

  /** Adding to a list keeps every earlier order, in order, after the new one. */
  lemma AddOrderPrepends(items: seq<JsVal>, order: JsVal, now: nat, isoDate: string)
    ensures AddOrder(JArr(items), order, now, isoDate).1.Ok?
    ensures var next := AddOrder(JArr(items), order, now, isoDate).1.value;
            next.JArr? && |next.items| == |items| + 1 && next.items[1..] == items &&
            next.items[0] == NewOrder(order, now, isoDate)
  {
  }

  /** An order object added to a list keeps every property but the three
      `addOrder` sets, and is pending. */
  lemma AddOrderKeeps(items: seq<JsVal>, order: JsVal, now: nat, isoDate: string, key: string)
    requires order.JObj? && key != "id" && key != "order_date" && key != "status"
    ensures var (created, next) := AddOrder(JArr(items), order, now, isoDate);
            next == Ok(JArr([created] + items)) && created.JObj? &&
            Get(created.fields, "status") == JStr("pending") &&
            Get(created.fields, key) == Get(order.fields, key)
  {
  }

  /** What `updateOrderStatus` does to one order: an order whose id is
      strictly the given one gets the status, others stay; reading the id
      of `null` or `undefined` throws. */
  function StatusOf(orderId: JsVal, status: JsVal): JsVal -> Result<JsVal, string> {
    (order: JsVal) =>
      match Property(order, "id")
      case Err(e) => Err(e)
      case Ok(id) => if StrictEquals(id, orderId) then Ok(JObj(Put(Spread(order), "status", status))) else Ok(order)
  }

  /** Whether an entry of the list is the order with the given id. */
  predicate Matches(order: JsVal, orderId: JsVal) {
    !Nullish(order) && StrictEquals(Get(Spread(order), "id"), orderId)
  }

  /** `updateOrderStatus`: maps the list; a list without `map` or with a
      `null` or `undefined` entry throws. */
  function UpdateOrderStatus(orders: JsVal, orderId: JsVal, status: JsVal): (r: Result<JsVal, string>)
    ensures r.Ok? <==> orders.JArr? && forall i :: 0 <= i < |orders.items| ==> !Nullish(orders.items[i])
    ensures r.Err? ==> r.error == TypeError
    ensures r.Ok? ==> r.value.JArr? && |r.value.items| == |orders.items|
    ensures r.Ok? ==> forall i :: 0 <= i < |orders.items| && !Matches(orders.items[i], orderId) ==>
              r.value.items[i] == orders.items[i]
    ensures r.Ok? ==> forall i :: 0 <= i < |orders.items| && Matches(orders.items[i], orderId) ==>
              r.value.items[i] == JObj(Put(Spread(orders.items[i]), "status", status))
  {
    if !orders.JArr? then Err(TypeError)
    else
      var mapped := MapAll(orders.items, StatusOf(orderId, status));
      assert forall i :: 0 <= i < |orders.items| ==> (StatusOf(orderId, status)(orders.items[i]).Ok? <==> !Nullish(orders.items[i]));
      if mapped.Err? then Err(TypeError) else Ok(JArr(mapped.value))
  }

  /** Updating an order that was just updated changes nothing more. */
  lemma StatusOfIdempotent(order: JsVal, orderId: JsVal, status: JsVal)
    requires !Nullish(order)
    ensures var once := StatusOf(orderId, status)(order);
            once.Ok? && StatusOf(orderId, status)(once.value) == once
  {
    var f := StatusOf(orderId, status);
    if Matches(order, orderId) {
      var fields := Put(Spread(order), "status", status);
      assert f(order) == Ok(JObj(fields));
      assert Get(fields, "id") == Get(Spread(order), "id");
      PutTwice(Spread(order), "status", status);
      assert f(JObj(fields)) == Ok(JObj(Put(fields, "status", status)));
    } else {
      assert f(order) == Ok(order);
    }
  }

  /** An id no order has leaves the list as it was. */
  lemma UpdateAbsentId(items: seq<JsVal>, orderId: JsVal, status: JsVal)
    requires forall i :: 0 <= i < |items| ==> !Nullish(items[i]) && !Matches(items[i], orderId)
    ensures UpdateOrderStatus(JArr(items), orderId, status) == Ok(JArr(items))
  {
    MapAllFixed(items, StatusOf(orderId, status));
  }

  /** Setting the same status twice is setting it once. */
  lemma UpdateStatusIdempotent(items: seq<JsVal>, orderId: JsVal, status: JsVal)
    requires forall i :: 0 <= i < |items| ==> !Nullish(items[i])
    ensures var once := UpdateOrderStatus(JArr(items), orderId, status);
            once.Ok? && UpdateOrderStatus(once.value, orderId, status) == once
  {
    var f := StatusOf(orderId, status);
    var once := MapAll(items, f).value;
    forall i | 0 <= i < |once|
      ensures f(once[i]) == Ok(once[i])
    {
      StatusOfIdempotent(items[i], orderId, status);
    }
    MapAllFixed(once, f);
  }
}

=== FILE: order_controller.dfy ===
/** The order endpoints: placing an order (`store`), changing its status
    (`update`) and the seller's list of all orders (`sellerOrders`). */
module OrderController {
  import opened Wrappers
  import opened Strings
  import opened PhpValues
  import opened Validation
  import opened Sorting
  import opened Database

  /** What `json_decode($text, true)` gives: a value, or the message
      `json_last_error_msg()` reports. */
  datatype Decoded = Decoded(value: Val) | Malformed(message: string)

  /** What a request sees of the world outside the tables: the clock
      (`now()`), the e-mail syntax check of the `email` rule, and the JSON
      decoder. */
  datatype Env = Env(now: int, isEmail: string -> bool, decodeJson: string -> Decoded)

  /** The rules `store` validates the request with. */
  function OrderRules(users: set<int>, products: set<int>): seq<AttributeRules> {
    [ AttributeRules(Field("user_id"), [Required, ExistsIn(users)]),
      AttributeRules(Field("customer_name"), [Required, IsString, MaxSize(255)]),
      AttributeRules(Field("customer_email"), [Required, Email, MaxSize(255)]),
      AttributeRules(Field("shipping_address"), [Required, IsString]),
      AttributeRules(Field("items"), [Required, IsArray, MinSize(1)]),
      AttributeRules(EachOf("items", "product_id"), [Required, ExistsIn(products)]),
      AttributeRules(EachOf("items", "quantity"), [Required, Integer, MinSize(1)]),
      AttributeRules(EachOf("items", "price"), [Required, Numeric, MinSize(0)]) ]
  }

  /** The rules `update` validates the request with. */
  const StatusRules: seq<AttributeRules> :=
    [ AttributeRules(Field("status"), [Required, OneOf(Statuses)]) ]

  /** An element of `items` whose fields the casts in the loop can read. */
  predicate ItemTyped(e: Val) {
    IdOf(ElementField(e, "product_id")).Some? &&
    IsInteger(ElementField(e, "quantity")) &&
    IsNumeric(ElementField(e, "price"))
  }

  /** An element of `items` as validation leaves it: an existing product, a
      quantity of at least one and a price of at least zero. */
  predicate ItemOk(e: Val, products: set<int>) {
    ItemTyped(e) &&
    IdOf(ElementField(e, "product_id")).value in products &&
    IntValue(ElementField(e, "quantity")) >= 1 &&
    NumericValue(ElementField(e, "price")) >= 0.0
  }

  /** The customer fields as validation leaves them. */
  predicate CustomerOk(input: Input, users: set<int>, isEmail: string -> bool) {
    "user_id" in input && IdOf(input["user_id"]).Some? && IdOf(input["user_id"]).value in users &&
    "customer_name" in input && input["customer_name"].VStr? && |input["customer_name"].s| <= 255 &&
    "customer_email" in input && input["customer_email"].VStr? &&
    isEmail(input["customer_email"].s) && |input["customer_email"].s| <= 255 &&
    "shipping_address" in input && input["shipping_address"].VStr?
  }

  /** The `items` list as validation leaves it. */
  predicate ItemsOk(input: Input, products: set<int>) {
    "items" in input && input["items"].VArr? && |input["items"].entries| >= 1 &&
    forall k :: 0 <= k < |input["items"].entries| ==> ItemOk(input["items"].entries[k].1, products)
  }

  /** A request as validation leaves it. */
  predicate OrderInputOk(input: Input, users: set<int>, products: set<int>, isEmail: string -> bool) {
    CustomerOk(input, users, isEmail) && ItemsOk(input, products)
  }

  /** A rule of a required, non-nullable top-level attribute that passed was
      checked against a value that is there. */
  lemma FieldChecked(ar: AttributeRules, input: Input, isEmail: string -> bool, r: Rule)
    requires ar.attr.Field? && AttributeRulesPass(ar, input, isEmail)
    requires Required in ar.rules && Sometimes !in ar.rules && Nullable !in ar.rules && r in ar.rules
    ensures ar.attr.name in input
    ensures Check(r, ar.rules, input[ar.attr.name], isEmail)
  {
    var v := if ar.attr.name in input then Some(input[ar.attr.name]) else None;
    assert RulePasses(Required, ar.rules, v, isEmail);
    assert RulePasses(r, ar.rules, v, isEmail);
  }

  /** The same for one element of a wildcard attribute. */
  lemma ElementChecked(ar: AttributeRules, input: Input, isEmail: string -> bool, r: Rule, k: nat)
    requires ar.attr.EachOf? && AttributeRulesPass(ar, input, isEmail)
    requires ar.attr.list in input && input[ar.attr.list].VArr?
    requires k < |input[ar.attr.list].entries|
    requires Required in ar.rules && Sometimes !in ar.rules && Nullable !in ar.rules && r in ar.rules
    ensures Check(r, ar.rules, ElementField(input[ar.attr.list].entries[k].1, ar.attr.field), isEmail)
  {
    var v := Some(ElementField(input[ar.attr.list].entries[k].1, ar.attr.field));
    assert AttributePasses(ar.rules, v, isEmail);
    assert RulePasses(Required, ar.rules, v, isEmail);
    assert RulePasses(r, ar.rules, v, isEmail);
  }

  /** A quantity that passes `integer|min:1` casts to at least one. */
  lemma QuantityAtLeastOne(q: Val)
    requires IsInteger(q)
    requires var sz := Size(q, true); sz.Some? && sz.value >= 1.0
    ensures IntValue(q) >= 1
  {
    if !q.VBool? {
      IntegerIsNumeric(q);
    }
  }

  /** What passing the order rules guarantees about the request. */
  lemma ValidatedOrder(input: Input, users: set<int>, products: set<int>, isEmail: string -> bool)
    requires AllPass(OrderRules(users, products), input, isEmail)
    ensures OrderInputOk(input, users, products, isEmail)
  {
    var spec := OrderRules(users, products);
    assert AttributeRulesPass(spec[0], input, isEmail);
    assert AttributeRulesPass(spec[1], input, isEmail);
    assert AttributeRulesPass(spec[2], input, isEmail);
    assert AttributeRulesPass(spec[3], input, isEmail);
    ValidatedCustomer(spec[0], spec[1], spec[2], spec[3], input, users, isEmail);
    assert AttributeRulesPass(spec[4], input, isEmail);
    assert AttributeRulesPass(spec[5], input, isEmail);
    assert AttributeRulesPass(spec[6], input, isEmail);
    assert AttributeRulesPass(spec[7], input, isEmail);
    ValidatedItems(spec[4], spec[5], spec[6], spec[7], input, products, isEmail);
  }

  lemma ValidatedCustomer(user: AttributeRules, name: AttributeRules, email: AttributeRules,
                          address: AttributeRules, input: Input, users: set<int>, isEmail: string -> bool)
    requires user == AttributeRules(Field("user_id"), [Required, ExistsIn(users)])
    requires name == AttributeRules(Field("customer_name"), [Required, IsString, MaxSize(255)])
    requires email == AttributeRules(Field("customer_email"), [Required, Email, MaxSize(255)])
    requires address == AttributeRules(Field("shipping_address"), [Required, IsString])
    requires AttributeRulesPass(user, input, isEmail) && AttributeRulesPass(name, input, isEmail)
    requires AttributeRulesPass(email, input, isEmail) && AttributeRulesPass(address, input, isEmail)
    ensures CustomerOk(input, users, isEmail)
  {
    FieldChecked(user, input, isEmail, ExistsIn(users));
    FieldChecked(address, input, isEmail, IsString);
    TextWithin(name, input, isEmail, IsString);
    TextWithin(email, input, isEmail, Email);
    FieldChecked(email, input, isEmail, Email);
  }

  /** A required attribute checked as text (`string` or `email`) and limited
      by `max:255` is text of at most 255 characters. */
  lemma TextWithin(ar: AttributeRules, input: Input, isEmail: string -> bool, kind: Rule)
    requires kind == IsString || kind == Email
    requires ar.attr.Field? && ar.rules == [Required, kind, MaxSize(255)]
    requires AttributeRulesPass(ar, input, isEmail)
    ensures ar.attr.name in input && input[ar.attr.name].VStr?
    ensures |input[ar.attr.name].s| <= 255
  {
    FieldChecked(ar, input, isEmail, kind);
    FieldChecked(ar, input, isEmail, MaxSize(255));
    TextSize(input[ar.attr.name], ar.rules, 255, isEmail);
  }

  /** Without a numeric rule, `max` limits a text's length. */
  lemma TextSize(v: Val, rules: seq<Rule>, n: nat, isEmail: string -> bool)
    requires Numeric !in rules && Integer !in rules
    requires v.VStr? && Check(MaxSize(n), rules, v, isEmail)
    ensures |v.s| <= n
  {
    assert Size(v, false) == Some(|v.s| as real);
  }

  lemma ValidatedItems(list: AttributeRules, product: AttributeRules, quantity: AttributeRules,
                       price: AttributeRules, input: Input, products: set<int>, isEmail: string -> bool)
    requires list == AttributeRules(Field("items"), [Required, IsArray, MinSize(1)])
    requires product == AttributeRules(EachOf("items", "product_id"), [Required, ExistsIn(products)])
    requires quantity == AttributeRules(EachOf("items", "quantity"), [Required, Integer, MinSize(1)])
    requires price == AttributeRules(EachOf("items", "price"), [Required, Numeric, MinSize(0)])
    requires AttributeRulesPass(list, input, isEmail) && AttributeRulesPass(product, input, isEmail)
    requires AttributeRulesPass(quantity, input, isEmail) && AttributeRulesPass(price, input, isEmail)
    ensures ItemsOk(input, products)
  {
    FieldChecked(list, input, isEmail, IsArray);
    FieldChecked(list, input, isEmail, MinSize(1));
    var es := input["items"].entries;
    assert |es| >= 1 by {
      assert Size(input["items"], false) == Some(|es| as real);
    }
    forall k | 0 <= k < |es|
      ensures ItemOk(es[k].1, products)
    {
      ValidatedItem(product, quantity, price, input, products, isEmail, k);
    }
  }

  /** One element of a validated `items` list. */
  lemma ValidatedItem(product: AttributeRules, quantity: AttributeRules, price: AttributeRules,
                      input: Input, products: set<int>, isEmail: string -> bool, k: nat)
    requires product == AttributeRules(EachOf("items", "product_id"), [Required, ExistsIn(products)])
    requires quantity == AttributeRules(EachOf("items", "quantity"), [Required, Integer, MinSize(1)])
    requires price == AttributeRules(EachOf("items", "price"), [Required, Numeric, MinSize(0)])
    requires AttributeRulesPass(product, input, isEmail)
    requires AttributeRulesPass(quantity, input, isEmail) && AttributeRulesPass(price, input, isEmail)
    requires "items" in input && input["items"].VArr? && k < |input["items"].entries|
    ensures ItemOk(input["items"].entries[k].1, products)
  {
    var e := input["items"].entries[k].1;
    ElementChecked(product, input, isEmail, ExistsIn(products), k);
    ElementChecked(quantity, input, isEmail, Integer, k);
    ElementChecked(quantity, input, isEmail, MinSize(1), k);
    QuantityAtLeastOne(ElementField(e, "quantity"));
    ElementChecked(price, input, isEmail, Numeric, k);
    ElementChecked(price, input, isEmail, MinSize(0), k);
  }

  /** The row an element of `items` becomes: the product's key, the `(int)`
      quantity and the `(float)` price the client sent. */
  function Row(e: Val, orderId: int, id: int, now: int): OrderItem
    requires ItemTyped(e)
  {
    OrderItem(id, orderId, IdOf(ElementField(e, "product_id")).value,
              IntValue(ElementField(e, "quantity")), NumericValue(ElementField(e, "price")), now)
  }

  function Rows(es: seq<(string, Val)>, orderId: int, firstId: int, now: int): (rows: seq<OrderItem>)
    requires forall k :: 0 <= k < |es| ==> ItemTyped(es[k].1)
    ensures |rows| == |es|
    ensures forall k :: 0 <= k < |rows| ==> rows[k] == Row(es[k].1, orderId, firstId + k, now)
    decreases |es|
  {
    if |es| == 0 then []
    else
      var rest := es[1..];
      assert forall k :: 0 <= k < |rest| ==> rest[k] == es[k + 1];
      [Row(es[0].1, orderId, firstId, now)] + Rows(rest, orderId, firstId + 1, now)
  }

  /** Whether `store` answers before validating: a string `items` that does
      not decode. */
  predicate MalformedItems(input: Input, env: Env) {
    "items" in input && input["items"].VStr? && env.decodeJson(input["items"].s).Malformed?
  }

  /** The order and item rows a validated request inserts: the order
      `pending`, dated now, with the loop's total, then one item row per
      element of `items`, in request order. */
  function Create(db: Db, input: Input, env: Env): (r: (Db, Order, seq<OrderItem>))
    requires OrderInputOk(input, db.users, db.products.Keys, env.isEmail)
    ensures var (placed, order, rows) := r;
            var es := input["items"].entries;
            placed == db.(orders := db.orders + [order], items := db.items + rows,
                          nextOrderId := db.nextOrderId + 1, nextItemId := db.nextItemId + |rows|) &&
            order.id == db.nextOrderId && order.status == "pending" &&
            order.orderDate == env.now && order.createdAt == env.now &&
            order.userId == IdOf(input["user_id"]).value &&
            order.customerName == input["customer_name"].s &&
            order.customerEmail == input["customer_email"].s &&
            order.shippingAddress == input["shipping_address"].s &&
            order.totalAmount == LineSum(rows) &&
            |rows| == |es| &&
            forall k :: 0 <= k < |rows| ==>
              rows[k].id == db.nextItemId + k && rows[k].orderId == order.id &&
              rows[k].createdAt == env.now &&
              rows[k].productId == IdOf(ElementField(es[k].1, "product_id")).value &&
              rows[k].quantity == IntValue(ElementField(es[k].1, "quantity")) &&
              rows[k].price == NumericValue(ElementField(es[k].1, "price"))
  {
    var es := input["items"].entries;
    assert forall k :: 0 <= k < |es| ==> ItemTyped(es[k].1) by {
      assert forall k :: 0 <= k < |es| ==> ItemOk(es[k].1, db.products.Keys);
    }
    var rows := Rows(es, db.nextOrderId, db.nextItemId, env.now);
    var total := Accumulate(0.0, rows);
    AccumulateIsLineSum(0.0, rows);
    var order := Order(db.nextOrderId, IdOf(input["user_id"]).value,
                       input["customer_name"].s, input["customer_email"].s,
                       input["shipping_address"].s, "pending", total, env.now, env.now);
    var placed := db.(orders := db.orders + [order], items := db.items + rows,
                      nextOrderId := db.nextOrderId + 1, nextItemId := db.nextItemId + |rows|);
    (placed, order, rows)
  }

  /** `store`. A string `items` that does not decode is answered with 400
      and nothing written. Otherwise the request itself (not the decoded
      items) is validated inside the transaction, so a failed validation is
      caught like any other exception: the transaction is rolled back and the
      answer is 500. A valid request is created and answered with 201. */
  function Place(db: Db, input: Input, env: Env): (r: (Db, Response))
    ensures r.1.status in {201, 400, 500}
    ensures r.1.status == 400 <==> MalformedItems(input, env)
    ensures r.1.status == 201 <==>
              !MalformedItems(input, env) &&
              AllPass(OrderRules(db.users, db.products.Keys), input, env.isEmail)
    ensures r.1.status != 201 ==> r.0 == db
    ensures r.1.status == 400 ==>
              r.1.body == Message("Invalid items JSON: " + env.decodeJson(input["items"].s).message)
    ensures r.1.status == 500 ==> r.1.body.CreateFailed? && |r.1.body.fields| > 0
    ensures r.1.status == 201 ==>
              OrderInputOk(input, db.users, db.products.Keys, env.isEmail) &&
              var (placed, order, rows) := Create(db, input, env);
              r == (placed, Response(201, OrderCreated(order, rows)))
  {
    if MalformedItems(input, env) then
      (db, Response(400, Message("Invalid items JSON: " + env.decodeJson(input["items"].s).message)))
    else
      var spec := OrderRules(db.users, db.products.Keys);
      var failed := Failures(spec, input, env.isEmail);
      NoFailuresIffAllPass(spec, input, env.isEmail);
      if |failed| > 0 then (db, Response(500, CreateFailed(failed)))
      else
        ValidatedOrder(input, db.users, db.products.Keys, env.isEmail);
        var (placed, order, rows) := Create(db, input, env);
        (placed, Response(201, OrderCreated(order, rows)))
  }

  /** A new order keeps the invariant. */
  lemma CreateKeepsValid(db: Db, input: Input, env: Env)
    requires Valid(db)
    requires OrderInputOk(input, db.users, db.products.Keys, env.isEmail)
    ensures Valid(Create(db, input, env).0)
  {
    var (placed, order, rows) := Create(db, input, env);
    AppendKeepsValid(db, placed, order, rows);
  }

  /** What appending an order with its rows must satisfy to keep the
      invariant: the next order id, consecutive item ids, rows that name the
      order, and a total that is their sum. */
  lemma AppendKeepsValid(db: Db, placed: Db, order: Order, rows: seq<OrderItem>)
    requires Valid(db)
    requires placed == db.(orders := db.orders + [order], items := db.items + rows,
                           nextOrderId := db.nextOrderId + 1, nextItemId := db.nextItemId + |rows|)
    requires order.id == db.nextOrderId && order.totalAmount == LineSum(rows)
    requires forall k :: 0 <= k < |rows| ==> rows[k].orderId == order.id && rows[k].id == db.nextItemId + k
    ensures Valid(placed)
  {
    AppendKeepsOrderIds(db, placed, order);
    AppendKeepsItemIds(db, placed, rows);
    AppendKeepsBelong(db, placed, order, rows);
    OldItemsBelowNext(db);
    AppendKeepsTotals(db, placed, order, rows);
  }

  lemma AppendKeepsOrderIds(db: Db, placed: Db, order: Order)
    requires OrderIdsOk(db)
    requires placed.orders == db.orders + [order] && placed.nextOrderId == db.nextOrderId + 1
    requires order.id == db.nextOrderId
    ensures OrderIdsOk(placed)
  {
  }

  lemma AppendKeepsItemIds(db: Db, placed: Db, rows: seq<OrderItem>)
    requires ItemIdsOk(db)
    requires placed.items == db.items + rows && placed.nextItemId == db.nextItemId + |rows|
    requires forall k :: 0 <= k < |rows| ==> rows[k].id == db.nextItemId + k
    ensures ItemIdsOk(placed)
  {
    forall k, l | 0 <= k < l < |placed.items|
      ensures placed.items[k].id < placed.items[l].id
    {
      if l >= |db.items| {
        assert placed.items[l] == rows[l - |db.items|];
      }
      if k >= |db.items| {
        assert placed.items[k] == rows[k - |db.items|];
      }
    }
  }

  lemma AppendKeepsBelong(db: Db, placed: Db, order: Order, rows: seq<OrderItem>)
    requires ItemsBelong(db)
    requires placed.orders == db.orders + [order] && placed.items == db.items + rows
    requires forall k :: 0 <= k < |rows| ==> rows[k].orderId == order.id
    ensures ItemsBelong(placed)
  {
    assert OrderIds(placed.orders) == OrderIds(db.orders) + {order.id};
    forall k | 0 <= k < |placed.items|
      ensures placed.items[k].orderId in OrderIds(placed.orders)
    {
      if k >= |db.items| {
        assert placed.items[k] == rows[k - |db.items|];
      }
    }
  }

  /** Every stored item names an order id below the next one. */
  lemma OldItemsBelowNext(db: Db)
    requires OrderIdsOk(db) && ItemsBelong(db)
    ensures forall k :: 0 <= k < |db.items| ==> db.items[k].orderId < db.nextOrderId
  {
    forall k | 0 <= k < |db.items|
      ensures db.items[k].orderId < db.nextOrderId
    {
      var x := db.items[k];
      assert x.orderId in OrderIds(db.orders);
      var i :| 0 <= i < |db.orders| && db.orders[i].id == x.orderId;
    }
  }

  /** The totals of the old orders are untouched by the new rows, and the
      new order's total is the sum over exactly its rows. */
  lemma AppendKeepsTotals(db: Db, placed: Db, order: Order, rows: seq<OrderItem>)
    requires OrderIdsOk(db) && TotalsMatch(db)
    requires forall k :: 0 <= k < |db.items| ==> db.items[k].orderId < db.nextOrderId
    requires placed.orders == db.orders + [order] && placed.items == db.items + rows
    requires order.id == db.nextOrderId && order.totalAmount == LineSum(rows)
    requires forall k :: 0 <= k < |rows| ==> rows[k].orderId == order.id
    ensures TotalsMatch(placed)
  {
    forall i | 0 <= i < |placed.orders|
      ensures placed.orders[i].totalAmount == LineSum(ItemsOf(placed.items, placed.orders[i].id))
    {
      if i < |db.orders| {
        var o := db.orders[i];
        assert placed.orders[i] == o;
        OtherOrderItems(db.items, rows, o.id, order.id);
      } else {
        assert placed.orders[i] == order;
        NewOrderItems(db.items, rows, order.id);
      }
    }
  }

  /** Rows of a new order do not join another order's items. */
  lemma OtherOrderItems(items: seq<OrderItem>, rows: seq<OrderItem>, orderId: int, newId: int)
    requires orderId != newId
    requires forall k :: 0 <= k < |rows| ==> rows[k].orderId == newId
    ensures ItemsOf(items + rows, orderId) == ItemsOf(items, orderId)
  {
    ItemsOfAppend(items, rows, orderId);
    ItemsOfNone(rows, orderId);
    assert ItemsOf(items, orderId) + [] == ItemsOf(items, orderId);
  }

  /** A new order's items are exactly its rows. */
  lemma NewOrderItems(items: seq<OrderItem>, rows: seq<OrderItem>, newId: int)
    requires forall k :: 0 <= k < |items| ==> items[k].orderId < newId
    requires forall k :: 0 <= k < |rows| ==> rows[k].orderId == newId
    ensures ItemsOf(items + rows, newId) == rows
  {
    ItemsOfAppend(items, rows, newId);
    ItemsOfNone(items, newId);
    ItemsOfAll(rows, newId);
    assert [] + rows == rows;
  }

  /** Placing an order, whatever its outcome, keeps the invariant. */
  lemma PlaceKeepsValid(db: Db, input: Input, env: Env)
    requires Valid(db)
    ensures Valid(Place(db, input, env).0)
  {
    if Place(db, input, env).1.status == 201 {
      CreateKeepsValid(db, input, env);
    }
  }

  /** A placed order's total is never negative: every price is at least zero
      and every quantity at least one. */
  lemma CreateTotalNonNegative(db: Db, input: Input, env: Env)
    requires OrderInputOk(input, db.users, db.products.Keys, env.isEmail)
    ensures Create(db, input, env).1.totalAmount >= 0.0
    ensures forall x :: x in Create(db, input, env).2 ==> x.quantity >= 1 && x.price >= 0.0
  {
    var (placed, order, rows) := Create(db, input, env);
    var es := input["items"].entries;
    forall k | 0 <= k < |rows|
      ensures rows[k].quantity >= 1 && rows[k].price >= 0.0
    {
      assert ItemOk(es[k].1, db.products.Keys);
    }
    LineSumNonNegative(rows);
  }

  /** A string `items` never creates an order: validation sees the string,
      not what it decodes to, so the answer is 400 or 500. */
  lemma StringItemsNeverCreate(db: Db, input: Input, env: Env)
    requires "items" in input && input["items"].VStr?
    ensures Place(db, input, env).1.status in {400, 500}
    ensures Place(db, input, env).0 == db
  {
    var spec := OrderRules(db.users, db.products.Keys);
    if AllPass(spec, input, env.isEmail) {
      assert AttributeRulesPass(spec[4], input, env.isEmail);
      FieldChecked(spec[4], input, env.isEmail, IsArray);
      assert false;
    }
  }

  /** Placing an order adds to a product's `orderItems` exactly the new rows
      that name it, and changes no product. */
  lemma PlaceProductItems(db: Db, input: Input, env: Env, productId: int)
    requires Place(db, input, env).1.status == 201
    ensures var r := Place(db, input, env);
            r.0.products == db.products &&
            ProductItems(r.0.items, productId) ==
              ProductItems(db.items, productId) + ProductItems(r.1.body.items, productId)
  {
    var r := Place(db, input, env);
    ProductItemsAppend(db.items, r.1.body.items, productId);
  }

  /** A status value the rule accepts is there to check. */
  lemma StatusFilled(s: string)
    requires s in Statuses
    ensures Filled(Some(VStr(s)))
  {
    assert IsTrimmed(s, PhpBlanks);
    TrimOfTrimmed(s, PhpBlanks);
  }

  /** The status rule accepts exactly the four statuses, given as text. */
  lemma StatusAccepted(input: Input, isEmail: string -> bool)
    ensures AllPass(StatusRules, input, isEmail) <==>
              "status" in input && input["status"].VStr? && input["status"].s in Statuses
  {
    var ar := StatusRules[0];
    if AllPass(StatusRules, input, isEmail) {
      assert AttributeRulesPass(ar, input, isEmail);
      FieldChecked(ar, input, isEmail, OneOf(Statuses));
    }
    if "status" in input && input["status"].VStr? && input["status"].s in Statuses {
      StatusFilled(input["status"].s);
      var v := Some(input["status"]);
      assert RulePasses(Required, ar.rules, v, isEmail);
      assert RulePasses(OneOf(Statuses), ar.rules, v, isEmail);
      assert AttributePasses(ar.rules, v, isEmail);
      assert AttributeRulesPass(ar, input, isEmail);
    }
  }

  /** The order a route segment names, if any. */
  function OrderAt(db: Db, segment: string): Option<nat> {
    var key := RouteKey(segment);
    if key.None? then None else FindOrder(db.orders, key.value)
  }

  /** `update`. Route-model binding answers 404 for an unknown order before
      the controller runs; a status outside the four is answered with 422;
      otherwise the order's status, and nothing else, changes. */
  function UpdateStatus(db: Db, segment: string, input: Input, isEmail: string -> bool): (r: (Db, Response))
    ensures r.1.status in {200, 404, 422}
    ensures r.1.status == 404 <==> OrderAt(db, segment).None?
    ensures r.1.status == 200 <==>
              OrderAt(db, segment).Some? &&
              "status" in input && input["status"].VStr? && input["status"].s in Statuses
    ensures r.1.status != 200 ==> r.0 == db
    ensures r.1.status == 422 ==> r.1.body.Invalid? && |r.1.body.fields| > 0
    ensures r.1.status == 200 ==>
              var i := OrderAt(db, segment).value;
              r.0.(orders := db.orders) == db &&
              |r.0.orders| == |db.orders| &&
              (forall j :: 0 <= j < |db.orders| && j != i ==> r.0.orders[j] == db.orders[j]) &&
              r.0.orders[i] == db.orders[i].(status := input["status"].s) &&
              r.1.body == OrderBody(r.0.orders[i], ItemsOf(db.items, db.orders[i].id))
  {
    var at := OrderAt(db, segment);
    if at.None? then (db, Response(404, NoSuchModel))
    else
      var i := at.value;
      var failed := Failures(StatusRules, input, isEmail);
      NoFailuresIffAllPass(StatusRules, input, isEmail);
      StatusAccepted(input, isEmail);
      if |failed| > 0 then (db, Response(422, Invalid(failed)))
      else
        var order := db.orders[i].(status := input["status"].s);
        (db.(orders := db.orders[i := order]), Response(200, OrderBody(order, ItemsOf(db.items, order.id))))
  }

  /** Changing a status keeps the invariant. */
  lemma UpdateStatusKeepsValid(db: Db, segment: string, input: Input, isEmail: string -> bool)
    requires Valid(db)
    ensures Valid(UpdateStatus(db, segment, input, isEmail).0)
  {
    var r := UpdateStatus(db, segment, input, isEmail);
    if r.1.status == 200 {
      var i := OrderAt(db, segment).value;
      ReplaceOrderKeepsValid(db, r.0, i, r.0.orders[i]);
    }
  }

  /** Replacing an order by one with the same id and total keeps the
      invariant. */
  lemma ReplaceOrderKeepsValid(db: Db, changed: Db, i: nat, o: Order)
    requires Valid(db)
    requires i < |db.orders| && o.id == db.orders[i].id && o.totalAmount == db.orders[i].totalAmount
    requires changed == db.(orders := db.orders[i := o])
    ensures Valid(changed)
  {
    SameOrderIds(db.orders, changed.orders);
    assert OrderIdsOk(changed) by {
      assert forall j :: 0 <= j < |db.orders| ==> changed.orders[j].id == db.orders[j].id;
    }
    assert TotalsMatch(changed) by {
      forall j | 0 <= j < |changed.orders|
        ensures changed.orders[j].totalAmount == LineSum(ItemsOf(changed.items, changed.orders[j].id))
      {
        assert changed.orders[j].id == db.orders[j].id;
        assert changed.orders[j].totalAmount == db.orders[j].totalAmount;
      }
    }
  }

  /** Lists of orders with the same ids position by position have the same
      id set. */
  lemma SameOrderIds(a: seq<Order>, b: seq<Order>)
    requires |a| == |b| && forall j :: 0 <= j < |a| ==> a[j].id == b[j].id
    ensures OrderIds(a) == OrderIds(b)
  {
    forall x | x in OrderIds(a)
      ensures x in OrderIds(b)
    {
      var o :| o in a && o.id == x;
      var j :| 0 <= j < |a| && a[j] == o;
      assert b[j] in b;
    }
    forall x | x in OrderIds(b)
      ensures x in OrderIds(a)
    {
      var o :| o in b && o.id == x;
      var j :| 0 <= j < |b| && b[j] == o;
      assert a[j] in a;
    }
  }

  /** `a` is listed before `b`: it was created later. */
  predicate Newer(a: Order, b: Order) {
    a.createdAt > b.createdAt
  }

  /** `orderBy('created_at', 'desc')`: the orders, newest first. */
  function NewestFirst(orders: seq<Order>): (r: seq<Order>)
    ensures multiset(r) == multiset(orders)
    ensures forall i, j :: 0 <= i < j < |r| ==> r[i].createdAt >= r[j].createdAt
  {
    assert StrictOrder(Newer);
    SortPermutes(orders, Newer);
    SortSorted(orders, Newer);
    Sort(orders, Newer)
  }

  /** `sellerOrders`: every order, newest first, each with its items. */
  function SellerOrders(db: Db): (r: Response)
    ensures r.status == 200 && r.body.OrderList?
    ensures |r.body.entries| == |db.orders|
    ensures forall k :: 0 <= k < |r.body.entries| ==>
              r.body.entries[k].0 == NewestFirst(db.orders)[k] &&
              r.body.entries[k].1 == ItemsOf(db.items, r.body.entries[k].0.id)
  {
    var sorted := NewestFirst(db.orders);
    assert |sorted| == |db.orders| by {
      assert |multiset(sorted)| == |multiset(db.orders)|;
    }
    Response(200, OrderList(seq(|sorted|, k requires 0 <= k < |sorted| =>
                                 (sorted[k], ItemsOf(db.items, sorted[k].id)))))
  }

  /** Orders already listed newest first are listed as they are. */
  lemma NewestFirstOfSorted(orders: seq<Order>)
    requires forall i, j :: 0 <= i < j < |orders| ==> orders[i].createdAt >= orders[j].createdAt
    ensures NewestFirst(orders) == orders
  {
    SortOfSorted(orders, Newer);
  }
}

=== FILE: php_values.dfy ===
/** The values a Laravel controller receives in a request and stores in a
    model attribute, with the PHP conversions the controllers rely on:
    truthiness, `is_numeric`, the integer filter and the `(int)` and
    `(float)` casts. */
module PhpValues {
  import opened Wrappers
  import opened Strings
  import opened NumberText

  /** A PHP value. Arrays are ordered maps with string keys (a JSON list
      `[a, b]` arrives as `VArr([("0", a), ("1", b)])`); an uploaded file is
      known by its guessed extension and its size in kilobytes. */
  datatype Val =
    | VNull
    | VBool(b: bool)
    | VInt(i: int)
    | VFloat(r: real)
    | VStr(s: string)
    | VArr(entries: seq<(string, Val)>)
    | VUpload(ext: string, kb: nat)

  const IntMax: int := 0x7fff_ffff_ffff_ffff
  const IntMin: int := -0x8000_0000_0000_0000

  /** `$array[$key]`: the value under the first entry with that key. */
  function Lookup(entries: seq<(string, Val)>, key: string): (r: Option<Val>)
    ensures r.Some? <==> exists k :: 0 <= k < |entries| && entries[k].0 == key
    ensures r.Some? ==> exists k :: 0 <= k < |entries| && entries[k] == (key, r.value)
  {
    if |entries| == 0 then None
    else if entries[0].0 == key then Some(entries[0].1)
    else
      var r := Lookup(entries[1..], key);
      assert forall k :: 0 < k < |entries| ==> entries[k] == entries[1..][k - 1];
      r
  }

  /** PHP's conversion to bool: `null`, `false`, `0`, `0.0`, `""`, `"0"` and the
      empty array are false. */
  predicate Truthy(v: Val) {
    match v
    case VNull => false
    case VBool(b) => b
    case VInt(i) => i != 0
    case VFloat(r) => r != 0.0
    case VStr(s) => s != "" && s != "0"
    case VArr(es) => |es| > 0
    case VUpload(_, _) => true
  }

  /** `is_numeric` on a string: optional surrounding white space, an optional
      sign, then one whole decimal literal (`5`, `5.`, `.5`, `1e3`). */
  predicate IsNumericText(s: string) {
    var t := Trim(s, PhpNumericBlanks);
    var (_, u) := SplitSign(t);
    var lit := ScanUnsigned(u);
    lit.Some? && lit.value.length == |u|
  }

  /** `(float)` of a numeric string. */
  function NumericTextValue(s: string): real
    requires IsNumericText(s)
  {
    var (neg, u) := SplitSign(Trim(s, PhpNumericBlanks));
    var m := ScanUnsigned(u).value.Value();
    if neg then -m else m
  }

  /** A sign followed by a whole unsigned literal that starts and ends with a
      digit is a numeric text with the signed value. */
  lemma NumericTextSigned(neg: bool, u: string)
    requires |u| > 0 && IsDigit(u[0]) && IsDigit(u[|u| - 1])
    requires ScanUnsigned(u).Some? && ScanUnsigned(u).value.length == |u|
    ensures IsNumericText(Signed(neg, u))
    ensures NumericTextValue(Signed(neg, u))
            == if neg then -ScanUnsigned(u).value.Value() else ScanUnsigned(u).value.Value()
  {
    var s := Signed(neg, u);
    assert u[0] != '-' && u[0] != '+';
    TrimSignedDigits(neg, u, PhpNumericBlanks);
    SplitSigned(neg, u);
    var t := Trim(s, PhpNumericBlanks);
    assert t == s;
    var (neg', u') := SplitSign(t);
    assert neg' == neg && u' == u;
    var m := ScanUnsigned(u).value.Value();
    assert IsNumericText(s);
    assert NumericTextValue(s) == if neg then -m else m;
  }

  /** A text of nothing but blanks is not numeric. */
  lemma BlankNotNumeric(s: string)
    requires |Trim(s, PhpBlanks)| == 0
    ensures !IsNumericText(s)
  {
    var i, j := TrimSlice(s, PhpBlanks);
    assert forall k :: 0 <= k < |s| ==> IsBlank(PhpBlanks, s[k]);
    var i2, j2 := TrimSlice(s, PhpNumericBlanks);
    var t := Trim(s, PhpNumericBlanks);
    if |t| > 0 {
      assert t[0] == s[i2] && IsBlank(PhpBlanks, t[0]);
      assert SplitSign(t).1 == t;
    }
  }

  /** `is_numeric($v)`. */
  predicate IsNumeric(v: Val) {
    v.VInt? || v.VFloat? || (v.VStr? && IsNumericText(v.s))
  }

  /** `(float)$v` for a numeric value. */
  function NumericValue(v: Val): real
    requires IsNumeric(v)
  {
    match v
    case VInt(i) => i as real
    case VFloat(r) => r
    case VStr(s) => NumericTextValue(s)
  }

  /** The text `filter_var(FILTER_VALIDATE_INT)` accepts: surrounding white
      space, an optional sign, then `0` or digits without a leading zero,
      within the 64-bit range. */
  predicate IntegerText(s: string) {
    var (neg, d) := SplitSign(Trim(s, PhpFilterBlanks));
    |d| > 0 && AllDigits(d) && (d == "0" || d[0] != '0') &&
    (if neg then 0 - DigitsValue(d) >= IntMin else DigitsValue(d) <= IntMax)
  }

  /** The value of an accepted integer text. */
  function IntegerTextValue(s: string): (n: int)
    requires IntegerText(s)
    ensures IntMin <= n <= IntMax
  {
    var (neg, d) := SplitSign(Trim(s, PhpFilterBlanks));
    if neg then 0 - DigitsValue(d) else DigitsValue(d)
  }

  /** `filter_var($v, FILTER_VALIDATE_INT) !== false`, which the `integer`
      validation rule uses. A float is first turned into text, which is plain
      digits only for whole values below 10^15. */
  predicate IsInteger(v: Val) {
    match v
    case VInt(i) => IntMin <= i <= IntMax
    case VBool(b) => b
    case VFloat(r) => r == r.Floor as real && -1_000_000_000_000_000.0 < r < 1_000_000_000_000_000.0
    case VStr(s) => IntegerText(s)
    case _ => false
  }

  /** `(int)$v` for a value the integer filter accepts. */
  function IntValue(v: Val): (n: int)
    requires IsInteger(v)
    ensures IntMin <= n <= IntMax
  {
    match v
    case VInt(i) => i
    case VBool(_) => 1
    case VFloat(r) => r.Floor
    case VStr(s) => IntegerTextValue(s)
  }

  /** An integer text is a numeric text with the same value, so the `(int)`
      and `(float)` casts of a value the integer filter accepts agree. */
  lemma IntegerTextNumeric(s: string)
    requires IntegerText(s)
    ensures IsNumericText(s)
    ensures NumericTextValue(s) == IntegerTextValue(s) as real
  {
    var t := Trim(s, PhpFilterBlanks);
    var (neg, d) := SplitSign(t);
    assert |t| > 0 && t[|t| - 1] == d[|d| - 1];
    assert IsDigit(t[0]) || t[0] == '+' || t[0] == '-';
    TrimWiden(s);
    ScanDigits(d);
  }

  /** The casts agree on every value the integer filter accepts other than
      `true`, which is not numeric. */
  lemma IntegerIsNumeric(v: Val)
    requires IsInteger(v) && !v.VBool?
    ensures IsNumeric(v)
    ensures NumericValue(v) == IntValue(v) as real
  {
    if v.VStr? {
      IntegerTextNumeric(v.s);
    }
  }

  /** The decimal text of a natural number within range passes the integer
      filter and casts back to that number. */
  lemma IntegerTextOfNat(n: nat)
    requires n <= IntMax
    ensures IsInteger(VStr(NatToString(n)))
    ensures IntValue(VStr(NatToString(n))) == n
  {
    var s := NatToString(n);
    assert !IsBlank(PhpFilterBlanks, s[0]) && !IsBlank(PhpFilterBlanks, s[|s| - 1]);
    TrimOfTrimmed(s, PhpFilterBlanks);
    assert SplitSign(s) == (false, s);
    NatToStringRoundTrip(n);
    assert s == "0" || s[0] != '0' by {
      if n > 0 {
        NatToStringLeading(n);
      }
    }
  }
}

=== FILE: product_controller.dfy ===
/** The product endpoints that write or look up one product: `store`,
    `show`, `update` and `destroy`, with their handling of the uploaded
    image and of `about_product`. */
module ProductController {
  import opened Wrappers
  import opened Strings
  import opened PhpValues
  import opened Validation
  import opened ProductModel
  import opened Database

  /** PHP's conversion of a float to text, which the model does not spell
      out. */
  type FloatText = real -> string

  const ImageRules: seq<Rule> := [Nullable, Image, Mimes({"jpeg", "png", "jpg", "gif"}), MaxSize(2048)]

  /** The rules `store` validates the request with. */
  const StoreRules: seq<AttributeRules> :=
    [ AttributeRules(Field("name"), [Required, IsString, MaxSize(255)]),
      AttributeRules(Field("description"), [Nullable, IsString]),
      AttributeRules(Field("price"), [Required, Numeric]),
      AttributeRules(Field("original_price"), [Nullable, Numeric]),
      AttributeRules(Field("category"), [Required, IsString, MaxSize(255)]),
      AttributeRules(Field("about_product"), [Nullable, IsArray]),
      AttributeRules(Field("stock"), [Required, Integer]),
      AttributeRules(Field("rating"), [Nullable, IsString]),
      AttributeRules(Field("image"), ImageRules) ]

  /** The rules `update` validates the request with: the required fields
      become `sometimes`. */
  const UpdateRules: seq<AttributeRules> :=
    [ AttributeRules(Field("name"), [Sometimes, IsString, MaxSize(255)]),
      AttributeRules(Field("description"), [Nullable, IsString]),
      AttributeRules(Field("price"), [Sometimes, Numeric]),
      AttributeRules(Field("original_price"), [Nullable, Numeric]),
      AttributeRules(Field("category"), [Sometimes, IsString, MaxSize(255)]),
      AttributeRules(Field("about_product"), [Nullable, IsArray]),
      AttributeRules(Field("stock"), [Sometimes, Integer]),
      AttributeRules(Field("rating"), [Nullable, IsString]),
      AttributeRules(Field("image"), ImageRules) ]

  /** No product rule uses `email`. */
  const NoEmail: string -> bool := (_: string) => false

  /** `$request->key`: the value under the key, files included, else null. */
  function RequestValue(input: Input, key: string): Val {
    if key in input then input[key] else VNull
  }

  /** `$request->input(key)`: like `RequestValue` but files are not input. */
  function InputValue(input: Input, key: string): (v: Val)
    ensures !v.VUpload?
  {
    if key in input && !input[key].VUpload? then input[key] else VNull
  }

  /** `$request->hasFile('image')`. */
  predicate HasImage(input: Input) {
    "image" in input && input["image"].VUpload?
  }

  /** The text PHP's string functions see for a value; an array has none
      (passing one is a type error). */
  function PhpText(v: Val, floatText: FloatText): Option<string> {
    match v
    case VNull => Some("")
    case VBool(b) => Some(if b then "1" else "")
    case VInt(i) => Some(IntText(i))
    case VFloat(r) => Some(floatText(r))
    case VStr(s) => Some(s)
    case VArr(_) => None
    case VUpload(_, _) => None
  }

  /** Where `store('uploads', 'public')` puts the `n`-th upload. The random
      name of the framework is modelled by the upload counter. */
  function UploadPath(n: nat, ext: string): (path: string)
    ensures StartsWith(path, "uploads/")
  {
    "uploads/" + NatToString(n) + "." + ext
  }

  /** Stores an uploaded file on the public disk under a fresh path. */
  function StoreUpload(db: Db, file: Val): (r: (Db, string))
    requires file.VUpload?
    ensures r.0 == db.(disk := db.disk + {r.1}, uploads := db.uploads + 1)
    ensures r.1 == UploadPath(db.uploads, file.ext)
  {
    var path := UploadPath(db.uploads, file.ext);
    (db.(disk := db.disk + {path}, uploads := db.uploads + 1), path)
  }

  /** Two different uploads never share a path. */
  lemma UploadPathsDiffer(m: nat, n: nat, e: string, f: string)
    ensures UploadPath(m, e) == UploadPath(n, f) ==> m == n
  {
    var a, b := NatToString(m), NatToString(n);
    var x, y := UploadPath(m, e), UploadPath(n, f);
    if x == y {
      var u, v := x[8..], y[8..];
      assert u == a + "." + e && v == b + "." + f;
      DotAfterDigits(a, e);
      DotAfterDigits(b, f);
      assert a == u[..|a|] == v[..|b|] == b;
      NatToStringInjective(m, n);
    }
  }

  /** The first `.` after a run of digits ends the run. */
  lemma DotAfterDigits(a: string, e: string)
    requires AllDigits(a)
    ensures IndexOf(a + "." + e, '.') == |a|
  {
    var s := a + "." + e;
    assert s[|a|] == '.';
    assert forall k :: 0 <= k < |a| ==> s[k] == a[k] && IsDigit(a[k]);
    assert '.' !in s[..|a|] by {
      assert s[..|a|] == a;
    }
  }

  /** Trimming cuts a slice, so it adds no character. */
  lemma TrimAddsNothing(p: string, c: char, b: Blanks)
    requires c !in p
    ensures c !in Trim(p, b)
  {
    var i, j := TrimSlice(p, b);
  }

  /** The `image_url` a chosen path gives: `'/storage/' . path` when the path
      is truthy, else null. */
  function StorageUrl(path: string): (v: Val)
    ensures Truthy(VStr(path)) ==> v == VStr("/storage/" + path)
    ensures !Truthy(VStr(path)) ==> v == VNull
  {
    if path != "" && path != "0" then VStr("/storage/" + path) else VNull
  }

  /** The attributes `store` passes to `Product::create`: every fillable
      attribute, `image_url` the chosen URL and the others the request's. */
  function NewAttributes(input: Input, imageUrl: Val): map<string, Val> {
    map k | k in Fillable :: if k == "image_url" then imageUrl else RequestValue(input, k)
  }

  /** Whether `ltrim` meets a value it cannot take as text. */
  predicate ImageUrlUnusable(input: Input, floatText: FloatText) {
    var given := InputValue(input, "image_url");
    !HasImage(input) && Truthy(given) && PhpText(given, floatText).None?
  }

  /** The image path `store` chooses, and the disk after it: an uploaded
      file is stored twice and the second path kept; otherwise a truthy
      `image_url` without its leading slashes; otherwise the empty path. */
  function StoreImage(db: Db, input: Input, floatText: FloatText): (r: (Db, string))
    requires !ImageUrlUnusable(input, floatText)
    ensures r.0 == db.(disk := r.0.disk, uploads := r.0.uploads)
  {
    var given := InputValue(input, "image_url");
    if HasImage(input) then
      var (first, _) := StoreUpload(db, input["image"]);
      StoreUpload(first, input["image"])
    else if Truthy(given) then (db, LTrimChar(PhpText(given, floatText).value, '/'))
    else (db, "")
  }

  /** Whether the request's prices survive the `decimal:2` cast the new
      product goes through when it is written and sent back. A blank text
      passes the `numeric` rule, which the validator skips for it, and fails
      here. */
  predicate PricesCast(input: Input) {
    DecimalCast(RequestValue(input, "price")).Some? &&
    DecimalCast(RequestValue(input, "original_price")).Some?
  }

  /** The new product's decimal attributes are the request's prices. */
  lemma NewProductCasts(input: Input, imageUrl: Val)
    ensures DecimalsCast(Fill(map[], NewAttributes(input, imageUrl))) <==> PricesCast(input)
  {
    var attrs := Fill(map[], NewAttributes(input, imageUrl));
    assert attrs["price"] == RequestValue(input, "price");
    assert attrs["original_price"] == RequestValue(input, "original_price");
    DecimalsCastOf(attrs);
  }

  /** `store`. An uploaded image takes precedence over a given `image_url`;
      the product's `image_url` is `'/storage/' . path` when the chosen path
      is truthy, else null. `about_product` is stored as it came. A price the
      decimal cast rejects ends the request with 500 after the image is
      stored, and no row is added. */
  function Store(db: Db, input: Input, floatText: FloatText): (r: (Db, Response))
    ensures r.1.status in {201, 422, 500}
    ensures r.1.status == 422 <==> !AllPass(StoreRules, input, NoEmail)
    ensures r.1.status == 500 <==>
              AllPass(StoreRules, input, NoEmail) && (ImageUrlUnusable(input, floatText) || !PricesCast(input))
    ensures r.1.status == 422 || ImageUrlUnusable(input, floatText) ==> r.0 == db
    ensures r.1.status != 201 ==>
              r.0 == db.(disk := r.0.disk, uploads := r.0.uploads) && db.disk <= r.0.disk
    ensures r.1.status == 422 ==> r.1.body.Invalid? && |r.1.body.fields| > 0
    ensures r.1.status == 201 ==>
              var id := db.nextProductId;
              r.1.body.ProductBody? && r.1.body.product.id == id &&
              Serialize(r.1.body.product).Some? &&
              r.0 == db.(products := db.products[id := r.1.body.product], nextProductId := id + 1,
                         disk := r.0.disk, uploads := r.0.uploads)
  {
    var failed := Failures(StoreRules, input, NoEmail);
    NoFailuresIffAllPass(StoreRules, input, NoEmail);
    if |failed| > 0 then (db, Response(422, Invalid(failed)))
    else if ImageUrlUnusable(input, floatText) then (db, Response(500, ServerError))
    else
      var (stored, path) := StoreImage(db, input, floatText);
      var id := db.nextProductId;
      var product := Product(id, Fill(map[], NewAttributes(input, StorageUrl(path))));
      NewProductCasts(input, StorageUrl(path));
      if !PricesCast(input) then (stored, Response(500, ServerError))
      else
        var saved := stored.(products := stored.products[id := product], nextProductId := id + 1);
        assert saved == db.(products := db.products[id := product], nextProductId := id + 1,
                            disk := saved.disk, uploads := saved.uploads);
        (saved, Response(201, ProductBody(product)))
  }

  /** A stored product's attribute, or null. */
  function Attribute(p: Product, key: string): Val {
    if key in p.attrs then p.attrs[key] else VNull
  }

  /** With an uploaded image, `store` writes the file twice under two
      different paths and the product names the second; the first copy is
      left on the disk with nothing referring to it. */
  lemma StoreWithUpload(db: Db, input: Input, floatText: FloatText)
    requires AllPass(StoreRules, input, NoEmail) && HasImage(input) && PricesCast(input)
    ensures var r := Store(db, input, floatText);
            var first := UploadPath(db.uploads, input["image"].ext);
            var second := UploadPath(db.uploads + 1, input["image"].ext);
            r.1.status == 201 && first != second &&
            r.0.disk == db.disk + {first, second} &&
            Attribute(r.1.body.product, "image_url") == VStr("/storage/" + second)
  {
    var first := UploadPath(db.uploads, input["image"].ext);
    var second := UploadPath(db.uploads + 1, input["image"].ext);
    UploadPathsDiffer(db.uploads, db.uploads + 1, input["image"].ext, input["image"].ext);
    var (stored, path) := StoreImage(db, input, floatText);
    assert path == second && stored.disk == db.disk + {first, second};
    StoreProduct(db, input, floatText);
    assert StorageUrl(second) == VStr("/storage/" + second) by {
      assert second[0] == 'u';
    }
    NewImageUrl(input, StorageUrl(second));
  }

  /** Without an upload, a given `image_url` loses its leading slashes and
      gains the `/storage/` prefix, and nothing is written to the disk; with
      neither, the product has no image. */
  lemma StoreWithoutUpload(db: Db, input: Input, floatText: FloatText)
    requires AllPass(StoreRules, input, NoEmail) && !HasImage(input) && PricesCast(input)
    requires PhpText(InputValue(input, "image_url"), floatText).Some?
    ensures var r := Store(db, input, floatText);
            var given := InputValue(input, "image_url");
            r.1.status == 201 && r.0.disk == db.disk &&
            Attribute(r.1.body.product, "image_url") ==
              if Truthy(given) then StorageUrl(LTrimChar(PhpText(given, floatText).value, '/'))
              else VNull
  {
    var given := InputValue(input, "image_url");
    var path := if Truthy(given) then LTrimChar(PhpText(given, floatText).value, '/') else "";
    assert "image_url" in NewAttributes(input, StorageUrl(path)) && "image_url" in Fillable;
  }

  /** A URL that already carries the prefix gets it a second time:
      `/storage/a.png` is stored as `/storage/storage/a.png`. */
  lemma StoreUrlPrefixedTwice(db: Db, input: Input, floatText: FloatText, path: string)
    requires AllPass(StoreRules, input, NoEmail) && !HasImage(input) && PricesCast(input)
    requires InputValue(input, "image_url") == VStr("/storage/" + path)
    ensures Attribute(Store(db, input, floatText).1.body.product, "image_url") == VStr("/storage/storage/" + path)
  {
    var given := VStr("/storage/" + path);
    assert given.s[0] == '/';
    assert Truthy(given) && PhpText(given, floatText) == Some(given.s);
    StoreWithoutUpload(db, input, floatText);
    PrefixedUrlDoubled(path);
  }

  /** Stripping the leading slash and prefixing `/storage/` doubles a prefix
      a path already has. */
  lemma PrefixedUrlDoubled(path: string)
    ensures StorageUrl(LTrimChar("/storage/" + path, '/')) == VStr("/storage/storage/" + path)
  {
    var s := "/storage/" + path;
    var rest := "storage/" + path;
    assert s[0] == '/' && s[1..] == rest;
    assert rest[0] == 's';
    assert LTrimChar(s, '/') == rest;
    assert |rest| > 1 && Truthy(VStr(rest));
    assert "/storage/" + rest == "/storage/storage/" + path;
  }

  /** `store` keeps `about_product` exactly as it came: its split into a list
      is computed and then not used. */
  lemma StoreKeepsAboutProduct(db: Db, input: Input, floatText: FloatText)
    requires Store(db, input, floatText).1.status == 201
    ensures Attribute(Store(db, input, floatText).1.body.product, "about_product")
            == RequestValue(input, "about_product")
  {
    StoreCreated(db, input, floatText);
    var (stored, path) := StoreImage(db, input, floatText);
    StoreProduct(db, input, floatText);
    NewAboutProduct(input, StorageUrl(path));
  }

  /** `store` creates a product only for a request that passes validation,
      whose `image_url` `ltrim` can take, and whose prices cast. */
  lemma StoreCreated(db: Db, input: Input, floatText: FloatText)
    requires Store(db, input, floatText).1.status == 201
    ensures AllPass(StoreRules, input, NoEmail) && !ImageUrlUnusable(input, floatText) && PricesCast(input)
  {
  }

  /** The product `store` creates holds the request's attributes. */
  lemma StoreProduct(db: Db, input: Input, floatText: FloatText)
    requires AllPass(StoreRules, input, NoEmail) && !ImageUrlUnusable(input, floatText) && PricesCast(input)
    ensures var (stored, path) := StoreImage(db, input, floatText);
            Store(db, input, floatText).1.status == 201 &&
            Store(db, input, floatText).0.disk == stored.disk &&
            Store(db, input, floatText).1.body.product ==
              Product(db.nextProductId, Fill(map[], NewAttributes(input, StorageUrl(path))))
  {
    NoFailuresIffAllPass(StoreRules, input, NoEmail);
    var (stored, path) := StoreImage(db, input, floatText);
    NewProductCasts(input, StorageUrl(path));
  }

  /** The attributes given to `create` carry the chosen `image_url`. */
  lemma NewImageUrl(input: Input, imageUrl: Val)
    ensures Attribute(Product(0, Fill(map[], NewAttributes(input, imageUrl))), "image_url") == imageUrl
  {
    assert "image_url" in NewAttributes(input, imageUrl) && "image_url" in Fillable;
  }

  /** The attributes given to `create` carry `about_product` as it came. */
  lemma NewAboutProduct(input: Input, imageUrl: Val)
    ensures Attribute(Product(0, Fill(map[], NewAttributes(input, imageUrl))), "about_product")
            == RequestValue(input, "about_product")
  {
    var attrs := NewAttributes(input, imageUrl);
    assert "about_product" in attrs && "about_product" in Fillable;
  }

  /** A blank `original_price` passes validation but not the cast: the
      request fails with 500, and an uploaded image is still written twice. */
  lemma StoreBlankOriginalPrice(db: Db, input: Input, floatText: FloatText)
    requires AllPass(StoreRules, input, NoEmail) && HasImage(input)
    requires "original_price" in input && IsBlankString(input["original_price"])
    ensures var r := Store(db, input, floatText);
            r.1.status == 500 && r.0.products == db.products && r.0.nextProductId == db.nextProductId &&
            r.0.disk == db.disk + {UploadPath(db.uploads, input["image"].ext), UploadPath(db.uploads + 1, input["image"].ext)}
  {
    BlankNotCast(input["original_price"]);
  }

  /** A blank text is not numeric, so the decimal cast rejects it. */
  lemma BlankNotCast(v: Val)
    requires IsBlankString(v)
    ensures DecimalCast(v).None?
  {
    BlankNotNumeric(v.s);
  }

  /** `store` keeps the invariant. */
  lemma StoreKeepsValid(db: Db, input: Input, floatText: FloatText)
    requires Valid(db)
    ensures Valid(Store(db, input, floatText).0)
  {
    if Store(db, input, floatText).1.status == 201 {
      StoreCreatedKeepsValid(db, input, floatText);
    } else {
      StoreRefusedKeepsValid(db, input, floatText);
    }
  }

  /** A created product keeps the invariant. */
  lemma StoreCreatedKeepsValid(db: Db, input: Input, floatText: FloatText)
    requires Valid(db) && Store(db, input, floatText).1.status == 201
    ensures Valid(Store(db, input, floatText).0)
  {
    var r := Store(db, input, floatText);
    assert DecimalsCast(r.1.body.product.attrs);
    AddProductKeepsValid(db, r.0, r.1.body.product);
  }

  /** A refused `store` touches at most the disk, which keeps the invariant. */
  lemma StoreRefusedKeepsValid(db: Db, input: Input, floatText: FloatText)
    requires Valid(db) && Store(db, input, floatText).1.status != 201
    ensures Valid(Store(db, input, floatText).0)
  {
    DiskChangeKeepsValid(db, Store(db, input, floatText).0);
  }

  /** A change confined to the disk and the upload counter keeps the
      invariant. */
  lemma DiskChangeKeepsValid(db: Db, changed: Db)
    requires Valid(db) && changed == db.(disk := changed.disk, uploads := changed.uploads)
    ensures Valid(changed)
  {
    assert changed.products == db.products && changed.nextProductId == db.nextProductId;
    ProductsChangeKeepsValid(db, changed);
  }

  /** Adding one castable product under the next id keeps the invariant. */
  lemma AddProductKeepsValid(db: Db, changed: Db, product: Product)
    requires Valid(db) && product.id == db.nextProductId && DecimalsCast(product.attrs)
    requires changed == db.(products := db.products[product.id := product], nextProductId := product.id + 1,
                            disk := changed.disk, uploads := changed.uploads)
    ensures Valid(changed)
  {
    var id := product.id;
    assert forall k :: k in changed.products ==> k == id || (k in db.products && changed.products[k] == db.products[k]);
    assert ProductsKeyed(changed);
    assert ProductsCast(changed);
    ProductsChangeKeepsValid(db, changed);
  }

  /** A change confined to the products and the disk keeps the invariant
      when the products stay keyed. */
  lemma ProductsChangeKeepsValid(db: Db, changed: Db)
    requires Valid(db) && ProductsKeyed(changed) && ProductsCast(changed)
    requires changed.orders == db.orders && changed.items == db.items
    requires changed.nextOrderId == db.nextOrderId && changed.nextItemId == db.nextItemId
    ensures Valid(changed)
  {
    assert OrderIdsOk(changed) && ItemIdsOk(changed) && ItemsBelong(changed) && TotalsMatch(changed);
  }

  /** The stored product a route segment names, if any. */
  function ProductAt(db: Db, segment: string): (r: Option<int>)
    ensures r.Some? ==> r.value in db.products
  {
    var key := RouteKey(segment);
    if key.Some? && key.value in db.products then key else None
  }

  /** `show`. Answering with the product applies its casts, so a row whose
      decimal attributes do not cast ends with 500. */
  function Show(db: Db, segment: string): (r: Response)
    ensures r.status in {200, 404, 500}
    ensures r.status == 404 <==> ProductAt(db, segment).None?
    ensures r.status == 404 ==> r.body == Message("Product not found")
    ensures r.status == 500 <==>
              ProductAt(db, segment).Some? && Serialize(db.products[ProductAt(db, segment).value]).None?
    ensures r.status == 200 ==>
              r.body == ProductBody(db.products[ProductAt(db, segment).value]) && Serialize(r.body.product).Some?
  {
    var at := ProductAt(db, segment);
    if at.None? then Response(404, Message("Product not found"))
    else if Serialize(db.products[at.value]).None? then Response(500, ServerError)
    else Response(200, ProductBody(db.products[at.value]))
  }

  /** On a database the endpoints have kept valid, every stored product can be
      shown. */
  lemma ShowOfValid(db: Db, segment: string)
    requires Valid(db) && ProductAt(db, segment).Some?
    ensures Show(db, segment).status == 200
  {
    var id := ProductAt(db, segment).value;
    assert DecimalsCast(db.products[id].attrs);
  }

  /** The list `array_map('trim', explode(',', s))` gives: one trimmed piece
      per comma-separated part. */
  function AboutList(s: string): (v: Val)
    ensures v.VArr? && |v.entries| == multiset(s)[','] + 1
    ensures forall k :: 0 <= k < |v.entries| ==>
              v.entries[k].0 == NatToString(k) && v.entries[k].1.VStr? &&
              IsTrimmed(v.entries[k].1.s, PhpBlanks) && ',' !in v.entries[k].1.s
  {
    var pieces := Split(s, ',');
    assert forall k :: 0 <= k < |pieces| ==> ',' !in Trim(pieces[k], PhpBlanks) by {
      forall k | 0 <= k < |pieces|
        ensures ',' !in Trim(pieces[k], PhpBlanks)
      {
        TrimAddsNothing(pieces[k], ',', PhpBlanks);
      }
    }
    VArr(seq(|pieces|, k requires 0 <= k < |pieces| =>
                          (NatToString(k), VStr(Trim(pieces[k], PhpBlanks)))))
  }

  /** The only string `about_product` the update rules let through is blank,
      and it becomes a list holding one empty string. */
  lemma AboutListOfBlank(s: string)
    requires IsBlankString(VStr(s))
    ensures AboutList(s) == VArr([("0", VStr(""))])
  {
    assert ',' !in s by {
      if ',' in s {
        var i :| 0 <= i < |s| && s[i] == ',';
        var i0, j0 := TrimSlice(s, PhpBlanks);
      }
    }
    assert Split(s, ',') == [s];
    assert NatToString(0) == "0";
  }

  /** `update`'s `about_product` branch only ever sees a blank string. */
  lemma UpdateAboutIsBlank(input: Input)
    requires AllPass(UpdateRules, input, NoEmail)
    requires "about_product" in input && input["about_product"].VStr?
    ensures IsBlankString(input["about_product"])
  {
    var ar := UpdateRules[5];
    assert AttributeRulesPass(ar, input, NoEmail);
    assert RulePasses(IsArray, ar.rules, Some(input["about_product"]), NoEmail);
  }

  /** The disk after the old image of a product is removed: `image_url`
      without every `/storage/`, deleted when it is there. */
  function DropImage(disk: set<string>, imageUrl: Val, floatText: FloatText): (r: set<string>)
    requires !Truthy(imageUrl) || PhpText(imageUrl, floatText).Some?
    ensures r <= disk
    ensures Truthy(imageUrl) ==> r == disk - {RemoveAll(PhpText(imageUrl, floatText).value, "/storage/")}
    ensures !Truthy(imageUrl) ==> r == disk
  {
    if Truthy(imageUrl) then disk - {RemoveAll(PhpText(imageUrl, floatText).value, "/storage/")}
    else disk
  }

  /** Whether the old `image_url` is a value the string functions reject. */
  predicate OldImageUnusable(p: Product, floatText: FloatText) {
    var current := Attribute(p, "image_url");
    Truthy(current) && PhpText(current, floatText).None?
  }

  /** The update data after the image step: a new upload replaces the old
      file and sets `image_url` to `'/storage/' . path`; otherwise a given
      `image_url` is written as it came, with no prefix. */
  function UpdateImage(db: Db, p: Product, input: Input, floatText: FloatText): (r: (Db, Input))
    requires HasImage(input) ==> !OldImageUnusable(p, floatText)
    ensures r.0 == db.(disk := r.0.disk, uploads := r.0.uploads)
    ensures HasImage(input) ==>
              var path := UploadPath(db.uploads, input["image"].ext);
              r.0.disk == DropImage(db.disk, Attribute(p, "image_url"), floatText) + {path} &&
              r.1 == input["image_url" := VStr("/storage/" + path)]
    ensures !HasImage(input) ==>
              r.0 == db &&
              r.1 == if "image_url" in input then input["image_url" := InputValue(input, "image_url")] else input
  {
    if HasImage(input) then
      var cleaned := db.(disk := DropImage(db.disk, Attribute(p, "image_url"), floatText));
      var (stored, path) := StoreUpload(cleaned, input["image"]);
      (stored, input["image_url" := VStr("/storage/" + path)])
    else if "image_url" in input then (db, input["image_url" := InputValue(input, "image_url")])
    else (db, input)
  }

  /** The `about_product` step: a string becomes its trimmed comma pieces. */
  function NormaliseAbout(data: Input): (r: Input)
    ensures "about_product" in data && data["about_product"].VStr? ==>
              r == data["about_product" := AboutList(data["about_product"].s)]
    ensures !("about_product" in data && data["about_product"].VStr?) ==> r == data
  {
    if "about_product" in data && data["about_product"].VStr? then
      data["about_product" := AboutList(data["about_product"].s)]
    else data
  }

  /** The image and `about_product` steps leave the prices of the request
      alone, so the written product's prices are the request's over the
      stored ones. */
  lemma StepsKeepPrices(db: Db, p: Product, input: Input, floatText: FloatText)
    requires HasImage(input) ==> !OldImageUnusable(p, floatText)
    ensures DecimalsCast(Fill(p.attrs, NormaliseAbout(UpdateImage(db, p, input, floatText).1)))
            <==> DecimalsCast(Fill(p.attrs, input))
  {
    var data := NormaliseAbout(UpdateImage(db, p, input, floatText).1);
    var a, b := Fill(p.attrs, data), Fill(p.attrs, input);
    assert ("price" in a <==> "price" in b) && ("price" in a ==> a["price"] == b["price"]);
    assert ("original_price" in a <==> "original_price" in b) &&
           ("original_price" in a ==> a["original_price"] == b["original_price"]);
    DecimalsCastOf(a);
    DecimalsCastOf(b);
  }

  /** `update`. An unknown id is answered with 404 before validation; a
      failed validation with 422. Otherwise the image and `about_product`
      steps run and the whole request, minus the keys mass assignment
      guards, is written over the product. When the prices written do not
      survive the decimal cast the request ends with 500 after the image
      step: the row stays as it was and the disk keeps the image step's
      changes. */
  function Update(db: Db, segment: string, input: Input, floatText: FloatText): (r: (Db, Response))
    ensures r.1.status in {200, 404, 422, 500}
    ensures r.1.status == 404 <==> ProductAt(db, segment).None?
    ensures r.1.status == 404 ==> r.1.body == Message("Product not found")
    ensures r.1.status == 422 <==> ProductAt(db, segment).Some? && !AllPass(UpdateRules, input, NoEmail)
    ensures r.1.status == 500 <==>
              ProductAt(db, segment).Some? && AllPass(UpdateRules, input, NoEmail) &&
              var p := db.products[ProductAt(db, segment).value];
              (HasImage(input) && OldImageUnusable(p, floatText)) || !DecimalsCast(Fill(p.attrs, input))
    ensures r.1.status != 200 ==> r.0.products == db.products && r.0 == db.(disk := r.0.disk, uploads := r.0.uploads)
    ensures r.1.status in {404, 422} ==> r.0 == db
    ensures r.1.status == 500 ==>
              var p := db.products[ProductAt(db, segment).value];
              if HasImage(input) && OldImageUnusable(p, floatText) then r.0 == db
              else r.0 == UpdateImage(db, p, input, floatText).0
    ensures r.1.status == 200 ==>
              var id := ProductAt(db, segment).value;
              var p := db.products[id];
              var (stored, data) := UpdateImage(db, p, input, floatText);
              r.1.body == ProductBody(Product(id, Fill(p.attrs, NormaliseAbout(data)))) &&
              Serialize(r.1.body.product).Some? &&
              r.0 == stored.(products := db.products[id := r.1.body.product])
  {
    var at := ProductAt(db, segment);
    if at.None? then (db, Response(404, Message("Product not found")))
    else
      var id := at.value;
      var p := db.products[id];
      var failed := Failures(UpdateRules, input, NoEmail);
      NoFailuresIffAllPass(UpdateRules, input, NoEmail);
      if |failed| > 0 then (db, Response(422, Invalid(failed)))
      else if HasImage(input) && OldImageUnusable(p, floatText) then (db, Response(500, ServerError))
      else
        var (stored, data) := UpdateImage(db, p, input, floatText);
        var updated := Product(id, Fill(p.attrs, NormaliseAbout(data)));
        StepsKeepPrices(db, p, input, floatText);
        if !DecimalsCast(Fill(p.attrs, input)) then (stored, Response(500, ServerError))
        else (stored.(products := db.products[id := updated]), Response(200, ProductBody(updated)))
  }

  /** A blank `price` passes the `sometimes|numeric` rule, which the validator
      skips for it, and then fails the decimal cast: the update ends with 500
      and the product is unchanged. */
  lemma UpdateBlankPrice(db: Db, segment: string, input: Input, floatText: FloatText)
    requires ProductAt(db, segment).Some? && AllPass(UpdateRules, input, NoEmail)
    requires "price" in input && IsBlankString(input["price"])
    ensures var r := Update(db, segment, input, floatText);
            r.1.status == 500 && r.0.products == db.products
  {
    var p := db.products[ProductAt(db, segment).value];
    BlankNotCast(input["price"]);
    assert Fill(p.attrs, input)["price"] == input["price"];
    DecimalsCastOf(Fill(p.attrs, input));
  }

  /** `update` keeps the invariant. */
  lemma UpdateKeepsValid(db: Db, segment: string, input: Input, floatText: FloatText)
    requires Valid(db)
    ensures Valid(Update(db, segment, input, floatText).0)
  {
    var r := Update(db, segment, input, floatText);
    if r.1.status == 200 {
      assert ProductsKeyed(r.0);
      ProductsChangeKeepsValid(db, r.0);
    }
  }

  /** An update never changes a product's id or the set of products. */
  lemma UpdateKeepsProductSet(db: Db, segment: string, input: Input, floatText: FloatText)
    requires ProductsKeyed(db)
    ensures var r := Update(db, segment, input, floatText);
            r.0.products.Keys == db.products.Keys &&
            forall id :: id in r.0.products ==> r.0.products[id].id == id
  {
  }

  /** `destroy`. An unknown id is answered with 404; otherwise the product is
      deleted whether or not its image file is on the disk, after the file,
      if there, is removed. */
  function Destroy(db: Db, segment: string, floatText: FloatText): (r: (Db, Response))
    ensures r.1.status in {200, 404, 500}
    ensures r.1.status == 404 <==> ProductAt(db, segment).None?
    ensures r.1.status == 404 ==> r.1.body == Message("Product not found")
    ensures r.1.status == 500 <==>
              ProductAt(db, segment).Some? && OldImageUnusable(db.products[ProductAt(db, segment).value], floatText)
    ensures r.1.status != 200 ==> r.0 == db
    ensures r.1.status == 200 ==>
              var id := ProductAt(db, segment).value;
              r.1.body == Message("Product deleted successfully") &&
              r.0 == db.(products := db.products - {id},
                         disk := DropImage(db.disk, Attribute(db.products[id], "image_url"), floatText))
  {
    var at := ProductAt(db, segment);
    if at.None? then (db, Response(404, Message("Product not found")))
    else
      var id := at.value;
      var p := db.products[id];
      if OldImageUnusable(p, floatText) then (db, Response(500, ServerError))
      else
        var disk := DropImage(db.disk, Attribute(p, "image_url"), floatText);
        (db.(products := db.products - {id}, disk := disk), Response(200, Message("Product deleted successfully")))
  }

  /** `destroy` keeps the invariant, and the product's order items remain. */
  lemma DestroyKeepsValid(db: Db, segment: string, floatText: FloatText)
    requires Valid(db)
    ensures Valid(Destroy(db, segment, floatText).0)
    ensures Destroy(db, segment, floatText).0.items == db.items
  {
    var r := Destroy(db, segment, floatText);
    if r.1.status == 200 {
      assert ProductsKeyed(r.0);
      ProductsChangeKeepsValid(db, r.0);
    }
  }

  /** After a `destroy` the id is gone: `show`, `update` and `destroy` on it
      answer 404. */
  lemma DestroyThenMissing(db: Db, segment: string, floatText: FloatText)
    requires Destroy(db, segment, floatText).1.status == 200
    ensures var gone := Destroy(db, segment, floatText).0;
            Show(gone, segment).status == 404 && Destroy(gone, segment, floatText).1.status == 404
  {
  }

  /** The `_method` field a form sends to tunnel `PUT` through `POST` is not
      validated and not mass assignable, so `update` acts as if it were not
      there. */
  lemma UpdateIgnoresMethod(db: Db, segment: string, input: Input, floatText: FloatText)
    ensures Update(db, segment, input, floatText) == Update(db, segment, input - {"_method"}, floatText)
  {
    var stripped := input - {"_method"};
    UpdateRulesIgnoreMethod(input);
    var at := ProductAt(db, segment);
    if at.None? {
    } else if !AllPass(UpdateRules, input, NoEmail) {
      UpdateInvalidIgnoresMethod(db, segment, input, floatText);
    } else if HasImage(input) && OldImageUnusable(db.products[at.value], floatText) {
      assert HasImage(stripped);
    } else {
      UpdateAppliedIgnoresMethod(db, segment, input, floatText);
    }
  }

  /** No update rule reads `_method`. */
  lemma UpdateRulesIgnoreMethod(input: Input)
    ensures Failures(UpdateRules, input - {"_method"}, NoEmail) == Failures(UpdateRules, input, NoEmail)
    ensures AllPass(UpdateRules, input - {"_method"}, NoEmail) <==> AllPass(UpdateRules, input, NoEmail)
  {
    assert forall i :: 0 <= i < |UpdateRules| ==> !Reads(UpdateRules[i], "_method");
    FailuresIgnoreKey(UpdateRules, input, "_method", NoEmail);
    NoFailuresIffAllPass(UpdateRules, input, NoEmail);
    NoFailuresIffAllPass(UpdateRules, input - {"_method"}, NoEmail);
  }

  /** The same, for an update that fails validation. */
  lemma UpdateInvalidIgnoresMethod(db: Db, segment: string, input: Input, floatText: FloatText)
    requires ProductAt(db, segment).Some? && !AllPass(UpdateRules, input, NoEmail)
    ensures Update(db, segment, input, floatText) == Update(db, segment, input - {"_method"}, floatText)
  {
    UpdateRulesIgnoreMethod(input);
    NoFailuresIffAllPass(UpdateRules, input, NoEmail);
    assert Update(db, segment, input, floatText) == (db, Response(422, Invalid(Failures(UpdateRules, input, NoEmail))));
  }

  /** The same, for an update that passes validation and the image step. */
  lemma UpdateAppliedIgnoresMethod(db: Db, segment: string, input: Input, floatText: FloatText)
    requires ProductAt(db, segment).Some?
    requires AllPass(UpdateRules, input, NoEmail) && AllPass(UpdateRules, input - {"_method"}, NoEmail)
    requires !(HasImage(input) && OldImageUnusable(db.products[ProductAt(db, segment).value], floatText))
    ensures Update(db, segment, input, floatText) == Update(db, segment, input - {"_method"}, floatText)
  {
    var id := ProductAt(db, segment).value;
    var p := db.products[id];
    UpdateStepsIgnoreMethod(db, p, input, floatText);
    FillIgnoresGuarded(p.attrs, input, "_method");
    var (stored, data) := UpdateImage(db, p, input, floatText);
    var updated := Product(id, Fill(p.attrs, NormaliseAbout(data)));
    if DecimalsCast(Fill(p.attrs, input)) {
      assert Update(db, segment, input, floatText) ==
             (stored.(products := db.products[id := updated]), Response(200, ProductBody(updated)));
    } else {
      assert Update(db, segment, input, floatText) == (stored, Response(500, ServerError));
    }
  }

  /** The image and `about_product` steps carry `_method` through untouched
      and do not look at it. */
  lemma UpdateStepsIgnoreMethod(db: Db, p: Product, input: Input, floatText: FloatText)
    requires HasImage(input) ==> !OldImageUnusable(p, floatText)
    ensures var stripped := input - {"_method"};
            var (stored, data) := UpdateImage(db, p, input, floatText);
            var (stored', data') := UpdateImage(db, p, stripped, floatText);
            stored' == stored &&
            Fill(p.attrs, NormaliseAbout(data')) == Fill(p.attrs, NormaliseAbout(data))
  {
    var (stored, data) := UpdateImage(db, p, input, floatText);
    ImageStepIgnoresMethod(db, p, input, floatText);
    AboutStepIgnoresMethod(data);
    FillIgnoresGuarded(p.attrs, NormaliseAbout(data), "_method");
  }

  lemma ImageStepIgnoresMethod(db: Db, p: Product, input: Input, floatText: FloatText)
    requires HasImage(input) ==> !OldImageUnusable(p, floatText)
    ensures var (stored, data) := UpdateImage(db, p, input, floatText);
            UpdateImage(db, p, input - {"_method"}, floatText) == (stored, data - {"_method"})
  {
    var stripped := input - {"_method"};
    var (stored, data) := UpdateImage(db, p, input, floatText);
    var (stored', data') := UpdateImage(db, p, stripped, floatText);
    assert stored' == stored;
    assert data' == data - {"_method"};
  }

  lemma AboutStepIgnoresMethod(data: Input)
    ensures NormaliseAbout(data - {"_method"}) == NormaliseAbout(data) - {"_method"}
  {
  }
}

=== FILE: product_list.dfy ===
/** The seller's product dialog: opening it fills the form from a product
    (or blanks it for a new one), and submitting it turns the comma-separated
    feature text back into a list, checks the required fields and sends a
    create or an update. */
module ProductList {
  import opened Wrappers
  import opened Strings
  import opened Seqs
  import opened JsValues
  import Api

  const RequiredMessage: string := "Name, category, and price are required fields"

  /** The separator the feature list is shown with in the form. */
  const AboutSeparator: string := ", "

  const FormNames: seq<string> :=
    ["category", "name", "rating", "price", "original_price", "about_product", "description", "stock", "image"]

  lemma FormNamesDistinct()
    ensures DistinctNames(FormNames)
  {
  }

  /** The form for a new product: every text field empty, no image. */
  function EmptyForm(): (r: JsVal)
    ensures r.JObj? && |r.fields| == |FormNames|
    ensures forall k :: 0 <= k < |FormNames| - 1 ==> Get(r.fields, FormNames[k]) == JStr("")
    ensures Get(r.fields, "image") == Null
  {
    FormNamesDistinct();
    var values := [JStr(""), JStr(""), JStr(""), JStr(""), JStr(""), JStr(""), JStr(""), JStr(""), Null];
    var r := ObjectLiteral(FormNames, values);
    assert Get(r.fields, FormNames[8]) == values[8];
    r
  }

  /** The feature text the form shows: an array is joined with `, `, any
      other value is kept when truthy and replaced by `''` otherwise. */
  function AboutText(about: JsVal, numText: NumText): (r: JsVal)
    ensures about.JArr? ==> r.JStr?
    ensures !about.JArr? && Truthy(about) ==> r == about
    ensures !Truthy(about) ==> r == JStr("")
  {
    if about.JArr? then JStr(JoinItems(about.items, AboutSeparator, numText)) else Or(about, JStr(""))
  }

  /** `handleOpen(product)`: the product being edited and the form. A truthy
      product is copied into the form with its feature text and without an
      image; anything else opens the blank form with nothing being edited. */
  function OpenForm(product: JsVal, numText: NumText): (r: (JsVal, JsVal))
    ensures !Truthy(product) ==> r == (Null, EmptyForm())
    ensures Truthy(product) ==> r.0 == product && r.1.JObj?
    ensures Truthy(product) ==> Get(r.1.fields, "image") == Null
    ensures Truthy(product) ==> Get(r.1.fields, "about_product") == AboutText(Field(product, "about_product"), numText)
    ensures Truthy(product) ==> forall key :: key != "about_product" && key != "image" ==>
              Get(r.1.fields, key) == Field(product, key)
  {
    if Truthy(product) then
      var about := AboutText(Field(product, "about_product"), numText);
      (product, JObj(Put(Put(Spread(product), "about_product", about), "image", Null)))
    else (Null, EmptyForm())
  }

  /** Every piece trimmed, in order. */
  function TrimAll(pieces: seq<string>): (r: seq<string>)
    ensures |r| == |pieces|
    ensures forall i :: 0 <= i < |pieces| ==> r[i] == Trim(pieces[i], JsBlanks)
  {
    seq(|pieces|, i requires 0 <= i < |pieces| => Trim(pieces[i], JsBlanks))
  }

  predicate NonEmpty(s: string) {
    s != ""
  }

  /** A feature the list can hold so that it survives being shown and read
      back: not empty, no blanks at either end, no comma. */
  predicate CleanFeature(s: string) {
    s != "" && IsTrimmed(s, JsBlanks) && ',' !in s
  }

  /** `s.split(',').map(s => s.trim()).filter(Boolean)`: the features typed
      into the form. */
  function AboutPieces(s: string): (r: seq<string>)
    ensures forall x :: x in r ==> CleanFeature(x)
  {
    var trimmed := TrimAll(Split(s, ','));
    var r := Filter(trimmed, NonEmpty);
    assert forall x :: x in r ==> CleanFeature(x) by {
      forall x | x in r
        ensures CleanFeature(x)
      {
        var i :| 0 <= i < |trimmed| && trimmed[i] == x;
        var piece := Split(s, ',')[i];
        var lo, hi := TrimSlice(piece, JsBlanks);
        assert x == piece[lo..hi];
        assert ',' !in piece;
      }
    }
    r
  }

  /** Blank feature text gives no features. */
  lemma AboutOfEmpty()
    ensures AboutPieces("") == []
  {
    assert Split("", ',') == [""];
    assert TrimAll([""]) == [""];
  }

  /** Trimming the pieces of a `, `-joined list of clean features gives the
      features back. */
  lemma TrimPadded(xs: seq<string>)
    requires |xs| > 0
    requires forall i :: 0 <= i < |xs| ==> CleanFeature(xs[i])
    ensures TrimAll([xs[0]] + PadAll(xs[1..], " ")) == xs
  {
    var pieces := [xs[0]] + PadAll(xs[1..], " ");
    forall i | 0 <= i < |xs|
      ensures Trim(pieces[i], JsBlanks) == xs[i]
    {
      TrimOfTrimmed(xs[i], JsBlanks);
      if i > 0 {
        assert pieces[i] == " " + xs[i];
        TrimBlankPrefix(" ", xs[i], JsBlanks);
      }
    }
  }

  /** A `, `-joined list of comma-free features splits at the commas into
      the first feature and the others, each behind its blank. */
  lemma SplitShown(xs: seq<string>)
    requires |xs| > 0
    requires forall i :: 0 <= i < |xs| ==> ',' !in xs[i]
    ensures Split(Join(xs, AboutSeparator), ',') == [xs[0]] + PadAll(xs[1..], " ")
  {
    assert AboutSeparator == [','] + " ";
    SplitJoinPadded(xs, ',', " ");
  }

  /** A feature list shown joined with `, ` and read back from the form is
      the list itself, as long as every feature is clean. */
  lemma AboutRoundTrip(xs: seq<string>)
    requires forall i :: 0 <= i < |xs| ==> CleanFeature(xs[i])
    ensures AboutPieces(Join(xs, AboutSeparator)) == xs
  {
    if |xs| == 0 {
      AboutOfEmpty();
    } else {
      var joined := Join(xs, AboutSeparator);
      SplitShown(xs);
      TrimPadded(xs);
      FilterAll(xs, NonEmpty);
      assert AboutPieces(joined) == Filter(TrimAll(Split(joined, ',')), NonEmpty);
    }
  }

  /** The feature list as submitted: text is cut into features, any other
      value is kept when truthy and replaced by `[]` otherwise. */
  function SubmitAbout(about: JsVal): (r: JsVal)
    ensures about.JStr? ==> r.JArr? && forall k :: 0 <= k < |r.items| ==> r.items[k].JStr? && CleanFeature(r.items[k].s)
    ensures !about.JStr? && Truthy(about) ==> r == about
    ensures !about.JStr? && !Truthy(about) ==> r == JArr([])
  {
    if about.JStr? then
      var pieces := AboutPieces(about.s);
      assert forall k :: 0 <= k < |pieces| ==> pieces[k] in pieces;
      JArr(Strs(pieces))
    else Or(about, JArr([]))
  }

  /** The object `handleSubmit` sends: the form with its feature list
      converted. */
  function SubmitData(form: JsVal): (r: JsVal)
    ensures r.JObj?
    ensures Get(r.fields, "about_product") == SubmitAbout(Field(form, "about_product"))
    ensures forall key :: key != "about_product" ==> Get(r.fields, key) == Field(form, key)
  {
    JObj(Put(Spread(form), "about_product", SubmitAbout(Field(form, "about_product"))))
  }

  /** Converting the feature list leaves every other property as it was. */
  lemma DataKeeps(form: JsVal, key: string)
    requires key != "about_product"
    ensures Field(SubmitData(form), key) == Field(form, key)
  {
  }

  /** What submitting the dialog leads to. */
  datatype Dispatch = Refused(message: string) | Create(data: JsVal) | Update(id: JsVal, data: JsVal)

  /** `handleSubmit`: refused unless name, category and price are all
      truthy; otherwise an update of the product being edited, or a create
      when nothing is. */
  function Submit(form: JsVal, editing: JsVal): (r: Dispatch)
    ensures r.Refused? <==> (!Truthy(Field(form, "name")) || !Truthy(Field(form, "category")) ||
                             !Truthy(Field(form, "price")))
    ensures r.Refused? ==> r.message == RequiredMessage
    ensures r.Update? <==> !r.Refused? && Truthy(editing)
    ensures r.Update? ==> r.id == Field(editing, "id")
    ensures !r.Refused? ==> r.data.JObj? && Get(r.data.fields, "about_product") == SubmitAbout(Field(form, "about_product"))
    ensures !r.Refused? ==> forall key :: key != "about_product" ==> Get(r.data.fields, key) == Field(form, key)
  {
    var data := SubmitData(form);
    DataKeeps(form, "name");
    DataKeeps(form, "category");
    DataKeeps(form, "price");
    if !Truthy(Field(data, "name")) || !Truthy(Field(data, "category")) || !Truthy(Field(data, "price")) then
      Refused(RequiredMessage)
    else if Truthy(editing) then Update(Field(editing, "id"), data)
    else Create(data)
  }

  /** The request a submission makes, if any. */
  function Send(d: Dispatch, cookie: string, numText: NumText, stringify: JsVal -> string): (r: Option<Api.Sent>)
    ensures r.None? <==> d.Refused?
    ensures d.Create? ==> r == Some(Api.CreateProduct(cookie, d.data, numText, stringify))
    ensures d.Update? ==> r == Some(Api.UpdateProduct(cookie, d.id, d.data, numText, stringify))
  {
    match d
    case Refused(_) => None
    case Create(data) => Some(Api.CreateProduct(cookie, data, numText, stringify))
    case Update(id, data) => Some(Api.UpdateProduct(cookie, id, data, numText, stringify))
  }

  /** The blank form has no name. */
  lemma EmptyFormUnnamed()
    ensures !Truthy(Field(EmptyForm(), "name"))
  {
    var form := EmptyForm();
    assert Get(form.fields, FormNames[1]) == JStr("");
  }

  /** Opening the dialog for a new product and submitting it untouched is
      refused, so nothing is sent. */
  lemma EmptyFormRefused(numText: NumText)
    ensures var (editing, form) := OpenForm(Null, numText);
            Submit(form, editing) == Refused(RequiredMessage)
  {
    EmptyFormUnnamed();
  }

  /** A product's feature array is shown as its features joined with `, `. */
  lemma ShownAbout(product: JsVal, xs: seq<string>, numText: NumText)
    requires product.JObj? && Get(product.fields, "about_product") == JArr(Strs(xs))
    ensures Field(OpenForm(product, numText).1, "about_product") == JStr(Join(xs, AboutSeparator))
  {
    JoinStrs(xs, AboutSeparator, numText);
  }

  /** The form keeps every property of the product but the two it rewrites. */
  lemma FormKeeps(product: JsVal, key: string, numText: NumText)
    requires product.JObj? && key != "about_product" && key != "image"
    ensures Field(OpenForm(product, numText).1, key) == Get(product.fields, key)
  {
  }

  /** Opening a product whose features are clean and submitting without
      changes updates that product, with the same feature list and every
      other property as the product had it. */
  lemma ReopenResubmit(product: JsVal, xs: seq<string>, numText: NumText)
    requires product.JObj?
    requires Get(product.fields, "about_product") == JArr(Strs(xs))
    requires forall i :: 0 <= i < |xs| ==> CleanFeature(xs[i])
    requires Truthy(Get(product.fields, "name")) && Truthy(Get(product.fields, "category")) &&
             Truthy(Get(product.fields, "price"))
    ensures var (editing, form) := OpenForm(product, numText);
            var d := Submit(form, editing);
            d.Update? && d.id == Get(product.fields, "id") &&
            Get(d.data.fields, "about_product") == JArr(Strs(xs)) &&
            forall key :: key != "about_product" && key != "image" ==> Get(d.data.fields, key) == Get(product.fields, key)
  {
    var (editing, form) := OpenForm(product, numText);
    ShownAbout(product, xs, numText);
    AboutRoundTrip(xs);
    assert SubmitAbout(Field(form, "about_product")) == JArr(Strs(xs));
    FormKeeps(product, "name", numText);
    FormKeeps(product, "category", numText);
    FormKeeps(product, "price", numText);
    var d := Submit(form, editing);
    assert d.Update?;
    forall key | key != "about_product" && key != "image"
      ensures Get(d.data.fields, key) == Get(product.fields, key)
    {
      FormKeeps(product, key, numText);
    }
  }

  /** With a token, an accepted edit is posted to the product's own address
      with the method override last. */
  lemma EditIsPut(form: JsVal, editing: JsVal, cookie: string, numText: NumText, stringify: JsVal -> string)
    requires Truthy(editing) && Api.HasToken(cookie)
    requires Truthy(Field(form, "name")) && Truthy(Field(form, "category")) && Truthy(Field(form, "price"))
    ensures var sent := Send(Submit(form, editing), cookie, numText, stringify);
            sent.Some? && sent.value.Posted? &&
            sent.value.url == Api.ApiUrl + "/products/" + Text(Field(editing, "id"), numText) &&
            |sent.value.body| > 0 && sent.value.body[|sent.value.body| - 1] == ("_method", FText("PUT"))
  {
  }
}

=== FILE: product_model.dfy ===
/** The `Product` Eloquent model: which request keys mass assignment keeps,
    and how the `decimal:2` and `array` casts present the stored attributes. */
module ProductModel {
  import opened Wrappers
  import opened Strings
  import opened NumberText
  import opened PhpValues

  /** A product row: its primary key and its stored attributes. */
  datatype Product = Product(id: int, attrs: map<string, Val>)

  /** The mass-assignable attributes. */
  const Fillable: set<string> :=
    {"category", "name", "rating", "price", "original_price", "about_product", "image_url",
     "description", "stock"}

  /** The attributes with a `decimal:2` cast. */
  const DecimalAttributes: set<string> := {"price", "original_price"}

  /** Mass assignment (`create`, `update`): fillable keys of `input` overwrite,
      every other key of `input` (`_method`, `image`, `id`, ...) is dropped. */
  function Fill(attrs: map<string, Val>, input: map<string, Val>): (r: map<string, Val>)
    ensures forall k :: k in input && k in Fillable ==> k in r && r[k] == input[k]
    ensures forall k :: k in attrs && !(k in input && k in Fillable) ==> k in r && r[k] == attrs[k]
    ensures forall k :: k in r ==> k in attrs || (k in input && k in Fillable)
  {
    map k | k in attrs.Keys + (input.Keys * Fillable) ::
      if k in input && k in Fillable then input[k] else attrs[k]
  }

  /** A key outside the whitelist makes no difference to mass assignment. */
  lemma FillIgnoresGuarded(attrs: map<string, Val>, input: map<string, Val>, key: string)
    requires key !in Fillable
    ensures Fill(attrs, input) == Fill(attrs, input - {key})
  {
    assert (input - {key}).Keys * Fillable == input.Keys * Fillable;
    var a := Fill(attrs, input);
    var b := Fill(attrs, input - {key});
    assert a.Keys == b.Keys;
    forall k | k in a
      ensures a[k] == b[k]
    {
    }
  }

  /** Assigning the same input twice is assigning it once. */
  lemma FillIdempotent(attrs: map<string, Val>, input: map<string, Val>)
    ensures Fill(Fill(attrs, input), input) == Fill(attrs, input)
  {
    var once := Fill(attrs, input);
    var twice := Fill(once, input);
    assert once.Keys == twice.Keys;
    assert forall k :: k in once ==> once[k] == twice[k];
  }

  /** An amount in whole cents, rounded half away from zero (PHP's
      `number_format` and `HALF_UP` decimal rounding). */
  function Cents(r: real): (c: int)
    ensures r >= 0.0 ==> r * 100.0 - 0.5 < c as real <= r * 100.0 + 0.5
    ensures r < 0.0 ==> r * 100.0 - 0.5 <= c as real < r * 100.0 + 0.5
  {
    var x := r * 100.0;
    if x >= 0.0 then (x + 0.5).Floor else -((0.5 - x).Floor)
  }

  /** An amount that already has two fraction digits is kept exactly. */
  lemma CentsExact(c: int)
    ensures Cents(c as real / 100.0) == c
  {
    assert (c as real / 100.0) * 100.0 == c as real;
  }

  /** The `decimal:2` cast as an attribute is read: null stays null, a numeric
      value becomes its text with exactly two fraction digits, anything else
      cannot be cast. */
  function DecimalCast(v: Val): Option<Val> {
    if v == VNull then Some(VNull)
    else if IsNumeric(v) then Some(VStr(MoneyText(Cents(NumericValue(v)))))
    else None
  }

  /** Whether every decimal attribute there is survives the cast. */
  predicate DecimalsCast(attrs: map<string, Val>) {
    forall k :: k in attrs && k in DecimalAttributes ==> DecimalCast(attrs[k]).Some?
  }

  /** The decimal attributes are `price` and `original_price`. */
  lemma DecimalsCastOf(attrs: map<string, Val>)
    ensures DecimalsCast(attrs) <==>
              ("price" in attrs ==> DecimalCast(attrs["price"]).Some?) &&
              ("original_price" in attrs ==> DecimalCast(attrs["original_price"]).Some?)
  {
  }

  /** The attributes as the model serialises them (`toArray`): the id, the
      decimal casts applied, and every other attribute (the `about_product`
      array included, which its `array` cast writes as JSON and decodes on
      read) as stored. */
  function Serialize(p: Product): (r: Option<map<string, Val>>)
    ensures r.Some? <==> DecimalsCast(p.attrs)
    ensures r.Some? ==> "id" in r.value && r.value["id"] == VInt(p.id)
    ensures r.Some? ==> forall k :: k in p.attrs && k in DecimalAttributes ==>
                          k in r.value && Some(r.value[k]) == DecimalCast(p.attrs[k])
    ensures r.Some? ==> forall k :: k in p.attrs && k !in DecimalAttributes && k != "id" ==>
                          k in r.value && r.value[k] == p.attrs[k]
  {
    if DecimalsCast(p.attrs) then
      var cast := map k | k in p.attrs ::
        if k in DecimalAttributes then DecimalCast(p.attrs[k]).value else p.attrs[k];
      Some(cast["id" := VInt(p.id)])
    else None
  }

  /** The two-decimal text is itself numeric, with the value it shows. */
  lemma MoneyTextNumeric(c: int)
    ensures IsNumericText(MoneyText(c))
    ensures NumericTextValue(MoneyText(c)) == c as real / 100.0
  {
    var a := Abs(c);
    var u := UnsignedMoneyText(a);
    ScanUnsignedMoney(a);
    NumericTextSigned(c < 0, u);
    SignedCents(c, a);
  }

  /** A price sent back exactly as it was shown is stored and shown unchanged:
      the `decimal:2` cast is idempotent on its own output. */
  lemma DecimalCastIdempotent(v: Val)
    requires IsNumeric(v)
    ensures DecimalCast(DecimalCast(v).value) == DecimalCast(v)
  {
    var c := Cents(NumericValue(v));
    assert DecimalCast(v) == Some(VStr(MoneyText(c)));
    DecimalCastOfMoneyText(c);
  }

  /** The cast keeps a two-decimal text as it is. */
  lemma DecimalCastOfMoneyText(c: int)
    ensures DecimalCast(VStr(MoneyText(c))) == Some(VStr(MoneyText(c)))
  {
    var t, x := MoneyText(c), c as real / 100.0;
    MoneyTextNumeric(c);
    CentsExact(c);
    DecimalCastOfText(t, x, c);
  }

  /** A numeric text is cast by its value, rounded to whole cents. */
  lemma DecimalCastOfText(t: string, x: real, c: int)
    requires IsNumericText(t) && NumericTextValue(t) == x && Cents(x) == c
    ensures DecimalCast(VStr(t)) == Some(VStr(MoneyText(c)))
  {
  }

  /** The client reads a shown price back as the rounded amount. */
  lemma DecimalCastReadByClient(v: Val)
    requires IsNumeric(v)
    ensures ParseFloat(DecimalCast(v).value.s) == Fin(Cents(NumericValue(v)) as real / 100.0)
  {
    ParseFloatMoneyText(Cents(NumericValue(v)));
  }
}

=== FILE: seqs.dfy ===
/** Order-preserving selection from a list, shared by the database relations
    and the client-side list filters. */
module Seqs {

  /** The elements of `xs` that satisfy `p`, in their original order. */
  function Filter<T(!new)>(xs: seq<T>, p: T -> bool): (r: seq<T>)
    ensures |r| <= |xs|
    ensures forall x :: x in r <==> x in xs && p(x)
    decreases |xs|
  {
    if |xs| == 0 then []
    else
      var rest := Filter(xs[1..], p);
      assert forall x :: x in xs <==> x == xs[0] || x in xs[1..];
      if p(xs[0]) then [xs[0]] + rest else rest
  }

  /** Filtering distributes over concatenation. */
  lemma {:induction false} FilterAppend<T(!new)>(a: seq<T>, b: seq<T>, p: T -> bool)
    ensures Filter(a + b, p) == Filter(a, p) + Filter(b, p)
    decreases |a|
  {
    if |a| > 0 {
      assert (a + b)[1..] == a[1..] + b;
      FilterAppend(a[1..], b, p);
    } else {
      assert a + b == b;
    }
  }

  /** When every element is kept, the filter is the identity. */
  lemma {:induction false} FilterAll<T(!new)>(xs: seq<T>, p: T -> bool)
    requires forall k :: 0 <= k < |xs| ==> p(xs[k])
    ensures Filter(xs, p) == xs
    decreases |xs|
  {
    if |xs| > 0 {
      FilterAll(xs[1..], p);
      assert xs == [xs[0]] + xs[1..];
    }
  }

  /** When no element is kept, the filter is empty. */
  lemma FilterNone<T(!new)>(xs: seq<T>, p: T -> bool)
    requires forall k :: 0 <= k < |xs| ==> !p(xs[k])
    ensures Filter(xs, p) == []
  {
  }

  /** The results of `f` on the elements of `xs`, one after another. */
  /** Filtering by a predicate and by its negation splits the elements
      between the two. */
  lemma {:induction false} FilterSplit<T(!new)>(xs: seq<T>, p: T -> bool, q: T -> bool)
    requires forall x :: q(x) == !p(x)
    ensures multiset(Filter(xs, p)) + multiset(Filter(xs, q)) == multiset(xs)
    decreases |xs|
  {
    if |xs| > 0 {
      FilterSplit(xs[1..], p, q);
      assert Filter(xs, p) == (if p(xs[0]) then [xs[0]] else []) + Filter(xs[1..], p);
      assert Filter(xs, q) == (if q(xs[0]) then [xs[0]] else []) + Filter(xs[1..], q);
      assert xs == [xs[0]] + xs[1..];
    }
  }

  function FlatMap<A, B>(xs: seq<A>, f: A -> seq<B>): (r: seq<B>)
    ensures |xs| == 1 ==> r == f(xs[0])
    decreases |xs|
  {
    if |xs| == 0 then [] else f(xs[0]) + FlatMap(xs[1..], f)
  }

  /** Mapping a concatenation concatenates the mapped runs. */
  lemma {:induction false} FlatMapAppend<A, B>(a: seq<A>, b: seq<A>, f: A -> seq<B>)
    ensures FlatMap(a + b, f) == FlatMap(a, f) + FlatMap(b, f)
    decreases |a|
  {
    if |a| > 0 {
      assert (a + b)[1..] == a[1..] + b;
      FlatMapAppend(a[1..], b, f);
    } else {
      assert a + b == b;
    }
  }

  /** An element `f` maps to nothing drops out, wherever it stands. */
  lemma FlatMapSkips<A, B>(a: seq<A>, x: A, b: seq<A>, f: A -> seq<B>)
    requires f(x) == []
    ensures FlatMap(a + [x] + b, f) == FlatMap(a + b, f)
  {
    FlatMapAppend(a + [x], b, f);
    FlatMapAppend(a, [x], f);
    FlatMapAppend(a, b, f);
  }

  /** The filter keeps its elements in their original order and misses none:
      `idx` gives, increasing, the position in `xs` of each kept element, and
      every position whose element passes is among them. */
  lemma {:induction false} FilterKeepsOrder<T(!new)>(xs: seq<T>, p: T -> bool) returns (idx: seq<nat>)
    ensures |idx| == |Filter(xs, p)|
    ensures forall k :: 0 <= k < |idx| ==> idx[k] < |xs| && xs[idx[k]] == Filter(xs, p)[k]
    ensures forall k, l :: 0 <= k < l < |idx| ==> idx[k] < idx[l]
    ensures forall i :: 0 <= i < |xs| && p(xs[i]) ==> i in idx
    decreases |xs|
  {
    if |xs| == 0 {
      idx := [];
    } else {
      var rest := FilterKeepsOrder(xs[1..], p);
      assert Filter(xs, p) == (if p(xs[0]) then [xs[0]] else []) + Filter(xs[1..], p);
      idx := PositionsCons(xs, Filter(xs[1..], p), rest, p);
    }
  }

  /** One step of `FilterKeepsOrder`: the positions of the kept elements of
      `xs[1..]` carried over to `xs`. */
  lemma PositionsCons<T>(xs: seq<T>, kept: seq<T>, rest: seq<nat>, p: T -> bool) returns (idx: seq<nat>)
    requires |xs| > 0 && |rest| == |kept|
    requires forall k :: 0 <= k < |rest| ==> rest[k] + 1 < |xs| && xs[rest[k] + 1] == kept[k]
    requires forall k, l :: 0 <= k < l < |rest| ==> rest[k] < rest[l]
    requires forall i :: 1 <= i < |xs| && p(xs[i]) ==> i - 1 in rest
    ensures var out := (if p(xs[0]) then [xs[0]] else []) + kept;
            |idx| == |out| &&
            (forall k :: 0 <= k < |idx| ==> idx[k] < |xs| && xs[idx[k]] == out[k]) &&
            (forall k, l :: 0 <= k < l < |idx| ==> idx[k] < idx[l]) &&
            (forall i :: 0 <= i < |xs| && p(xs[i]) ==> i in idx)
  {
    idx := (if p(xs[0]) then [0] else []) + Shift(rest);
    PositionsMatch(xs, kept, rest, p(xs[0]));
    PositionsCover(xs, rest, p);
  }

  /** The carried-over positions still point at the kept elements, in
      increasing order. */
  lemma PositionsMatch<T>(xs: seq<T>, kept: seq<T>, rest: seq<nat>, keep: bool)
    requires |xs| > 0 && |rest| == |kept|
    requires forall k :: 0 <= k < |rest| ==> rest[k] + 1 < |xs| && xs[rest[k] + 1] == kept[k]
    requires forall k, l :: 0 <= k < l < |rest| ==> rest[k] < rest[l]
    ensures var idx := (if keep then [0] else []) + Shift(rest);
            var out := (if keep then [xs[0]] else []) + kept;
            |idx| == |out| &&
            (forall k :: 0 <= k < |idx| ==> idx[k] < |xs| && xs[idx[k]] == out[k]) &&
            (forall k, l :: 0 <= k < l < |idx| ==> idx[k] < idx[l])
  {
    var shifted := Shift(rest);
    var idx := (if keep then [0] else []) + shifted;
    var out := (if keep then [xs[0]] else []) + kept;
    var d := if keep then 1 else 0;
    assert |idx| == |out| == |rest| + d;
    forall k | 0 <= k < |idx|
      ensures idx[k] < |xs| && xs[idx[k]] == out[k]
    {
      if k >= d {
        assert idx[k] == shifted[k - d] == rest[k - d] + 1;
        assert out[k] == kept[k - d];
      }
    }
    forall k, l | 0 <= k < l < |idx|
      ensures idx[k] < idx[l]
    {
      assert idx[l] == shifted[l - d] == rest[l - d] + 1;
      if k >= d {
        assert idx[k] == shifted[k - d];
      }
    }
  }

  /** Every position of `xs` whose element passes is among the carried-over
      positions. */
  lemma PositionsCover<T>(xs: seq<T>, rest: seq<nat>, p: T -> bool)
    requires |xs| > 0
    requires forall i :: 1 <= i < |xs| && p(xs[i]) ==> i - 1 in rest
    ensures var idx := (if p(xs[0]) then [0] else []) + Shift(rest);
            forall i :: 0 <= i < |xs| && p(xs[i]) ==> i in idx
  {
    var shifted := Shift(rest);
    var idx := (if p(xs[0]) then [0] else []) + shifted;
    forall i | 0 <= i < |xs| && p(xs[i])
      ensures i in idx
    {
      if i == 0 {
        assert idx[0] == 0;
      } else {
        var k :| 0 <= k < |rest| && rest[k] == i - 1;
        assert shifted[k] == i;
        assert shifted[k] in idx;
      }
    }
  }

  /** Every position moved one place on. */
  function Shift(idx: seq<nat>): (r: seq<nat>)
    ensures |r| == |idx|
    ensures forall k :: 0 <= k < |idx| ==> r[k] == idx[k] + 1
  {
    seq(|idx|, k requires 0 <= k < |idx| => idx[k] + 1)
  }

  /** The position of the first occurrence of `x`. */
  function FirstIndex<T(==)>(xs: seq<T>, x: T): (i: nat)
    requires x in xs
    ensures i < |xs| && xs[i] == x && x !in xs[..i]
    decreases |xs|
  {
    if xs[0] == x then 0
    else
      assert x in xs[1..];
      var j := FirstIndex(xs[1..], x);
      assert xs[..j + 1] == [xs[0]] + xs[1..][..j];
      j + 1
  }

  /** The first occurrence is the one position holding `x` with no `x`
      before it. */
  lemma FirstIndexUnique<T>(xs: seq<T>, x: T, i: nat)
    requires i < |xs| && xs[i] == x && x !in xs[..i]
    ensures FirstIndex(xs, x) == i
  {
  }

  /** An element of a prefix first occurs where it first occurs in the prefix. */
  lemma FirstIndexPrefix<T>(xs: seq<T>, n: nat, x: T)
    requires n <= |xs| && x in xs[..n]
    ensures FirstIndex(xs, x) == FirstIndex(xs[..n], x)
  {
    var f := FirstIndex(xs[..n], x);
    assert xs[..n][..f] == xs[..f];
    FirstIndexUnique(xs, x, f);
  }

  /** `[...new Set(xs)]`: every element once, at its first occurrence. */
  function Distinct<T(==,!new)>(xs: seq<T>): (r: seq<T>)
    ensures forall x :: x in r <==> x in xs
    ensures forall i, j :: 0 <= i < j < |r| ==> r[i] != r[j]
    decreases |xs|
  {
    if |xs| == 0 then []
    else
      var n := |xs| - 1;
      var init := Distinct(xs[..n]);
      assert xs == xs[..n] + [xs[n]];
      if xs[n] in init then init else init + [xs[n]]
  }

  /** The elements of `Distinct(xs)` are in the order of their first
      occurrences in `xs`. */
  lemma {:induction false} DistinctInOrder<T(!new)>(xs: seq<T>)
    ensures forall i, j :: 0 <= i < j < |Distinct(xs)| ==>
              FirstIndex(xs, Distinct(xs)[i]) < FirstIndex(xs, Distinct(xs)[j])
    decreases |xs|
  {
    if |xs| > 0 {
      var n := |xs| - 1;
      var init := Distinct(xs[..n]);
      var r := Distinct(xs);
      DistinctInOrder(xs[..n]);
      assert forall k :: 0 <= k < |init| ==> r[k] == init[k];
      forall k | 0 <= k < |init|
        ensures FirstIndex(xs, init[k]) == FirstIndex(xs[..n], init[k]) < n
      {
        FirstIndexPrefix(xs, n, init[k]);
      }
      if xs[n] !in init {
        assert xs[..n + 1] == xs;
        FirstIndexUnique(xs, xs[n], n);
      }
    }
  }
}

=== FILE: sorting.dfy ===
/** A stable sort driven by a "comes strictly before" relation, the way
    `Array.prototype.sort` is driven by a comparator: `lt(a, b)` holds when the
    comparator called on `(a, b)` returns a negative number. */
module Sorting {

  /** `lt` never relates a value to itself and chains transitively. */
  ghost predicate StrictOrder<T(!new)>(lt: (T, T) -> bool) {
    (forall a :: !lt(a, a)) &&
    (forall a, b, c :: lt(a, b) && lt(b, c) ==> lt(a, c))
  }

  /** No element is strictly before one that precedes it. */
  predicate SortedBy<T>(xs: seq<T>, lt: (T, T) -> bool) {
    forall i, j :: 0 <= i < j < |xs| ==> !lt(xs[j], xs[i])
  }

  /** Places `x` before the first element it is strictly before, so that it
      lands after every element it ties with. */
  function Insert<T>(x: T, ys: seq<T>, lt: (T, T) -> bool): (r: seq<T>)
    ensures |r| == |ys| + 1
  {
    if |ys| == 0 then [x]
    else if lt(x, ys[0]) then [x] + ys
    else
      assert ys == [ys[0]] + ys[1..];
      [ys[0]] + Insert(x, ys[1..], lt)
  }

  /** Stable insertion sort. */
  function Sort<T>(xs: seq<T>, lt: (T, T) -> bool): (r: seq<T>)
    ensures |r| == |xs|
    decreases |xs|
  {
    if |xs| == 0 then []
    else
      var n := |xs| - 1;
      Insert(xs[n], Sort(xs[..n], lt), lt)
  }

  /** Inserting adds `x` and loses nothing. */
  lemma {:induction false} InsertPermutes<T>(x: T, ys: seq<T>, lt: (T, T) -> bool)
    ensures multiset(Insert(x, ys, lt)) == multiset(ys) + multiset{x}
    decreases |ys|
  {
    if |ys| > 0 && !lt(x, ys[0]) {
      InsertPermutes(x, ys[1..], lt);
      assert ys == [ys[0]] + ys[1..];
    }
  }

  /** The sort is a permutation of its input. */
  lemma {:induction false} SortPermutes<T>(xs: seq<T>, lt: (T, T) -> bool)
    ensures multiset(Sort(xs, lt)) == multiset(xs)
    decreases |xs|
  {
    if |xs| > 0 {
      var n := |xs| - 1;
      var p, last := xs[..n], xs[n];
      var sorted := Sort(p, lt);
      SortPermutes(p, lt);
      InsertPermutes(last, sorted, lt);
      var bag := multiset(p) + multiset{last};
      assert multiset(xs) == bag by {
        assert xs == p + [last];
      }
      assert multiset(Insert(last, sorted, lt)) == bag;
    }
  }

  /** Inserting into a sorted list keeps it sorted. */
  lemma {:induction false} InsertSorted<T(!new)>(x: T, ys: seq<T>, lt: (T, T) -> bool)
    requires StrictOrder(lt)
    requires SortedBy(ys, lt)
    ensures SortedBy(Insert(x, ys, lt), lt)
    decreases |ys|
  {
    if |ys| == 0 {
    } else if lt(x, ys[0]) {
      var r := [x] + ys;
      forall k | 0 <= k < |ys|
        ensures !lt(ys[k], x)
      {
        var y, first := ys[k], ys[0];
        assert lt(y, x) ==> lt(y, first);
      }
      assert forall i, j :: 0 < i < j < |r| ==> r[i] == ys[i - 1] && r[j] == ys[j - 1];
    } else {
      var rest := Insert(x, ys[1..], lt);
      InsertSorted(x, ys[1..], lt);
      InsertPermutes(x, ys[1..], lt);
      var r := [ys[0]] + rest;
      forall i, j | 0 <= i < j < |r|
        ensures !lt(r[j], r[i])
      {
        if i == 0 {
          assert r[j] in multiset(rest);
          assert r[j] == x || r[j] in multiset(ys[1..]);
          if r[j] != x {
            var k :| 0 <= k < |ys[1..]| && ys[1..][k] == r[j];
            assert ys[k + 1] == r[j];
          }
        }
      }
    }
  }

  /** The sort's result is sorted whenever `lt` is a strict order. */
  lemma {:induction false} SortSorted<T(!new)>(xs: seq<T>, lt: (T, T) -> bool)
    requires StrictOrder(lt)
    ensures SortedBy(Sort(xs, lt), lt)
    decreases |xs|
  {
    if |xs| > 0 {
      var n := |xs| - 1;
      SortSorted(xs[..n], lt);
      InsertSorted(xs[n], Sort(xs[..n], lt), lt);
    }
  }

  /** An element not strictly before anything in `ys` goes to the end. */
  lemma {:induction false} InsertLast<T>(x: T, ys: seq<T>, lt: (T, T) -> bool)
    requires forall k :: 0 <= k < |ys| ==> !lt(x, ys[k])
    ensures Insert(x, ys, lt) == ys + [x]
    decreases |ys|
  {
    if |ys| > 0 {
      var rest := ys[1..];
      assert forall k :: 0 <= k < |rest| ==> rest[k] == ys[k + 1];
      InsertLast(x, rest, lt);
      assert ys == [ys[0]] + rest;
    }
  }

  /** Sorting an already sorted list changes nothing, for any `lt`: the sort
      never reorders elements that are already in order. */
  lemma {:induction false} SortOfSorted<T>(xs: seq<T>, lt: (T, T) -> bool)
    requires SortedBy(xs, lt)
    ensures Sort(xs, lt) == xs
    decreases |xs|
  {
    if |xs| > 0 {
      var n := |xs| - 1;
      var p := xs[..n];
      var last := xs[n];
      assert SortedBy(p, lt) by {
        assert forall i :: 0 <= i < n ==> p[i] == xs[i];
      }
      SortOfSorted(p, lt);
      assert forall k :: 0 <= k < |p| ==> !lt(last, p[k]) by {
        assert forall k :: 0 <= k < |p| ==> p[k] == xs[k];
      }
      InsertLast(last, p, lt);
      assert p + [last] == xs;
    }
  }

  /** Sorting twice is sorting once. */
  lemma SortIdempotent<T(!new)>(xs: seq<T>, lt: (T, T) -> bool)
    requires StrictOrder(lt)
    ensures Sort(Sort(xs, lt), lt) == Sort(xs, lt)
  {
    SortSorted(xs, lt);
    SortOfSorted(Sort(xs, lt), lt);
  }
}

=== FILE: strings.dfy ===
/** String operations used by both the PHP backend and the JS client: the
    single-character split shared by PHP `explode` and JS `String.split`,
    `join`, the two languages' `trim`, PHP `ltrim` and `str_replace`, and
    decimal digit strings. */
module Strings {

  predicate IsDigit(c: char) {
    '0' <= c <= '9'
  }

  predicate AllDigits(s: string) {
    forall i :: 0 <= i < |s| ==> IsDigit(s[i])
  }

  predicate StartsWith(s: string, prefix: string) {
    |prefix| <= |s| && s[..|prefix|] == prefix
  }

  /** `pat` occurs somewhere in `s`. */
  predicate Contains(s: string, pat: string)
    decreases |s|
  {
    StartsWith(s, pat) || (|s| > 0 && Contains(s[1..], pat))
  }

  // ---------------------------------------------------------------------
  // Split and join on a single separator character
  // ---------------------------------------------------------------------

  /** Position of the first `c` in `s`. */
  function IndexOf(s: string, c: char): (i: nat)
    requires c in s
    ensures i < |s| && s[i] == c && c !in s[..i]
    decreases |s|
  {
    if s[0] == c then 0
    else
      assert s == [s[0]] + s[1..];
      var j := IndexOf(s[1..], c);
      assert s[..j + 1] == [s[0]] + s[1..][..j];
      j + 1
  }

  /** `explode(sep, s)` in PHP and `s.split(sep)` in JS for a one-character
      separator: the maximal separator-free pieces, in order. */
  function Split(s: string, sep: char): (pieces: seq<string>)
    ensures |pieces| == multiset(s)[sep] + 1
    ensures forall i :: 0 <= i < |pieces| ==> sep !in pieces[i]
    decreases |s|
  {
    if sep !in s then [s]
    else
      var i := IndexOf(s, sep);
      assert s == s[..i] + [sep] + s[i + 1..];
      assert multiset(s[..i])[sep] == 0;
      [s[..i]] + Split(s[i + 1..], sep)
  }

  /** `xs.join(sep)` in JS (`implode` in PHP). */
  function Join(xs: seq<string>, sep: string): string
    decreases |xs|
  {
    if |xs| == 0 then ""
    else if |xs| == 1 then xs[0]
    else xs[0] + sep + Join(xs[1..], sep)
  }

  /** The piece before the first separator is split off whole. */
  lemma SplitAfterFree(a: string, b: string, sep: char)
    requires sep !in a
    ensures Split(a + [sep] + b, sep) == [a] + Split(b, sep)
  {
    var s := a + [sep] + b;
    assert s[|a|] == sep;
    assert forall k :: 0 <= k < |a| ==> s[k] == a[k] && a[k] in a;
    assert forall j :: |a| < j <= |s| ==> s[..j][|a|] == sep;
    var i := IndexOf(s, sep);
    assert i == |a|;
    assert s[..i] == a && s[i + 1..] == b;
  }

  /** Two separator-free pieces around one separator split apart again. */
  lemma SplitTwo(a: string, b: string, sep: char)
    requires sep !in a && sep !in b
    ensures Split(a + [sep] + b, sep) == [a, b]
  {
    SplitAfterFree(a, b, sep);
  }

  /** Joining the pieces of a split with the separator restores the string. */
  lemma {:induction false} JoinSplit(s: string, sep: char)
    ensures Join(Split(s, sep), [sep]) == s
    decreases |s|
  {
    if sep in s {
      var i := IndexOf(s, sep);
      var rest := s[i + 1..];
      var tail := Split(rest, sep);
      assert Split(s, sep) == [s[..i]] + tail;
      JoinSplit(rest, sep);
      var xs := [s[..i]] + tail;
      assert |xs| >= 2 && xs[0] == s[..i] && xs[1..] == tail;
      assert Join(xs, [sep]) == s[..i] + [sep] + Join(tail, [sep]);
      assert s == s[..i] + [sep] + rest;
    }
  }

  /** `pad` put in front of every entry. */
  function PadAll(xs: seq<string>, pad: string): (r: seq<string>)
    ensures |r| == |xs|
    ensures forall i :: 0 <= i < |xs| ==> r[i] == pad + xs[i]
    decreases |xs|
  {
    if |xs| == 0 then [] else [pad + xs[0]] + PadAll(xs[1..], pad)
  }

  /** Splitting `prefix + Join(ys, sep + pad)` when everything is free of the
      separator: `prefix` stays glued to the first entry, every later entry
      comes back behind `pad`. */
  lemma {:induction false} SplitJoinAfter(prefix: string, ys: seq<string>, sep: char, pad: string)
    requires |ys| > 0
    requires sep !in pad && sep !in prefix
    requires forall i :: 0 <= i < |ys| ==> sep !in ys[i]
    ensures Split(prefix + Join(ys, [sep] + pad), sep) == [prefix + ys[0]] + PadAll(ys[1..], pad)
    decreases |ys|
  {
    if |ys| == 1 {
      assert sep !in prefix + ys[0];
      assert PadAll(ys[1..], pad) == [];
    } else {
      var rest := Join(ys[1..], [sep] + pad);
      assert prefix + Join(ys, [sep] + pad) == (prefix + ys[0]) + [sep] + (pad + rest);
      SplitAfterFree(prefix + ys[0], pad + rest, sep);
      SplitJoinAfter(pad, ys[1..], sep, pad);
      assert ys[1..][0] == ys[1] && ys[1..][1..] == ys[2..];
      assert PadAll(ys[1..], pad) == [pad + ys[1]] + PadAll(ys[2..], pad);
    }
  }

  /** Splitting `xs` joined with `sep + pad` (JS `join(", ")` for sep `,` and
      pad `" "`) gives the first entry, then every later entry behind `pad`. */
  lemma SplitJoinPadded(xs: seq<string>, sep: char, pad: string)
    requires |xs| > 0
    requires sep !in pad
    requires forall i :: 0 <= i < |xs| ==> sep !in xs[i]
    ensures Split(Join(xs, [sep] + pad), sep) == [xs[0]] + PadAll(xs[1..], pad)
  {
    var joined := Join(xs, [sep] + pad);
    var first := xs[0];
    assert "" + joined == joined && "" + first == first;
    SplitJoinAfter("", xs, sep, pad);
    assert Split("" + joined, sep) == [first] + PadAll(xs[1..], pad);
  }

  /** JS `s.split(sep)` for a separator of one or more characters: cut at
      every occurrence of `sep`, scanning left to right without overlaps. */
  function SplitText(s: string, sep: string): (pieces: seq<string>)
    requires |sep| > 0
    ensures |pieces| >= 1
    decreases |s|
  {
    if |s| < |sep| then [s]
    else if s[..|sep|] == sep then [""] + SplitText(s[|sep|..], sep)
    else
      var rest := SplitText(s[1..], sep);
      [[s[0]] + rest[0]] + rest[1..]
  }

  /** Text without the separator is one piece. */
  lemma {:induction false} SplitTextAbsent(s: string, sep: string)
    requires |sep| > 0
    requires !Contains(s, sep)
    ensures SplitText(s, sep) == [s]
    decreases |s|
  {
    if |s| >= |sep| {
      SplitTextAbsent(s[1..], sep);
      assert [s[0]] + s[1..] == s;
    }
  }

  // ---------------------------------------------------------------------
  // Trimming
  // ---------------------------------------------------------------------

  /** Which characters a `trim` removes: JS `String.prototype.trim` strips
      WhiteSpace and LineTerminator code points, PHP `trim` with its default
      character list strips " \t\n\r\0\x0B", and PHP's numeric-string
      syntax allows " \t\n\r\v\f" around a number, and PHP's integer
      filter trims " \t\r\v\n". */
  datatype Blanks = JsBlanks | PhpBlanks | PhpNumericBlanks | PhpFilterBlanks

  predicate IsBlank(b: Blanks, c: char) {
    match b
    case JsBlanks =>
      c == '\t' || c == '\n' || c == '\U{000B}' || c == '\U{000C}' || c == '\r' || c == ' '
      || c == '\U{00A0}' || c == '\U{1680}' || ('\U{2000}' <= c <= '\U{200A}')
      || c == '\U{2028}' || c == '\U{2029}' || c == '\U{202F}' || c == '\U{205F}'
      || c == '\U{3000}' || c == '\U{FEFF}'
    case PhpBlanks =>
      c == ' ' || c == '\t' || c == '\n' || c == '\r' || c == '\0' || c == '\U{000B}'
    case PhpNumericBlanks =>
      c == ' ' || c == '\t' || c == '\n' || c == '\r' || c == '\U{000B}' || c == '\U{000C}'
    case PhpFilterBlanks =>
      c == ' ' || c == '\t' || c == '\r' || c == '\U{000B}' || c == '\n'
  }

  /** Neither end of `s` is a blank of kind `b`. */
  predicate IsTrimmed(s: string, b: Blanks) {
    |s| == 0 || (!IsBlank(b, s[0]) && !IsBlank(b, s[|s| - 1]))
  }

  /** Drops the leading blanks: what is removed is all blank, and what is kept
      starts with a non-blank. */
  function TrimStart(s: string, b: Blanks): (r: string)
    ensures |r| <= |s|
    ensures |r| > 0 ==> !IsBlank(b, r[0])
    decreases |s|
  {
    if |s| > 0 && IsBlank(b, s[0]) then TrimStart(s[1..], b) else s
  }

  /** Drops the trailing blanks. */
  function TrimEnd(s: string, b: Blanks): (r: string)
    ensures |r| <= |s|
    ensures |r| > 0 ==> !IsBlank(b, r[|r| - 1])
    decreases |s|
  {
    if |s| > 0 && IsBlank(b, s[|s| - 1]) then TrimEnd(s[..|s| - 1], b) else s
  }

  /** What `TrimStart` skips is blank. */
  lemma {:induction false} TrimStartSkipsBlanks(s: string, b: Blanks)
    ensures forall k :: 0 <= k < |s| - |TrimStart(s, b)| ==> IsBlank(b, s[k])
    decreases |s|
  {
    if |s| > 0 && IsBlank(b, s[0]) {
      TrimStartSkipsBlanks(s[1..], b);
      assert forall k :: 0 < k < |s| ==> s[k] == s[1..][k - 1];
    }
  }

  /** What `TrimEnd` drops is blank. */
  lemma {:induction false} TrimEndDropsBlanks(s: string, b: Blanks)
    ensures forall k :: |TrimEnd(s, b)| <= k < |s| ==> IsBlank(b, s[k])
    decreases |s|
  {
    if |s| > 0 && IsBlank(b, s[|s| - 1]) {
      var p := s[..|s| - 1];
      TrimEndDropsBlanks(p, b);
      assert forall k :: 0 <= k < |p| ==> s[k] == p[k];
    }
  }

  /** What `TrimStart` keeps is a suffix of its input. */
  lemma {:induction false} TrimStartSuffix(s: string, b: Blanks)
    ensures var r := TrimStart(s, b); r == s[|s| - |r|..]
    decreases |s|
  {
    if |s| > 0 && IsBlank(b, s[0]) {
      TrimStartSuffix(s[1..], b);
    }
  }

  /** What `TrimEnd` keeps is a prefix of its input. */
  lemma {:induction false} TrimEndPrefix(s: string, b: Blanks)
    ensures var r := TrimEnd(s, b); r == s[..|r|]
    decreases |s|
  {
    if |s| > 0 && IsBlank(b, s[|s| - 1]) {
      var p := s[..|s| - 1];
      TrimEndPrefix(p, b);
      assert p[..|TrimEnd(p, b)|] == s[..|TrimEnd(p, b)|];
    }
  }

  /** `trim` of either language: both ends cut back to a non-blank. */
  function Trim(s: string, b: Blanks): (r: string)
    ensures IsTrimmed(r, b) && |r| <= |s|
  {
    var t := TrimStart(s, b);
    var r := TrimEnd(t, b);
    assert IsTrimmed(r, b) by {
      if |r| > 0 {
        TrimEndPrefix(t, b);
        assert r[0] == t[0];
      }
    }
    r
  }

  /** What `trim` keeps is the slice `s[i..j]`, and what it cuts off on
      either side is blank. */
  lemma TrimSlice(s: string, b: Blanks) returns (i: nat, j: nat)
    ensures i <= j <= |s| && Trim(s, b) == s[i..j]
    ensures forall k :: 0 <= k < i ==> IsBlank(b, s[k])
    ensures forall k :: j <= k < |s| ==> IsBlank(b, s[k])
  {
    var t := TrimStart(s, b);
    var r := TrimEnd(t, b);
    i := |s| - |t|;
    j := i + |r|;
    assert t == s[i..] by {
      TrimStartSuffix(s, b);
    }
    assert Trim(s, b) == s[i..j] by {
      TrimEndPrefix(t, b);
      assert Trim(s, b) == r && r == t[..|r|];
      assert s[i..][..|r|] == s[i..j];
    }
    assert forall k :: 0 <= k < i ==> IsBlank(b, s[k]) by {
      TrimStartSkipsBlanks(s, b);
    }
    assert forall k :: j <= k < |s| ==> IsBlank(b, s[k]) by {
      TrimEndDropsBlanks(t, b);
      assert forall k :: j <= k < |s| ==> s[k] == t[k - i];
    }
  }

  /** An already trimmed string is its own trim. */
  lemma TrimOfTrimmed(s: string, b: Blanks)
    requires IsTrimmed(s, b)
    ensures Trim(s, b) == s
  {
  }

  /** Trimming stops at the first non-blank. */
  lemma {:induction false} TrimStartAt(s: string, b: Blanks, i: nat)
    requires i < |s| && !IsBlank(b, s[i])
    requires forall k :: 0 <= k < i ==> IsBlank(b, s[k])
    ensures TrimStart(s, b) == s[i..]
    decreases i
  {
    if i > 0 {
      TrimStartAt(s[1..], b, i - 1);
      assert s[1..][i - 1..] == s[i..];
    }
  }

  /** Trimming the end stops at the last non-blank. */
  lemma {:induction false} TrimEndAt(s: string, b: Blanks, j: nat)
    requires 0 < j <= |s| && !IsBlank(b, s[j - 1])
    requires forall k :: j <= k < |s| ==> IsBlank(b, s[k])
    ensures TrimEnd(s, b) == s[..j]
    decreases |s| - j
  {
    if j < |s| {
      var s' := s[..|s| - 1];
      TrimEndAt(s', b, j);
      assert s'[..j] == s[..j];
    } else {
      assert s[..j] == s;
    }
  }

  /** Every blank of kind `narrow` is also a blank of kind `wide`. */
  predicate Narrower(narrow: Blanks, wide: Blanks) {
    forall c :: IsBlank(narrow, c) ==> IsBlank(wide, c)
  }

  /** Skipping leading blanks of a wider kind gives the same result when the
      narrower skip already stops at a character the wider kind keeps. */
  lemma TrimStartWiden(s: string, narrow: Blanks, wide: Blanks)
    requires Narrower(narrow, wide)
    requires var t := TrimStart(s, narrow); |t| > 0 && !IsBlank(wide, t[0])
    ensures TrimStart(s, wide) == TrimStart(s, narrow)
  {
    var t := TrimStart(s, narrow);
    var i := |s| - |t|;
    TrimStartSkipsBlanks(s, narrow);
    forall k | 0 <= k < i
      ensures IsBlank(wide, s[k])
    {
      assert IsBlank(narrow, s[k]);
    }
    TrimStartSuffix(s, narrow);
    assert s[i] == t[0];
    TrimStartAt(s, wide, i);
  }

  /** The same for trailing blanks. */
  lemma TrimEndWiden(s: string, narrow: Blanks, wide: Blanks)
    requires Narrower(narrow, wide)
    requires var t := TrimEnd(s, narrow); |t| > 0 && !IsBlank(wide, t[|t| - 1])
    ensures TrimEnd(s, wide) == TrimEnd(s, narrow)
  {
    var t := TrimEnd(s, narrow);
    TrimEndDropsBlanks(s, narrow);
    forall k | |t| <= k < |s|
      ensures IsBlank(wide, s[k])
    {
      assert IsBlank(narrow, s[k]);
    }
    TrimEndPrefix(s, narrow);
    assert s[|t| - 1] == t[|t| - 1];
    TrimEndAt(s, wide, |t|);
  }

  /** Trimming the blanks of PHP's `is_numeric` gives the same result as
      trimming those of its integer filter when the latter already ends on
      characters the former keeps. */
  lemma TrimWiden(s: string)
    requires BothEndsKept(Trim(s, PhpFilterBlanks), PhpNumericBlanks)
    ensures Trim(s, PhpNumericBlanks) == Trim(s, PhpFilterBlanks)
  {
    var t1 := TrimStart(s, PhpFilterBlanks);
    var r := TrimEnd(t1, PhpFilterBlanks);
    assert Trim(s, PhpFilterBlanks) == r;
    TrimEndPrefix(t1, PhpFilterBlanks);
    assert t1[0] == r[0];
    TrimStartWidenPhp(s);
    TrimEndWidenPhp(t1);
  }

  /** `t` is non-empty and neither end is a blank of kind `b`. */
  predicate BothEndsKept(t: string, b: Blanks) {
    |t| > 0 && !IsBlank(b, t[0]) && !IsBlank(b, t[|t| - 1])
  }

  lemma TrimStartWidenPhp(s: string)
    requires var t := TrimStart(s, PhpFilterBlanks); |t| > 0 && !IsBlank(PhpNumericBlanks, t[0])
    ensures TrimStart(s, PhpNumericBlanks) == TrimStart(s, PhpFilterBlanks)
  {
    TrimStartWiden(s, PhpFilterBlanks, PhpNumericBlanks);
  }

  lemma TrimEndWidenPhp(s: string)
    requires var t := TrimEnd(s, PhpFilterBlanks); |t| > 0 && !IsBlank(PhpNumericBlanks, t[|t| - 1])
    ensures TrimEnd(s, PhpNumericBlanks) == TrimEnd(s, PhpFilterBlanks)
  {
    TrimEndWiden(s, PhpFilterBlanks, PhpNumericBlanks);
  }

  /** Leading blanks do not survive a trim. */
  lemma {:induction false} TrimBlankPrefix(pad: string, s: string, b: Blanks)
    requires forall k :: 0 <= k < |pad| ==> IsBlank(b, pad[k])
    ensures TrimStart(pad + s, b) == TrimStart(s, b)
    ensures Trim(pad + s, b) == Trim(s, b)
    decreases |pad|
  {
    if |pad| > 0 {
      assert (pad + s)[0] == pad[0] && (pad + s)[1..] == pad[1..] + s;
      TrimBlankPrefix(pad[1..], s, b);
    } else {
      assert pad + s == s;
    }
  }

  /** PHP `ltrim(s, c)`: drops every leading `c`. */
  function LTrimChar(s: string, c: char): (r: string)
    ensures |r| <= |s|
    ensures forall k :: 0 <= k < |s| - |r| ==> s[k] == c
    ensures |r| == 0 || r[0] != c
    decreases |s|
  {
    if |s| > 0 && s[0] == c then LTrimChar(s[1..], c) else s
  }

  // ---------------------------------------------------------------------
  // Replacement
  // ---------------------------------------------------------------------

  /** PHP `str_replace(pat, '', s)`: removes every occurrence of `pat`, scanning
      left to right without overlaps. */
  function RemoveAll(s: string, pat: string): string
    requires |pat| > 0
    decreases |s|
  {
    if |s| < |pat| then s
    else if s[..|pat|] == pat then RemoveAll(s[|pat|..], pat)
    else [s[0]] + RemoveAll(s[1..], pat)
  }

  /** A string without any occurrence of `pat` is left as it is. */
  lemma {:induction false} RemoveAllAbsent(s: string, pat: string)
    requires |pat| > 0
    requires !Contains(s, pat)
    ensures RemoveAll(s, pat) == s
    decreases |s|
  {
    if |s| >= |pat| {
      RemoveAllAbsent(s[1..], pat);
      assert s == [s[0]] + s[1..];
    }
  }

  /** A leading occurrence of `pat` is removed and the scan goes on after it. */
  lemma RemoveAllPrefix(pat: string, s: string)
    requires |pat| > 0
    ensures RemoveAll(pat + s, pat) == RemoveAll(s, pat)
  {
    assert (pat + s)[..|pat|] == pat;
    assert (pat + s)[|pat|..] == s;
  }

  /** JS `s.replace(c, "")` with a string pattern: only the first occurrence of
      `c` is removed. */
  function RemoveFirst(s: string, c: char): (r: string)
    ensures c in s ==> |r| == |s| - 1
    ensures c in s ==> r == s[..IndexOf(s, c)] + s[IndexOf(s, c) + 1..]
    ensures c !in s ==> r == s
    decreases |s|
  {
    if |s| == 0 then s
    else if s[0] == c then s[1..]
    else
      assert s == [s[0]] + s[1..];
      var rest := RemoveFirst(s[1..], c);
      if c in s[1..] then
        RemoveAfterHead(s, c);
        [s[0]] + rest
      else
        [s[0]] + rest
  }

  /** Removing the first `c` behind a head that is not `c` keeps the head. */
  lemma RemoveAfterHead(s: string, c: char)
    requires |s| > 0 && s[0] != c && c in s[1..]
    ensures s[..IndexOf(s, c)] + s[IndexOf(s, c) + 1..] ==
            [s[0]] + (s[1..][..IndexOf(s[1..], c)] + s[1..][IndexOf(s[1..], c) + 1..])
  {
    var k := IndexOf(s[1..], c);
    assert IndexOf(s, c) == k + 1;
    assert s[..k + 1] == [s[0]] + s[1..][..k];
    assert s[k + 2..] == s[1..][k + 1..];
  }

  predicate IsNumericChar(c: char) {
    IsDigit(c) || c == '.' || c == '-'
  }

  /** JS `s.replace(/[^0-9.-]+/g, "")`: keeps only digits, `.` and `-`, in
      their original order. */
  function KeepNumericChars(s: string): (r: string)
    ensures forall k :: 0 <= k < |r| ==> IsNumericChar(r[k])
    ensures |r| <= |s|
    ensures (forall k :: 0 <= k < |s| ==> IsNumericChar(s[k])) ==> r == s
    ensures (forall k :: 0 <= k < |s| ==> !IsNumericChar(s[k])) ==> r == ""
    decreases |s|
  {
    if |s| == 0 then s
    else if IsNumericChar(s[0]) then [s[0]] + KeepNumericChars(s[1..])
    else KeepNumericChars(s[1..])
  }

  /** A character other than a digit, `.` or `-` in front is dropped. */
  lemma KeepNumericCharsDrops(c: char, s: string)
    requires !IsNumericChar(c)
    ensures KeepNumericChars([c] + s) == KeepNumericChars(s)
  {
    assert ([c] + s)[0] == c && ([c] + s)[1..] == s;
  }

  /** Two non-numeric characters are dropped wherever they stand among
      numeric text. */
  lemma KeepNumericCharsAround(c: char, x: string, d: char, y: string)
    requires !IsNumericChar(c) && !IsNumericChar(d)
    requires forall k :: 0 <= k < |x| ==> IsNumericChar(x[k])
    requires forall k :: 0 <= k < |y| ==> IsNumericChar(y[k])
    ensures KeepNumericChars([c] + (x + ([d] + y))) == x + y
  {
    var rest := x + ([d] + y);
    KeepNumericCharsDrops(c, rest);
    KeepNumericCharsAppend(x, [d] + y);
    KeepNumericCharsDrops(d, y);
  }

  /** The filter works character by character: the kept characters of a
      concatenation are those of each part, in order. With the one-character
      cases this fixes the result of every text. */
  lemma {:induction false} KeepNumericCharsAppend(a: string, b: string)
    ensures KeepNumericChars(a + b) == KeepNumericChars(a) + KeepNumericChars(b)
    decreases |a|
  {
    if |a| > 0 {
      assert (a + b)[0] == a[0] && (a + b)[1..] == a[1..] + b;
      KeepNumericCharsAppend(a[1..], b);
    } else {
      assert a + b == b;
    }
  }

  // ---------------------------------------------------------------------
  // Decimal digits
  // ---------------------------------------------------------------------

  function DigitChar(d: nat): (c: char)
    requires d < 10
    ensures IsDigit(c)
  {
    ['0', '1', '2', '3', '4', '5', '6', '7', '8', '9'][d]
  }

  function DigitValue(c: char): (d: nat)
    requires IsDigit(c)
    ensures d < 10
  {
    (c as int - '0' as int) as nat
  }

  /** Decimal representation without leading zeros (`String(n)` in JS, the
      array index in a form key, an integer interpolated by PHP). */
  function NatToString(n: nat): (s: string)
    ensures |s| > 0 && AllDigits(s)
    decreases n
  {
    if n < 10 then [DigitChar(n)] else NatToString(n / 10) + [DigitChar(n % 10)]
  }

  /** The number a string of decimal digits denotes. */
  function DigitsValue(s: string): nat
    requires AllDigits(s)
    decreases |s|
  {
    if |s| == 0 then 0 else DigitsValue(s[..|s| - 1]) * 10 + DigitValue(s[|s| - 1])
  }

  /** Reading back the digits of `n` gives `n`. */
  lemma {:induction false} NatToStringRoundTrip(n: nat)
    ensures DigitsValue(NatToString(n)) == n
    decreases n
  {
    if n >= 10 {
      NatToStringRoundTrip(n / 10);
      var s := NatToString(n);
      assert s[..|s| - 1] == NatToString(n / 10);
    }
  }

  /** Only zero prints with a leading `0`. */
  lemma {:induction false} NatToStringLeading(n: nat)
    requires n > 0
    ensures NatToString(n)[0] != '0'
    decreases n
  {
    if n >= 10 {
      NatToStringLeading(n / 10);
    }
  }

  /** Distinct numbers print differently. */
  lemma NatToStringInjective(m: nat, n: nat)
    ensures NatToString(m) == NatToString(n) ==> m == n
  {
    NatToStringRoundTrip(m);
    NatToStringRoundTrip(n);
  }

  /** Code-point order on strings: at the first difference the smaller
      character wins, and a proper prefix comes first. */
  predicate LexLess(a: string, b: string)
    decreases |a|
  {
    if |a| == 0 then |b| > 0
    else if |b| == 0 then false
    else if a[0] != b[0] then a[0] < b[0]
    else LexLess(a[1..], b[1..])
  }

  lemma {:induction false} LexIrreflexive(a: string)
    ensures !LexLess(a, a)
    decreases |a|
  {
    if |a| > 0 {
      LexIrreflexive(a[1..]);
    }
  }

  lemma {:induction false} LexTransitive(a: string, b: string, c: string)
    requires LexLess(a, b) && LexLess(b, c)
    ensures LexLess(a, c)
    decreases |a|
  {
    if |a| > 0 && a[0] == b[0] && b[0] == c[0] {
      LexTransitive(a[1..], b[1..], c[1..]);
    }
  }

  /** Two different strings are ordered one way or the other. */
  lemma {:induction false} LexTotal(a: string, b: string)
    requires a != b
    ensures LexLess(a, b) || LexLess(b, a)
    decreases |a|
  {
    if |a| > 0 && |b| > 0 && a[0] == b[0] {
      assert a == [a[0]] + a[1..] && b == [b[0]] + b[1..];
      LexTotal(a[1..], b[1..]);
    }
  }
}

=== FILE: validation.dfy ===
/** The part of Laravel's request validator the controllers use: a list of
    attributes, each with its rules, checked against the request's input.
    Database lookups (`exists:`) are sets of ids and the e-mail syntax check
    is a parameter. */
module Validation {
  import opened Wrappers
  import opened Strings
  import opened PhpValues

  datatype Rule =
    | Required
    | Sometimes
    | Nullable
    | IsString
    | MaxSize(max: nat)
    | MinSize(min: nat)
    | Email
    | Numeric
    | Integer
    | IsArray
    | ExistsIn(ids: set<int>)
    | OneOf(values: set<string>)
    | Image
    | Mimes(exts: set<string>)

  /** A top-level input key, or `list.*.field`: that field of every element of
      the array under `list`. */
  datatype Attribute = Field(name: string) | EachOf(list: string, field: string)

  datatype AttributeRules = AttributeRules(attr: Attribute, rules: seq<Rule>)

  /** The request input: `$request->all()`, uploaded files included. */
  type Input = map<string, Val>

  const ImageExts: set<string> := {"jpg", "jpeg", "png", "gif", "bmp", "svg", "webp"}

  /** A string that PHP's `trim` empties. */
  predicate IsBlankString(v: Val) {
    v.VStr? && |Trim(v.s, PhpBlanks)| == 0
  }

  /** The `required` rule: present, not null, not a blank string, not an empty
      array. */
  predicate Filled(v: Option<Val>) {
    match v
    case None => false
    case Some(x) => x != VNull && !IsBlankString(x) && x != VArr([])
  }

  predicate HasNumericRule(rules: seq<Rule>) {
    Numeric in rules || Integer in rules
  }

  /** The size `min`/`max` compare: the number itself under a numeric rule,
      the element count of an array, the kilobytes of a file, otherwise the
      length of the text. The text of a float is not modelled (no size). */
  function Size(v: Val, numeric: bool): Option<real> {
    if numeric && IsNumeric(v) then Some(NumericValue(v))
    else
      match v
      case VArr(es) => Some(|es| as real)
      case VUpload(_, kb) => Some(kb as real)
      case VStr(s) => Some(|s| as real)
      case VNull => Some(0.0)
      case VBool(b) => Some(if b then 1.0 else 0.0)
      case VInt(i) => Some(|IntText(i)| as real)
      case VFloat(_) => None
  }

  /** PHP's decimal text of an integer. */
  function IntText(i: int): string {
    if i < 0 then "-" + NatToString(-i) else NatToString(i)
  }

  /** The id an `exists:` rule looks up: an integer or a digit string. */
  function IdOf(v: Val): Option<int> {
    match v
    case VInt(i) => Some(i)
    case VStr(s) => if |s| > 0 && AllDigits(s) then Some(DigitsValue(s)) else None
    case _ => None
  }

  /** One non-presence rule on a value that is there to check. */
  predicate Check(r: Rule, rules: seq<Rule>, v: Val, isEmail: string -> bool) {
    match r
    case Required => Filled(Some(v))
    case Sometimes => true
    case Nullable => true
    case IsString => v.VStr?
    case MaxSize(n) =>
      var sz := Size(v, HasNumericRule(rules));
      sz.Some? && sz.value <= n as real
    case MinSize(n) =>
      var sz := Size(v, HasNumericRule(rules));
      sz.Some? && sz.value >= n as real
    case Email => v.VStr? && isEmail(v.s)
    case Numeric => IsNumeric(v)
    case Integer => IsInteger(v)
    case IsArray => v.VArr?
    case ExistsIn(ids) => IdOf(v).Some? && IdOf(v).value in ids
    case OneOf(values) => v.VStr? && v.s in values
    case Image => v.VUpload? && v.ext in ImageExts
    case Mimes(exts) => v.VUpload? && v.ext in exts
  }

  /** Whether the validator runs rule `r` at all: only `required` runs on an
      absent value or a blank string, nothing runs on an absent `sometimes`
      attribute, and a `nullable` attribute skips its other rules on null. */
  predicate Applies(r: Rule, rules: seq<Rule>, v: Option<Val>) {
    (if v.Some? && IsBlankString(v.value) then r == Required else v.Some? || r == Required) &&
    (Sometimes in rules ==> v.Some?) &&
    (r == Required || Nullable !in rules || v != Some(VNull))
  }

  predicate RulePasses(r: Rule, rules: seq<Rule>, v: Option<Val>, isEmail: string -> bool) {
    Applies(r, rules, v) ==>
      if r == Required then Filled(v) else v.Some? && Check(r, rules, v.value, isEmail)
  }

  predicate AttributePasses(rules: seq<Rule>, v: Option<Val>, isEmail: string -> bool) {
    forall r :: r in rules ==> RulePasses(r, rules, v, isEmail)
  }

  /** The value an element of a wildcard list holds for `field`. Laravel fills
      in `null` for an element that lacks the field or is not an array. */
  function ElementField(element: Val, field: string): Val {
    if element.VArr? then Lookup(element.entries, field).GetOr(VNull) else VNull
  }

  /** The failing attribute names, in rule-list order; a wildcard attribute
      names each failing element `list.key.field`. */
  function Failures(spec: seq<AttributeRules>, input: Input, isEmail: string -> bool): (names: seq<string>)
    decreases |spec|
  {
    if |spec| == 0 then []
    else
      var ar := spec[0];
      var here := match ar.attr
        case Field(name) =>
          var v := if name in input then Some(input[name]) else None;
          if AttributePasses(ar.rules, v, isEmail) then [] else [name]
        case EachOf(list, field) =>
          if list in input && input[list].VArr? then
            ElementFailures(list, input[list].entries, field, ar.rules, isEmail)
          else [];
      here + Failures(spec[1..], input, isEmail)
  }

  function ElementFailures(list: string, es: seq<(string, Val)>, field: string, rules: seq<Rule>,
                           isEmail: string -> bool): (names: seq<string>)
    ensures |names| == 0 <==> forall k :: 0 <= k < |es| ==>
              AttributePasses(rules, Some(ElementField(es[k].1, field)), isEmail)
    decreases |es|
  {
    if |es| == 0 then []
    else
      var here := if AttributePasses(rules, Some(ElementField(es[0].1, field)), isEmail) then []
                  else [list + "." + es[0].0 + "." + field];
      var rest := ElementFailures(list, es[1..], field, rules, isEmail);
      assert forall k :: 0 < k < |es| ==> es[k] == es[1..][k - 1];
      here + rest
  }

  /** Every listed attribute, and every element of a wildcard list, passes
      its rules. */
  predicate AllPass(spec: seq<AttributeRules>, input: Input, isEmail: string -> bool) {
    forall i :: 0 <= i < |spec| ==> AttributeRulesPass(spec[i], input, isEmail)
  }

  predicate AttributeRulesPass(ar: AttributeRules, input: Input, isEmail: string -> bool) {
    match ar.attr
    case Field(name) =>
      AttributePasses(ar.rules, if name in input then Some(input[name]) else None, isEmail)
    case EachOf(list, field) =>
      list in input && input[list].VArr? ==>
        forall k :: 0 <= k < |input[list].entries| ==>
          AttributePasses(ar.rules, Some(ElementField(input[list].entries[k].1, field)), isEmail)
  }

  /** Validation fails with no attribute named exactly when every attribute
      passes. */
  lemma {:induction false} NoFailuresIffAllPass(spec: seq<AttributeRules>, input: Input, isEmail: string -> bool)
    ensures |Failures(spec, input, isEmail)| == 0 <==> AllPass(spec, input, isEmail)
    decreases |spec|
  {
    if |spec| > 0 {
      NoFailuresIffAllPass(spec[1..], input, isEmail);
      assert forall i :: 1 <= i < |spec| ==> spec[i] == spec[1..][i - 1];
      assert AllPass(spec, input, isEmail) <==>
        AttributeRulesPass(spec[0], input, isEmail) && AllPass(spec[1..], input, isEmail);
    }
  }

  /** Whether an attribute of the rule list reads the request key. */
  predicate Reads(ar: AttributeRules, key: string) {
    match ar.attr
    case Field(name) => name == key
    case EachOf(list, _) => list == key
  }

  /** A request key no attribute reads makes no difference to validation. */
  lemma {:induction false} FailuresIgnoreKey(spec: seq<AttributeRules>, input: Input, key: string,
                                             isEmail: string -> bool)
    requires forall i :: 0 <= i < |spec| ==> !Reads(spec[i], key)
    ensures Failures(spec, input - {key}, isEmail) == Failures(spec, input, isEmail)
    decreases |spec|
  {
    if |spec| > 0 {
      assert forall i :: 1 <= i < |spec| ==> spec[i] == spec[1..][i - 1];
      FailuresIgnoreKey(spec[1..], input, key, isEmail);
    }
  }

  /** `required` alone decides the attribute: it passes exactly when the value
      is filled. */
  lemma RequiredMeansFilled(rules: seq<Rule>, v: Option<Val>, isEmail: string -> bool)
    requires Required in rules && Sometimes !in rules
    requires AttributePasses(rules, v, isEmail)
    ensures Filled(v)
  {
    assert RulePasses(Required, rules, v, isEmail);
  }
}

=== FILE: wrappers.dfy ===
/** Failure-carrying result types shared by every module of the model. */
module Wrappers {

  /** A value that may be absent: PHP `null`, a missing request key, a JS `null`. */
  datatype Option<+T> = None | Some(value: T) {
    function GetOr(default: T): T {
      match this
      case Some(v) => v
      case None => default
    }
  }

  /** Either a computed value or the error that was raised instead (a thrown JS
      `Error`, a PHP exception). */
  datatype Result<+R, +E> = Ok(value: R) | Err(error: E) {
    predicate IsFailure() {
      Err?
    }

    function PropagateFailure<U>(): Result<U, E>
      requires Err?
    {
      Err(error)
    }

    function Extract(): R
      requires Ok?
    {
      value
    }
  }
}
